=== FILE: README.md ===
# audiodragon capture core in Dafny

audiodragon records an audio source, splits the stream into tracks at stretches of
silence, asks a recognition service what each track is, augments the answer from
MusicBrainz and writes every track to a file named after it. This project models the
parts of that pipeline that decide what ends up in which file. They are:

- **Audio formats** (`AudioFormats`): effective frame rate and frame size, and the
  conversions between durations, frame counts and byte counts.
- **PCM data** (`Pcm`): the duration of a chunk, time slices, and decoding frames of
  samples with `bytesToLong`. A byte encoder is the partner that makes the round trips
  statable.
- **Track data** (`Tracks`): the right-biased field-wise `merge`.
- **Audio buffers**:
  - the in-memory buffer (`InMemoryBuffers`);
  - the disk-spilling buffer of the current revision (`DiskSpilling`), whose chunked
    read-back from the spill file is a method with a loop;
  - the older disk-spilling buffer (`LegacyDiskSpilling`) and the older buffer interface
    (`LegacyAudioBuffers`);
  - the resettable buffer (`Resettable`), which hands out the buffer it replaces.
- **The track-bounds detector** (`TrackBounds`): a state machine over chunks that are
  silent or not.
- **The track recognizer** of both revisions (`Recognition`, `LegacyRecognition`): the
  retry chain over samples, the sample window, and the postprocessors.
- **The capture** of both revisions (`Captures`, `LegacyCapture`): it dispatches
  detector states to track starts and ends, resets buffers, hands finished tracks to the
  writer, and tracks the stop-after-track request.
- **The MusicBrainz postprocessor** (`MusicBrainz`): whether a lookup is made, the score
  threshold, the failures it absorbs, and which side of the merge wins.
- **File names** (`FileNames`): `filenameFor` and `sanitizeFilename`.
- **PulseAudio sample specifications** (`Pactl`):
  - parsing texts like `s16le 2ch 48000Hz`;
  - printing the format token;
  - converting to and from an audio format.

Both revisions of the repository are modelled where the core has two: the older
`core/` module and the current `src/` tree. Their agreement is proved where they agree,
and their difference is stated where they differ.

Modelling conventions:
- Nullable values are `Option`.
- A call that throws is a `Result` whose error message names the exception.
- Durations are whole milliseconds (`nat`).
- Bytes are `0..255`.
- Mutable objects are immutable datatypes with pure transition functions.
- A capture's published events are an explicit event log.

## Model

| member | source | states |
|---|---|---|
| AudioFormats.EffectiveFrameRate | core/src/main/kotlin/de/matthiasfisch/audiodragon/util/AudioFormat.kt:9-15 | fails exactly when both the frame rate and the sample rate are unspecified; otherwise the frame rate, falling back to the sample rate |
| AudioFormats.EffectiveFrameSize | core/src/main/kotlin/de/matthiasfisch/audiodragon/util/AudioFormat.kt:17-21 | fails exactly when the frame size is unspecified and so is the channel count or the sample size; otherwise the given frame size, or channels times bits rounded down to whole bytes |
| AudioFormats.DurationToFrameCount | core/src/main/kotlin/de/matthiasfisch/audiodragon/util/AudioFormat.kt:23 | the largest whole number of frames that fits in the duration at the effective frame rate |
| AudioFormats.DurationToByteCount | core/src/main/kotlin/de/matthiasfisch/audiodragon/util/AudioFormat.kt:25 | those whole frames times the effective frame size; defined exactly when both effective values are |
| AudioFormats.FrameCountToDuration | core/src/main/kotlin/de/matthiasfisch/audiodragon/util/AudioFormat.kt:27 | the largest whole number of milliseconds the frames do not fall short of |
| AudioFormats.ByteCountToDuration | core/src/main/kotlin/de/matthiasfisch/audiodragon/util/AudioFormat.kt:29 | the duration of the whole frames in the byte count; fails on an unresolvable format or a zero frame size |
| AudioFormats.ByteCountIsWholeFrames | core/src/main/kotlin/de/matthiasfisch/audiodragon/util/AudioFormat.kt:23-25 | a byte count computed from a duration never splits a frame |
| AudioFormats.DurationToByteCountMonotone | core/src/main/kotlin/de/matthiasfisch/audiodragon/util/AudioFormat.kt:23-25 | a longer duration never gives fewer bytes |
| AudioFormats.ZeroDurationIsZeroBytes | core/src/main/kotlin/de/matthiasfisch/audiodragon/util/AudioFormat.kt:23-25 | zero milliseconds are zero bytes |
| AudioFormats.ByteCountToDurationIgnoresPartialFrame | core/src/main/kotlin/de/matthiasfisch/audiodragon/util/AudioFormat.kt:29 | byte counts that hold the same number of whole frames have the same duration |
| AudioFormats.DurationRoundTripRoundsDown | core/src/main/kotlin/de/matthiasfisch/audiodragon/util/AudioFormat.kt:23-29 | converting a duration to bytes and back never gives more than the original duration |
| AudioFormats.ByteCountToDurationExample | core/src/test/kotlin/de/matthiasfisch/audiodragon/buffer/InMemoryAudioBufferTest.kt:234-246 | 1300 bytes of the test format (100 frames/s, 4-byte frames, so 400 bytes/s) last 3250 ms |
| AudioFormats.SubFrameOffsetRoundsDown | core/src/test/kotlin/de/matthiasfisch/audiodragon/buffer/InMemoryAudioBufferTest.kt:176-188 | an offset of 4005 ms in the test format lands on the frame boundary of 4000 ms |
| Pcm.Duration | core/src/main/kotlin/de/matthiasfisch/audiodragon/model/PcmData.kt:21-28 | succeeds exactly when the format resolves and the data is whole frames; the frames' duration rounded half up to whole milliseconds |
| Pcm.DurationIsRoundedByteCountToDuration | core/src/main/kotlin/de/matthiasfisch/audiodragon/model/PcmData.kt:21-28 | a chunk's rounded duration is the floored byte-count duration or one millisecond more |
| Pcm.DurationOfEmptyIsZero | core/src/test/kotlin/de/matthiasfisch/audiodragon/model/PcmDataTest.kt:34-40 | empty data lasts 0 ms |
| Pcm.DurationExample | core/src/test/kotlin/de/matthiasfisch/audiodragon/model/PcmDataTest.kt:42-48 | 1300 bytes of the test format last 3250 ms |
| Pcm.TimeSlice | core/src/main/kotlin/de/matthiasfisch/audiodragon/model/PcmData.kt:30-34 | the bytes from the offset's byte position on, for the length's byte count, clipped to the data; fails exactly when the format's rate or frame size is unresolvable |
| Pcm.TimeSliceEmpty | core/src/main/kotlin/de/matthiasfisch/audiodragon/model/PcmData.kt:30-34 | an offset at or past the end, or a zero length, gives no bytes |
| Pcm.TimeSliceExamples | core/src/test/kotlin/de/matthiasfisch/audiodragon/model/PcmDataTest.kt:51-103 | the slices of 4000 bytes at the offsets and lengths the tests use |
| Pcm.BytesToLong | core/src/main/kotlin/de/matthiasfisch/audiodragon/model/PcmData.kt:82-87 | fails exactly for signed decoding of no bytes (BigInteger of an empty array); every result lies in the 64-bit range |
| Pcm.LittleEndianIsReversedBigEndian | core/src/main/kotlin/de/matthiasfisch/audiodragon/model/PcmData.kt:83 | little-endian decoding is big-endian decoding of the reversed bytes |
| Pcm.UnsignedRange | core/src/main/kotlin/de/matthiasfisch/audiodragon/model/PcmData.kt:84-86 | unsigned decoding of 1 to 7 bytes gives a value in [0, 256^n) |
| Pcm.SignedRange | core/src/main/kotlin/de/matthiasfisch/audiodragon/model/PcmData.kt:84-86 | signed decoding of 1 to 8 bytes gives a two's-complement value in [-256^n/2, 256^n/2) |
| Pcm.DecodeEncode | core/src/main/kotlin/de/matthiasfisch/audiodragon/model/PcmData.kt:82-87 | decoding the encoding of any representable value, in either byte order and signedness, gives the value back |
| Pcm.ToDiscreteFrames | core/src/main/kotlin/de/matthiasfisch/audiodragon/model/PcmData.kt:59-80 | fails on a zero frame size, a non-PCM encoding with frames to decode, or frames that run past the data; otherwise one frame per whole frame size, each holding one decoded sample per channel |
| Pcm.DecodeFramesAt | core/src/main/kotlin/de/matthiasfisch/audiodragon/model/PcmData.kt:67-80 | sample k of frame i is decoded from the bytes at sample position i * channels + k |
| Pcm.DecodeEncodeSample | core/src/main/kotlin/de/matthiasfisch/audiodragon/model/PcmData.kt:67-80 | each sample of encoded frames decodes to the sample that was encoded |
| Pcm.DecodeEncodeFrames | core/src/main/kotlin/de/matthiasfisch/audiodragon/model/PcmData.kt:59-80 | decoding frames of representable samples after encoding them gives the frames back |
| Pcm.DecodeEncodeFramesExample | core/src/test/kotlin/de/matthiasfisch/audiodragon/model/PcmDataTest.kt:105-122 | the unsigned 16-bit big-endian frames [[1331, 256], [0, 138]] survive the round trip |
| Tracks.Merge | core/src/main/kotlin/de/matthiasfisch/audiodragon/model/TrackData.kt:15-26 | every field the argument sets comes from the argument, every other field from the receiver |
| Tracks.MergeIdentity | core/src/main/kotlin/de/matthiasfisch/audiodragon/model/TrackData.kt:15-26 | the all-null record is a left and right identity |
| Tracks.MergeIdempotent | core/src/main/kotlin/de/matthiasfisch/audiodragon/model/TrackData.kt:15-26 | merging a record with itself changes nothing |
| Tracks.MergeAssociative | core/src/main/kotlin/de/matthiasfisch/audiodragon/model/TrackData.kt:15-26 | successive merges may be grouped either way |
| Tracks.MergeSetFields | core/src/main/kotlin/de/matthiasfisch/audiodragon/model/TrackData.kt:15-26 | a merge sets exactly the fields either side sets |
| Tracks.MergeReplacesLists | core/src/main/kotlin/de/matthiasfisch/audiodragon/model/TrackData.kt:15-26 | set lists on the right replace those on the left whole, never appended |
| Tracks.MergeAbsorbs | core/src/main/kotlin/de/matthiasfisch/audiodragon/model/TrackData.kt:15-26 | merging the right side in again, on either side, adds nothing |
| InMemoryBuffers.New | core/src/main/kotlin/de/matthiasfisch/audiodragon/buffer/InMemoryAudioBuffer.kt:15-16 | a new buffer is empty and has the given format |
| InMemoryBuffers.Add | core/src/main/kotlin/de/matthiasfisch/audiodragon/buffer/InMemoryAudioBuffer.kt:20 | the buffer afterwards holds its earlier bytes followed by the chunk |
| InMemoryBuffers.GetRange | core/src/main/kotlin/de/matthiasfisch/audiodragon/buffer/InMemoryAudioBuffer.kt:24-29 | the bytes from the offset's byte position for the length's byte count, or to the end without a length, clipped to the buffer |
| InMemoryBuffers.Duration | core/src/main/kotlin/de/matthiasfisch/audiodragon/buffer/InMemoryAudioBuffer.kt:31 | the floored duration of the whole frames held; fails exactly on an unresolvable format |
| InMemoryBuffers.GetReturnsAllAdds | core/src/test/kotlin/de/matthiasfisch/audiodragon/buffer/InMemoryAudioBufferTest.kt:49-102 | reading after any sequence of adds gives their concatenation, and the size counts all of it |
| InMemoryBuffers.EmptyBufferHasZeroDuration | core/src/test/kotlin/de/matthiasfisch/audiodragon/buffer/InMemoryAudioBufferTest.kt:248-257 | an empty buffer lasts 0 ms |
| InMemoryBuffers.GetRangeExamples | core/src/test/kotlin/de/matthiasfisch/audiodragon/buffer/InMemoryAudioBufferTest.kt:147-231 | the time slices of 4000 bytes the tests read, including past-the-end and zero-length ones |
| InMemoryBuffers.DurationExample | core/src/test/kotlin/de/matthiasfisch/audiodragon/buffer/InMemoryAudioBufferTest.kt:234-246 | a buffer of 1300 bytes in the test format lasts 3250 ms |
| DiskSpilling.Spill | src/main/kotlin/de/matthiasfisch/audiodragon/core/buffer/DiskSpillingAudioBuffer.kt:35-43 | no byte is lost or reordered; the memory part moves to the spill file whole, exactly when it and the chunk together would exceed the cap |
| DiskSpilling.LastChunkStart | src/main/kotlin/de/matthiasfisch/audiodragon/core/buffer/DiskSpillingAudioBuffer.kt:56-61 | the last chunk of a spill read back in chunks of the cap starts less than one cap before the end, and after the first chunk when there is more than one |
| DiskSpilling.Stream | src/main/kotlin/de/matthiasfisch/audiodragon/core/buffer/DiskSpillingAudioBuffer.kt:50-80 | what the stream of `get` yields as written: always a prefix of the bytes held, all of them when memory bytes remain or nothing was spilled; with an empty memory part nothing when the spill fits in one chunk, otherwise less than one chunk short, and complete exactly when the last chunk holds one byte; fails exactly with a zero cap after spilling |
| DiskSpilling.Drain | src/main/kotlin/de/matthiasfisch/audiodragon/core/buffer/DiskSpillingAudioBuffer.kt:50-80 | running the iterator step by step (eager first chunk, `hasNext` on bytes loaded or memory left, `next` from chunk, new chunk or memory) yields exactly what `Stream` says |
| DiskSpilling.Next | src/main/kotlin/de/matthiasfisch/audiodragon/core/buffer/DiskSpillingAudioBuffer.kt:70-79 | one call to `next`: the iterator invariant holds again, the byte returned extends what was yielded, fewer bytes remain, and a call that loads the last chunk leaves one byte of it yielded; fails exactly when the chunk it has to load is empty, which only a zero cap causes |
| DiskSpilling.StreamFixed | src/main/kotlin/de/matthiasfisch/audiodragon/core/buffer/DiskSpillingAudioBuffer.kt:68 | with `hasNext` also true while the loaded chunk has bytes left, the stream yields every byte held, spilled first |
| DiskSpilling.DrainFixed | src/main/kotlin/de/matthiasfisch/audiodragon/core/buffer/DiskSpillingAudioBuffer.kt:50-80 | the iterator with the corrected `hasNext`, run step by step, yields what `StreamFixed` says |
| DiskSpilling.SkipLimit | src/main/kotlin/de/matthiasfisch/audiodragon/core/buffer/DiskSpillingAudioBuffer.kt:86-87 | skip then limit: the bytes from position n on, at most the limit of them |
| DiskSpilling.New | src/main/kotlin/de/matthiasfisch/audiodragon/core/buffer/DiskSpillingAudioBuffer.kt:19-25 | a new buffer is empty and open |
| DiskSpilling.Add | src/main/kotlin/de/matthiasfisch/audiodragon/core/buffer/DiskSpillingAudioBuffer.kt:31-45 | fails exactly on a closed buffer; otherwise the contents grow by the chunk and the memory part stays within the cap unless it is exactly the chunk |
| DiskSpilling.Read | src/main/kotlin/de/matthiasfisch/audiodragon/core/buffer/DiskSpillingAudioBuffer.kt:47-81 | fails exactly on a closed buffer, or with a zero cap after spilling; otherwise a prefix of the bytes held, all of them when the buffer drains |
| DiskSpilling.Get | src/main/kotlin/de/matthiasfisch/audiodragon/core/buffer/DiskSpillingAudioBuffer.kt:47-81 | the `require` on the closed state followed by the step-by-step iterator computes what `Read` specifies |
| DiskSpilling.ReadFixed | src/main/kotlin/de/matthiasfisch/audiodragon/core/buffer/DiskSpillingAudioBuffer.kt:47-81 | with the corrected `hasNext`, every byte held; fails exactly as `Read` does |
| DiskSpilling.GetFixed | src/main/kotlin/de/matthiasfisch/audiodragon/core/buffer/DiskSpillingAudioBuffer.kt:47-81 | the corrected iterator computes what `ReadFixed` specifies |
| DiskSpilling.GetRange | src/main/kotlin/de/matthiasfisch/audiodragon/core/buffer/DiskSpillingAudioBuffer.kt:83-88 | the bytes of the stream of `get()` from the offset's byte position for the length's byte count, clipped to the stream; fails when the format is unresolvable or reading fails |
| DiskSpilling.Size | src/main/kotlin/de/matthiasfisch/audiodragon/core/buffer/DiskSpillingAudioBuffer.kt:92 | counts spilled and in-memory bytes together |
| DiskSpilling.Duration | src/main/kotlin/de/matthiasfisch/audiodragon/core/buffer/DiskSpillingAudioBuffer.kt:90 | the floored duration of the whole frames held, on a closed buffer too |
| DiskSpilling.Close | src/main/kotlin/de/matthiasfisch/audiodragon/core/buffer/DiskSpillingAudioBuffer.kt:94-103 | a closed buffer keeps its size but can no longer be read |
| DiskSpilling.ContentsAreAllAdds | src/main/kotlin/de/matthiasfisch/audiodragon/core/buffer/DiskSpillingAudioBuffer.kt:31-45 | after any adds the spilled bytes followed by the memory bytes are all chunks in order, and the memory part stays within the cap or is the last chunk |
| DiskSpilling.GetAfterAdds | src/test/kotlin/de/matthiasfisch/audiodragon/core/buffer/DiskSpillingAudioBufferTest.kt:23-134 | with a positive cap, reading after any adds gives a prefix of their concatenation, and all of it when the buffer drains, which a non-empty last chunk (as in every test) guarantees |
| DiskSpilling.FixedGetAfterAdds | src/test/kotlin/de/matthiasfisch/audiodragon/core/buffer/DiskSpillingAudioBufferTest.kt:23-134 | with the corrected `hasNext` and a positive cap, reading after any adds gives their concatenation |
| DiskSpilling.StrandedTailExample | src/main/kotlin/de/matthiasfisch/audiodragon/core/buffer/DiskSpillingAudioBuffer.kt:58-68 | cap 50, a 200-byte chunk and then an empty chunk: all 200 bytes are spilled, memory is empty, and `get()` yields only the first 151 bytes, while the corrected stream yields all 200 |
| DiskSpilling.ClosedRejectsEverything | src/main/kotlin/de/matthiasfisch/audiodragon/core/buffer/DiskSpillingAudioBuffer.kt:32-48 | after close, add, read and range reads all fail |
| DiskSpilling.SpillExample | src/test/kotlin/de/matthiasfisch/audiodragon/core/buffer/DiskSpillingAudioBufferTest.kt:80-95 | with a cap of 50, chunks of 30, 30 and 200 bytes leave 60 bytes spilled and the 200 in memory |
| DiskSpilling.GetRangeAgreesWithInMemory | src/main/kotlin/de/matthiasfisch/audiodragon/core/buffer/DiskSpillingAudioBuffer.kt:83-88 | a readable spilling buffer answers every range read as an in-memory buffer holding what its stream yields would, and as one holding all its bytes when it drains |
| LegacyDiskSpilling.New | core/src/main/kotlin/de/matthiasfisch/audiodragon/buffer/DiskSpillingAudioBuffer.kt:15-19 | a new buffer is empty |
| LegacyDiskSpilling.Add | core/src/main/kotlin/de/matthiasfisch/audiodragon/buffer/DiskSpillingAudioBuffer.kt:23-36 | the contents grow by the chunk, with the spill rule of the current revision and no closed state |
| LegacyDiskSpilling.Get | core/src/main/kotlin/de/matthiasfisch/audiodragon/buffer/DiskSpillingAudioBuffer.kt:38-70 | the iterator of the current revision, with the same `hasNext` at line 57, computes what `Read` specifies |
| LegacyDiskSpilling.Read | core/src/main/kotlin/de/matthiasfisch/audiodragon/buffer/DiskSpillingAudioBuffer.kt:38-70 | a prefix of the bytes held, all of them when the buffer drains; fails exactly with a zero cap after spilling |
| LegacyDiskSpilling.GetRange | core/src/main/kotlin/de/matthiasfisch/audiodragon/buffer/DiskSpillingAudioBuffer.kt:72-77 | the clipped range of the stream of `get()` at the offset's byte position |
| LegacyDiskSpilling.Size | core/src/main/kotlin/de/matthiasfisch/audiodragon/buffer/DiskSpillingAudioBuffer.kt:81 | counts spilled and in-memory bytes together |
| LegacyDiskSpilling.Duration | core/src/main/kotlin/de/matthiasfisch/audiodragon/buffer/DiskSpillingAudioBuffer.kt:79 | the floored duration of the whole frames held |
| LegacyDiskSpilling.ContentsAreAllAdds | core/src/main/kotlin/de/matthiasfisch/audiodragon/buffer/DiskSpillingAudioBuffer.kt:23-36 | after any adds the contents are all chunks in order |
| LegacyDiskSpilling.StrandedTailExample | core/src/main/kotlin/de/matthiasfisch/audiodragon/buffer/DiskSpillingAudioBuffer.kt:47-57 | cap 50, a 200-byte chunk and then an empty chunk: memory is empty and `get()` yields only the first 151 of the 200 bytes |
| LegacyDiskSpilling.AgreesWithCurrentRevision | core/src/main/kotlin/de/matthiasfisch/audiodragon/buffer/DiskSpillingAudioBuffer.kt:23-81 | on an open buffer the two revisions add, read, range-read and size identically |
| LegacyAudioBuffers.Make | core/src/main/kotlin/de/matthiasfisch/audiodragon/buffer/AudioBuffer.kt:10-22 | the factory's buffer is empty, of the requested format and of the factory's kind |
| LegacyAudioBuffers.Add | core/src/main/kotlin/de/matthiasfisch/audiodragon/buffer/AudioBuffer.kt:12 | either kind of buffer appends the chunk and keeps its format and kind |
| LegacyAudioBuffers.Read | core/src/main/kotlin/de/matthiasfisch/audiodragon/buffer/AudioBuffer.kt:14 | a read returns a prefix of the contents: all of them from an in-memory buffer, which never fails, and from a spilling buffer that drains |
| LegacyAudioBuffers.GetRange | core/src/main/kotlin/de/matthiasfisch/audiodragon/buffer/AudioBuffer.kt:16-18 | the clipped range of what `get()` yields, for either kind |
| LegacyAudioBuffers.Size | core/src/main/kotlin/de/matthiasfisch/audiodragon/buffer/AudioBuffer.kt:22 | the number of bytes held, for either kind |
| LegacyAudioBuffers.Duration | core/src/main/kotlin/de/matthiasfisch/audiodragon/buffer/AudioBuffer.kt:20 | the duration of the bytes held, for either kind |
| LegacyAudioBuffers.ImplementationsAgree | core/src/main/kotlin/de/matthiasfisch/audiodragon/buffer/AudioBuffer.kt:10-22 | fed the same chunks, the in-memory and disk-spilling buffers hold the same bytes and report the same size and duration; with a positive cap the spilling read is a prefix of the in-memory one, and no read tells them apart when the spilling buffer drains, as it does after a non-empty last chunk |
| Resettable.Make | src/main/kotlin/de/matthiasfisch/audiodragon/core/buffer/ResettableAudioBuffer.kt:10-12 | the factory makes an empty open buffer of its format and cap |
| Resettable.New | src/main/kotlin/de/matthiasfisch/audiodragon/core/buffer/ResettableAudioBuffer.kt:10-12 | a resettable buffer starts with an empty open buffer |
| Resettable.Reset | src/main/kotlin/de/matthiasfisch/audiodragon/core/buffer/ResettableAudioBuffer.kt:15-19 | returns the buffer it replaces, and the replacement is empty and open |
| Resettable.Add | src/main/kotlin/de/matthiasfisch/audiodragon/core/buffer/ResettableAudioBuffer.kt:23 | writes go to the current buffer and fail exactly when it is closed |
| Resettable.Close | src/main/kotlin/de/matthiasfisch/audiodragon/core/buffer/ResettableAudioBuffer.kt:35 | closes the current buffer and keeps its bytes |
| Resettable.Apply | src/main/kotlin/de/matthiasfisch/audiodragon/core/buffer/ResettableAudioBuffer.kt:15-23 | a reset hands out the current buffer; a write fails exactly on a closed buffer and hands out nothing |
| Resettable.Segments | src/main/kotlin/de/matthiasfisch/audiodragon/core/buffer/ResettableAudioBuffer.kt:15-23 | there is always an open segment after the last reset |
| Resettable.SegmentsPartitionWritten | src/main/kotlin/de/matthiasfisch/audiodragon/core/buffer/ResettableAudioBuffer.kt:15-23 | the segments between resets, concatenated, are everything written |
| Resettable.ResetsHandOutSegments | src/main/kotlin/de/matthiasfisch/audiodragon/core/buffer/ResettableAudioBuffer.kt:15-23 | after any writes and resets, the i-th buffer handed out holds exactly the bytes written between reset i-1 and reset i, and the current one holds those since the last reset |
| Resettable.AllBytesAccountedFor | src/main/kotlin/de/matthiasfisch/audiodragon/core/buffer/ResettableAudioBuffer.kt:15-23 | the handed-out buffers and the current one together hold every byte written, in order |
| Resettable.ReadsSeeBytesSinceLastReset | src/main/kotlin/de/matthiasfisch/audiodragon/core/buffer/ResettableAudioBuffer.kt:21-33 | with a positive cap, size and duration through the resettable buffer are those of the bytes since the last reset and reads yield a prefix of them; when the current buffer drains, as after a non-empty write, every read sees exactly those bytes, as an in-memory buffer of them would |
| TrackBounds.New | core/src/main/kotlin/de/matthiasfisch/audiodragon/splitting/TrackBoundsDetector.kt:11-14 | a new detector is at time 0 with no sound present |
| TrackBounds.Process | core/src/main/kotlin/de/matthiasfisch/audiodragon/splitting/TrackBoundsDetector.kt:16-35 | the clock advances by the chunk's duration. A sound chunk starts a track exactly when no sound was present, and is playing otherwise. A silent chunk ends a track exactly when sound was present and the silence since the last sound reaches the minimum; otherwise it reports playing or silence as before |
| TrackBounds.RunInvariants | core/src/main/kotlin/de/matthiasfisch/audiodragon/splitting/TrackBoundsDetector.kt:16-35 | over any chunks the clock is their total duration, track starts and ends strictly alternate beginning with a start, and sound is present exactly after a start |
| TrackBounds.ClockMonotone | core/src/main/kotlin/de/matthiasfisch/audiodragon/splitting/TrackBoundsDetector.kt:17 | the clock never runs backwards |
| TrackBounds.AllSilenceIsSilence | core/src/test/kotlin/de/matthiasfisch/audiodragon/splitting/TrackBoundsDetectorTest.kt:31-42 | continuous silence is reported as silence throughout |
| TrackBounds.RunExtend | core/src/main/kotlin/de/matthiasfisch/audiodragon/splitting/TrackBoundsDetector.kt:16-35 | processing one more chunk extends the trace by that chunk's state |
| TrackBounds.TestScenarioStart | core/src/test/kotlin/de/matthiasfisch/audiodragon/splitting/TrackBoundsDetectorTest.kt:61-80 | silence then sound reports a track start at the first sound |
| TrackBounds.TestScenarioTone | core/src/test/kotlin/de/matthiasfisch/audiodragon/splitting/TrackBoundsDetectorTest.kt:61-80 | continued sound after a start is reported as playing |
| TrackBounds.TestScenario | core/src/test/kotlin/de/matthiasfisch/audiodragon/splitting/TrackBoundsDetectorTest.kt:82-105 | enough silence after sound ends the track once, then reports silence |
| Recognition.TakeSample | src/main/kotlin/de/matthiasfisch/audiodragon/core/recognition/TrackRecognizer.kt:72-76 | the last sample-duration of the buffer, or the buffer from its start when it is shorter; fails when the buffer's duration or contents cannot be read |
| Recognition.ShortBufferSampledWhole | src/main/kotlin/de/matthiasfisch/audiodragon/core/recognition/TrackRecognizer.kt:72-76 | a buffer shorter than the sample duration is sampled from the start of its stream, through every whole frame the stream reaches; through all of its whole frames when it drains |
| Recognition.ChainCongruent | src/main/kotlin/de/matthiasfisch/audiodragon/core/recognition/TrackRecognizer.kt:30-64 | the outcome depends only on what each attempt samples and the formats it sees |
| Recognition.SmallMaxFailsAtOnce | src/main/kotlin/de/matthiasfisch/audiodragon/core/recognition/TrackRecognizer.kt:34 | with at most one retry allowed the check fails before any attempt |
| Recognition.SampleErrorFailsAtOnce | src/main/kotlin/de/matthiasfisch/audiodragon/core/recognition/TrackRecognizer.kt:36-37 | an error taking the first sample fails the recognition with that error |
| Recognition.IOErrorFailsWithoutRetry | src/main/kotlin/de/matthiasfisch/audiodragon/core/recognition/TrackRecognizer.kt:38-43 | an IOException from the service fails after one attempt, without retrying |
| Recognition.FoundIsPostprocessed | src/main/kotlin/de/matthiasfisch/audiodragon/core/recognition/TrackRecognizer.kt:45-50 | a found track is delivered after passing through every postprocessor |
| Recognition.PostprocessFirstFirst | src/main/kotlin/de/matthiasfisch/audiodragon/core/recognition/TrackRecognizer.kt:47 | the fold applies the postprocessors in list order, first one first |
| Recognition.NotFoundRetries | src/main/kotlin/de/matthiasfisch/audiodragon/core/recognition/TrackRecognizer.kt:58-63 | a miss below the limit retries with this sample appended to the earlier ones, costing one attempt |
| Recognition.AttemptSeesEarlierSamples | src/main/kotlin/de/matthiasfisch/audiodragon/core/recognition/TrackRecognizer.kt:58-63 | after k misses, attempt k is made with the samples of attempts 0 to k-1, in order |
| Recognition.ChainReaches | src/main/kotlin/de/matthiasfisch/audiodragon/core/recognition/TrackRecognizer.kt:58-63 | misses carry the chain from any earlier attempt to any later one below the limit |
| Recognition.NeverGivesUp | src/main/kotlin/de/matthiasfisch/audiodragon/core/recognition/TrackRecognizer.kt:52-56 | as written, the give-up-with-null branch is never reached |
| Recognition.ExhaustionFailsTheCheck | src/main/kotlin/de/matthiasfisch/audiodragon/core/recognition/TrackRecognizer.kt:34-63 | as written, a track never found ends in the failed check after max - 1 attempts |
| Recognition.ExhaustionExample | src/main/kotlin/de/matthiasfisch/audiodragon/core/recognition/TrackRecognizer.kt:34-63 | with a limit of 3 and no match, two attempts are made and then the check fails |
| Recognition.FixedExhaustionGivesUp | src/main/kotlin/de/matthiasfisch/audiodragon/core/recognition/TrackRecognizer.kt:52-56 | with the corrected check, a track never found is given up on, with null, after the remaining attempts |
| Recognition.FixedMakesMaxAttempts | src/main/kotlin/de/matthiasfisch/audiodragon/core/recognition/TrackRecognizer.kt:26-64 | with the corrected check, exactly the configured number of attempts is made before giving up |
| Recognition.FixedAgreesBeforeTheLastAttempt | src/main/kotlin/de/matthiasfisch/audiodragon/core/recognition/TrackRecognizer.kt:34 | the correction changes nothing when an attempt below the old limit finds the track or fails |
| Recognition.Delivered | src/main/kotlin/de/matthiasfisch/audiodragon/core/capture/Capture.kt:100-106 | the future completes with a value exactly when the chain did not fail, and that value is null exactly when it gave up |
| LegacyRecognition.TakeSample | core/src/main/kotlin/de/matthiasfisch/audiodragon/recognition/TrackRecognizer.kt:56-60 | the last sample-duration of the buffer, or the whole buffer when it is shorter; fails when its duration or contents cannot be read |
| LegacyRecognition.MemorySampleAvailable | core/src/main/kotlin/de/matthiasfisch/audiodragon/recognition/TrackRecognizer.kt:56-60 | an in-memory buffer of a resolvable format can always be sampled |
| LegacyRecognition.SmallMaxFailsAtOnce | core/src/main/kotlin/de/matthiasfisch/audiodragon/recognition/TrackRecognizer.kt:24 | with at most one retry allowed the check fails before any attempt |
| LegacyRecognition.IOErrorFailsWithoutRetry | core/src/main/kotlin/de/matthiasfisch/audiodragon/recognition/TrackRecognizer.kt:28-32 | an IOException fails after one attempt, without retrying |
| LegacyRecognition.FoundIsDeliveredUnchanged | core/src/main/kotlin/de/matthiasfisch/audiodragon/recognition/TrackRecognizer.kt:34-37 | a found track is delivered as the service returned it |
| LegacyRecognition.RetryExtendsSamples | core/src/main/kotlin/de/matthiasfisch/audiodragon/recognition/TrackRecognizer.kt:45-47 | a miss below the limit retries with the sample appended, costing one attempt |
| LegacyRecognition.NeverGivesUp | core/src/main/kotlin/de/matthiasfisch/audiodragon/recognition/TrackRecognizer.kt:39-43 | as written, the give-up-with-null branch is never reached |
| LegacyRecognition.ExhaustionFailsTheCheck | core/src/main/kotlin/de/matthiasfisch/audiodragon/recognition/TrackRecognizer.kt:24-47 | as written, a track never found ends in the failed check after max - 1 attempts |
| LegacyRecognition.FixedExhaustionGivesUp | core/src/main/kotlin/de/matthiasfisch/audiodragon/recognition/TrackRecognizer.kt:39-43 | with the corrected check, a track never found is given up on, with null, after the remaining attempts |
| LegacyRecognition.ChainAgreesWithCurrentRevision | core/src/main/kotlin/de/matthiasfisch/audiodragon/recognition/TrackRecognizer.kt:23-48 | over the same samples, the older chain is the current one with no postprocessors |
| LegacyRecognition.SampleAgreesWithCurrentRevision | core/src/main/kotlin/de/matthiasfisch/audiodragon/recognition/TrackRecognizer.kt:56-60 | both revisions take the same sample of the same spilling buffer |
| LegacyRecognition.AgreesWithCurrentRevision | core/src/main/kotlin/de/matthiasfisch/audiodragon/recognition/TrackRecognizer.kt:19-48 | given spilling buffers, the older recognizer reaches the same outcome as the current one without postprocessors |
| Captures.New | src/main/kotlin/de/matthiasfisch/audiodragon/core/capture/Capture.kt:45-47 | a capture starts with no track data, no stop request, no events and no handoffs, a fresh detector and an empty buffer |
| Captures.Start | src/main/kotlin/de/matthiasfisch/audiodragon/core/capture/Capture.kt:70-73 | starts the recording and publishes a capture-started event, changing nothing else |
| Captures.Stop | src/main/kotlin/de/matthiasfisch/audiodragon/core/capture/Capture.kt:75-81 | asks the recording to stop and publishes a capture-stopped event; the buffer keeps its bytes and is closed at once only when `record` has already returned, since the close waits for the stop future |
| Captures.OnRecordingFinished | src/main/kotlin/de/matthiasfisch/audiodragon/core/model/AudioPlatform.kt:52-58 | the end of `record` completes the stop future: normally, when a requested stop then closes the buffer with its bytes kept, or exceptionally, when nothing is closed |
| Captures.StopAfterTrack | src/main/kotlin/de/matthiasfisch/audiodragon/core/capture/Capture.kt:83-86 | sets the stop request and publishes a stop-requested event, changing nothing else |
| Captures.MergeTrackData | src/main/kotlin/de/matthiasfisch/audiodragon/core/capture/Capture.kt:92-95 | the argument becomes the current track data when there is none; otherwise it is merged in field by field. Either way the new current data is returned |
| Captures.OnTrackStarted | src/main/kotlin/de/matthiasfisch/audiodragon/core/capture/Capture.kt:97-110 | publishes a track start, launches one recognition when a recognizer is configured, and resets the buffer to an empty open one |
| Captures.OnTrackEnded | src/main/kotlin/de/matthiasfisch/audiodragon/core/capture/Capture.kt:112-126 | publishes a track end, hands the buffer and the track data to the writer, and clears the track data. With a stop request it also publishes a capture stop; the new buffer stays open unless `record` has already returned |
| Captures.OnChunk | src/main/kotlin/de/matthiasfisch/audiodragon/core/capture/Capture.kt:58-68 | the detector sees the chunk. Silence and playing change nothing else; a start and an end trigger their handlers |
| Captures.Record | src/main/kotlin/de/matthiasfisch/audiodragon/core/model/AudioPlatform.kt:47-50 | the recording's buffer grows by the chunk's bytes; it fails exactly when the buffer is closed |
| Captures.OnRecognitionResult | src/main/kotlin/de/matthiasfisch/audiodragon/core/capture/Capture.kt:100-106 | a recognized track is published and merged into the current track data; no result changes nothing |
| Captures.OnTrackWritten | src/main/kotlin/de/matthiasfisch/audiodragon/core/capture/Capture.kt:120-121 | a written file publishes its path and changes nothing else |
| Captures.StartedStep | src/main/kotlin/de/matthiasfisch/audiodragon/core/capture/Capture.kt:97-110 | a track start keeps the capture in step with the detector trace and with the buffer run, at the cost of one reset |
| Captures.EndedStep | src/main/kotlin/de/matthiasfisch/audiodragon/core/capture/Capture.kt:112-126 | a track end keeps the capture in step and hands off the buffer just reset away |
| Captures.QuietStep | src/main/kotlin/de/matthiasfisch/audiodragon/core/capture/Capture.kt:64-65 | a chunk that is no boundary only writes its bytes and keeps the capture in step |
| Captures.FeedStep | src/main/kotlin/de/matthiasfisch/audiodragon/core/capture/Capture.kt:58-68 | one more recorded chunk keeps the capture in step with the detector and the buffer run |
| Captures.FeedInvariant | src/main/kotlin/de/matthiasfisch/audiodragon/core/capture/Capture.kt:58-126 | over any recorded chunks, the capture's events, handoffs and buffer are exactly those the detector trace and the resets at its boundaries determine |
| Captures.EventsAlternate | src/main/kotlin/de/matthiasfisch/audiodragon/core/capture/Capture.kt:58-126 | the published events alternate track start and track end, and one handoff is made per track end |
| Captures.HandoffsHoldTheirTrack | src/main/kotlin/de/matthiasfisch/audiodragon/core/capture/Capture.kt:97-126 | the k-th buffer handed to the writer holds exactly the bytes recorded from the k-th track start up to its end |
| Captures.StopAfterTrackHandsOffFirst | src/main/kotlin/de/matthiasfisch/audiodragon/core/capture/Capture.kt:112-126 | with a stop request, the chunk that ends a track hands off the finished, unclosed track and publishes track-ended then capture-stopped; the chunk's bytes are added to the fresh buffer, which is closed holding exactly them once `record` returns |
| Captures.FeedKeepsBufferOpen | src/main/kotlin/de/matthiasfisch/audiodragon/core/model/AudioPlatform.kt:47-50 | while `record` runs no chunk closes the buffer, so every chunk's add succeeds |
| Captures.FeedAllKeepsBufferOpen | src/main/kotlin/de/matthiasfisch/audiodragon/core/model/AudioPlatform.kt:47-50 | any chunks recorded while `record` runs are all added without failure |
| Captures.StopsNeverFailARecording | src/main/kotlin/de/matthiasfisch/audiodragon/core/capture/Capture.kt:75-86 | after any recorded chunks, `stop()` or `stopAfterTrack()` leaves every further chunk of the recording to be added without failure |
| Captures.StopRequestPersists | src/main/kotlin/de/matthiasfisch/audiodragon/core/capture/Capture.kt:83-86 | a stop request survives every chunk, and any track end while it is set is followed at once by a capture stop |
| Captures.LateRecognitionStartsNextTrackData | src/main/kotlin/de/matthiasfisch/audiodragon/core/capture/Capture.kt:92-106 | a recognition result arriving after its track was handed off becomes the track data of the next track |
| LegacyCapture.NewSlot | core/src/main/kotlin/de/matthiasfisch/audiodragon/recording/JavaAudioSystemRecording.kt:23 | the recording's resettable buffer starts empty, in the recording's format |
| LegacyCapture.ResetSlot | core/src/main/kotlin/de/matthiasfisch/audiodragon/recording/JavaAudioSystemRecording.kt:75 | a reset replaces the buffer with an empty one from the same factory and format |
| LegacyCapture.New | core/src/main/kotlin/de/matthiasfisch/audiodragon/recording/Capture.kt:40-42 | a capture starts with no track data, no stop request, no events, a fresh detector and an empty buffer |
| LegacyCapture.Start | core/src/main/kotlin/de/matthiasfisch/audiodragon/recording/Capture.kt:67-70 | starts the recording and publishes a capture-started event, changing nothing else |
| LegacyCapture.Stop | core/src/main/kotlin/de/matthiasfisch/audiodragon/recording/Capture.kt:72-76 | interrupts the recording and publishes a capture-stopped event; the buffer is left as it is |
| LegacyCapture.StopAfterTrack | core/src/main/kotlin/de/matthiasfisch/audiodragon/recording/Capture.kt:78-81 | sets the stop request and publishes a stop-requested event |
| LegacyCapture.StopAfterTrackRequested | core/src/main/kotlin/de/matthiasfisch/audiodragon/recording/Capture.kt:83 | reports whether a stop after the track was requested |
| LegacyCapture.MergeTrackData | core/src/main/kotlin/de/matthiasfisch/audiodragon/recording/Capture.kt:89-92 | the argument becomes the current track data when there is none; otherwise it is merged in field by field |
| LegacyCapture.OnTrackStarted | core/src/main/kotlin/de/matthiasfisch/audiodragon/recording/Capture.kt:94-107 | publishes a track start, launches a recognition and resets the buffer |
| LegacyCapture.OnTrackEnded | core/src/main/kotlin/de/matthiasfisch/audiodragon/recording/Capture.kt:109-122 | publishes a track end, hands the buffer and track data to the writer, clears the track data and resets; with a stop request it also stops |
| LegacyCapture.OnChunk | core/src/main/kotlin/de/matthiasfisch/audiodragon/recording/Capture.kt:55-65 | the detector sees the chunk; only a start or an end changes anything else |
| LegacyCapture.Record | core/src/main/kotlin/de/matthiasfisch/audiodragon/recording/JavaAudioSystemRecording.kt:51 | the recording's buffer grows by the chunk's bytes, and nothing else changes |
| LegacyCapture.OnRecognitionResult | core/src/main/kotlin/de/matthiasfisch/audiodragon/recording/Capture.kt:97-103 | a recognized track is published and merged in; no result changes nothing |
| LegacyCapture.ChunkAgreesWithCurrentRevision | core/src/main/kotlin/de/matthiasfisch/audiodragon/recording/Capture.kt:55-122 | on every chunk both revisions keep the same detector, track data, events, launches and handed-off track data |
| LegacyCapture.ResultAgreesWithCurrentRevision | core/src/main/kotlin/de/matthiasfisch/audiodragon/recording/Capture.kt:97-103 | both revisions treat a recognition result alike |
| LegacyCapture.StopRequestAgreesWithCurrentRevision | core/src/main/kotlin/de/matthiasfisch/audiodragon/recording/Capture.kt:78-81 | both revisions treat a stop request alike |
| LegacyCapture.FeedStep | core/src/main/kotlin/de/matthiasfisch/audiodragon/recording/Capture.kt:55-65 | one recorded chunk, added and then dispatched, keeps the capture in step with the detector |
| LegacyCapture.RecordFollows | core/src/main/kotlin/de/matthiasfisch/audiodragon/recording/JavaAudioSystemRecording.kt:51-57 | adding bytes to the buffer does not disturb the capture's decisions |
| LegacyCapture.OnChunkFollows | core/src/main/kotlin/de/matthiasfisch/audiodragon/recording/Capture.kt:55-122 | dispatching a chunk keeps the capture in step with the detector trace |
| LegacyCapture.FeedFollowsDetector | core/src/main/kotlin/de/matthiasfisch/audiodragon/recording/Capture.kt:55-122 | over any recorded chunks the capture's events, handoffs and launches are those the detector trace determines |
| LegacyCapture.EventsAlternate | core/src/main/kotlin/de/matthiasfisch/audiodragon/recording/Capture.kt:55-122 | the published events alternate track start and track end, with one handoff per end |
| LegacyCapture.StopAfterTrackLeavesBuffersOpen | core/src/main/kotlin/de/matthiasfisch/audiodragon/recording/Capture.kt:72-76 | with a stop request a track end hands off the track and interrupts the recording, but the buffer is only reset, never closed |
| MusicBrainz.ParseResponseBody | src/main/kotlin/de/matthiasfisch/audiodragon/core/recognition/musicbrainz/MusicBrainzTrackDataLoader.kt:88-95 | title, artist, album, genres, release year and length come from the best recording; labels, cover art, background image and lyrics stay null |
| MusicBrainz.LoadTrackData | src/main/kotlin/de/matthiasfisch/audiodragon/core/recognition/musicbrainz/MusicBrainzTrackDataLoader.kt:55-83 | fails exactly on an unsuccessful or empty response; otherwise null exactly when the best score is below the minimum, else the parsed track data |
| MusicBrainz.Augment | src/main/kotlin/de/matthiasfisch/audiodragon/core/recognition/musicbrainz/MusicBrainzTrackDataLoader.kt:39-53 | without a title and an artist, or on any failure or low score, the input is returned. Otherwise each field is the preferred side's if set, else the other side's; the input is preferred exactly when preferInput is set |
| MusicBrainz.NoLookupWithoutTitleAndArtist | src/main/kotlin/de/matthiasfisch/audiodragon/core/recognition/musicbrainz/MusicBrainzTrackDataLoader.kt:40-43 | without a title and an artist no lookup is consulted |
| MusicBrainz.AugmentKeepsInputFields | src/main/kotlin/de/matthiasfisch/audiodragon/core/recognition/musicbrainz/MusicBrainzTrackDataLoader.kt:48 | augmenting never clears a field, and with preferInput never changes one |
| MusicBrainz.AugmentLeavesUnreadFields | src/main/kotlin/de/matthiasfisch/audiodragon/core/recognition/musicbrainz/MusicBrainzTrackDataLoader.kt:88-95 | labels, cover art, background image and lyrics are never changed |
| MusicBrainz.FailuresAreAbsorbed | src/main/kotlin/de/matthiasfisch/audiodragon/core/recognition/musicbrainz/MusicBrainzTrackDataLoader.kt:45-79 | an unsuccessful response or a score below the minimum leaves the input unchanged |
| MusicBrainz.MissingScoreCountsAsZero | src/main/kotlin/de/matthiasfisch/audiodragon/core/recognition/musicbrainz/MusicBrainzTrackDataLoader.kt:85-86 | a response without a score is accepted exactly when the minimum score is at most 0 |
| FileNames.Replace | src/main/kotlin/de/matthiasfisch/audiodragon/core/writer/AudioFileWriter.kt:31 | every occurrence of the character is replaced and every other character is kept |
| FileNames.Sanitize | src/main/kotlin/de/matthiasfisch/audiodragon/core/writer/AudioFileWriter.kt:28-34 | the pass-per-character loop replaces each illegal character with '_' at its position and keeps the rest |
| FileNames.SanitizedIsLegal | src/main/kotlin/de/matthiasfisch/audiodragon/core/writer/AudioFileWriter.kt:20-34 | a sanitized name has the same length and no illegal character, and keeps every legal one in place |
| FileNames.SanitizeIdempotent | src/main/kotlin/de/matthiasfisch/audiodragon/core/writer/AudioFileWriter.kt:28-34 | sanitizing twice is sanitizing once |
| FileNames.SanitizeKeepsLegalNames | src/main/kotlin/de/matthiasfisch/audiodragon/core/writer/AudioFileWriter.kt:28-34 | a name without illegal characters is unchanged |
| FileNames.SlashIsKept | src/main/kotlin/de/matthiasfisch/audiodragon/core/writer/AudioFileWriter.kt:20 | '/' is not on the list and survives, while ':' is replaced |
| FileNames.FilenameFor | src/main/kotlin/de/matthiasfisch/audiodragon/core/writer/AudioFileWriter.kt:22-26 | "artist - title.ext" when both are known, otherwise "track-<timestamp>.ext", sanitized |
| FileNames.FilenameIsLegal | src/main/kotlin/de/matthiasfisch/audiodragon/core/writer/AudioFileWriter.kt:22-34 | every generated name is free of illegal characters and ends in '.' and the sanitized extension |
| FileNames.TitleAloneFallsBack | src/main/kotlin/de/matthiasfisch/audiodragon/core/writer/AudioFileWriter.kt:22 | a title without an artist falls back to the timestamp name |
| FileNames.CleanNamesAreKept | src/main/kotlin/de/matthiasfisch/audiodragon/core/writer/AudioFileWriter.kt:22-23 | clean artist, title and extension give exactly "artist - title.ext" |
| Pactl.TrimStart | src/main/kotlin/de/matthiasfisch/audiodragon/core/platform/pactl/Pactl.kt:170 | drops exactly the leading whitespace |
| Pactl.TrimEnd | src/main/kotlin/de/matthiasfisch/audiodragon/core/platform/pactl/Pactl.kt:170 | drops exactly the trailing whitespace |
| Pactl.JoinSplit | src/main/kotlin/de/matthiasfisch/audiodragon/core/platform/pactl/Pactl.kt:170 | splitting at single spaces gives space-free pieces that join back to the text |
| Pactl.SplitJoin | src/main/kotlin/de/matthiasfisch/audiodragon/core/platform/pactl/Pactl.kt:170 | joining space-free pieces and splitting again gives the pieces back |
| Pactl.RemoveSuffix | src/main/kotlin/de/matthiasfisch/audiodragon/core/platform/pactl/Pactl.kt:161 | the text without the suffix when it ends with it, otherwise unchanged |
| Pactl.ParseIntToString | src/main/kotlin/de/matthiasfisch/audiodragon/core/platform/pactl/Pactl.kt:161 | every 32-bit integer parses back from its decimal text |
| Pactl.ParseRate | src/main/kotlin/de/matthiasfisch/audiodragon/core/platform/pactl/Pactl.kt:166 | a rate parses exactly when it is a non-empty run of digits |
| Pactl.FindBitsLeftmost | src/main/kotlin/de/matthiasfisch/audiodragon/core/platform/pactl/Pactl.kt:139-145 | the sample-size search finds the leftmost place where s, u or float is followed by digits, or reports that there is none |
| Pactl.EncodingOf | src/main/kotlin/de/matthiasfisch/audiodragon/core/platform/pactl/Pactl.kt:126-134 | uLaw and aLaw by name; float, unsigned and signed by prefix, in that order; anything else fails |
| Pactl.BitsOf | src/main/kotlin/de/matthiasfisch/audiodragon/core/platform/pactl/Pactl.kt:136-146 | 8 for the law encodings, otherwise the digits of the leftmost match, failing when there is none |
| Pactl.BigEndianOf | src/main/kotlin/de/matthiasfisch/audiodragon/core/platform/pactl/Pactl.kt:148-157 | little-endian for u8 and the law encodings. Otherwise "be" means big-endian and "le" little-endian; "re" and "ne" are relative to the native order; any other ending fails |
| Pactl.Parse | src/main/kotlin/de/matthiasfisch/audiodragon/core/platform/pactl/Pactl.kt:87-93 | succeeds only on exactly three space-separated fields; every part of the result is what its field says |
| Pactl.FormatToken | src/main/kotlin/de/matthiasfisch/audiodragon/core/platform/pactl/Pactl.kt:107-123 | "u8" for unsigned 8-bit, otherwise the encoding's name followed by the bits and "be" or "le" |
| Pactl.Wrap32 | src/main/kotlin/de/matthiasfisch/audiodragon/core/platform/pactl/Pactl.kt:104 | 32-bit wrap-around: the value in the Int range congruent modulo 2^32, and unchanged when it already fits |
| Pactl.TruncDiv | src/main/kotlin/de/matthiasfisch/audiodragon/core/platform/pactl/Pactl.kt:104 | integer division rounding toward zero |
| Pactl.ToAudioFormat | src/main/kotlin/de/matthiasfisch/audiodragon/core/platform/pactl/Pactl.kt:103-105 | keeps encoding and byte order, uses the sample rate as the frame rate, and takes channels times whole bytes per sample, wrapped to 32 bits, as the frame size |
| Pactl.FromAudioFormat | src/main/kotlin/de/matthiasfisch/audiodragon/core/platform/pactl/Pactl.kt:95-101 | copies encoding and byte order; an unspecified size, channel count or rate becomes -1 |
| Pactl.AudioFormatRoundTrip | src/main/kotlin/de/matthiasfisch/audiodragon/core/platform/pactl/Pactl.kt:95-105 | converting a specification to an audio format and back gives it back |
| Pactl.ToAudioFormatResolves | src/main/kotlin/de/matthiasfisch/audiodragon/core/platform/pactl/Pactl.kt:103-105 | a well-formed specification gives a format whose effective rate is the sample rate and whose effective frame size is channels times whole bytes per sample |
| Pactl.FrameSizeWraps | src/main/kotlin/de/matthiasfisch/audiodragon/core/platform/pactl/Pactl.kt:104 | 65536 channels of 524288 bits overflow the Int product to a frame size of 0 |
| Pactl.TokenRoundTrip | src/main/kotlin/de/matthiasfisch/audiodragon/core/platform/pactl/Pactl.kt:107-157 | for signed, unsigned and float PCM, a printed format token parses back to the encoding, bits and byte order printed (little-endian for u8) |
| Pactl.TextRoundTrip | src/main/kotlin/de/matthiasfisch/audiodragon/core/platform/pactl/Pactl.kt:87-172 | for signed, unsigned and float PCM, "<token> <n>ch <rate>Hz" parses back to the specification it was printed from |
| Pactl.LawTokensAreLittleEndian | src/main/kotlin/de/matthiasfisch/audiodragon/core/platform/pactl/Pactl.kt:138-151 | uLaw and aLaw are 8-bit, little-endian and of their own encoding |
| Pactl.ULawTokenHasNoBits | src/main/kotlin/de/matthiasfisch/audiodragon/core/platform/pactl/Pactl.kt:136-146 | "uLaw" followed by digits and "be" or "le" has no match of the bits pattern, so the bits cannot be read |
| Pactl.LawTokenFields | src/main/kotlin/de/matthiasfisch/audiodragon/core/platform/pactl/Pactl.kt:126-146 | an "aLaw<n>le/be" token has no encoding; a "uLaw<n>le/be" token reads as unsigned PCM and then has no bits |
| Pactl.LawTextsDoNotReadBack | src/main/kotlin/de/matthiasfisch/audiodragon/core/platform/pactl/Pactl.kt:107-172 | mu-law and A-law are printed as "uLaw<n>" or "aLaw<n>" plus "le" or "be", and parsing that printed text always fails |
| Pactl.ParseExampleS32 | src/test/kotlin/de/matthiasfisch/audiodragon/core/platform/pactl/SampleSpecificationTest.kt:11-18 | "s32le 2ch 48000Hz" is signed 32-bit stereo at 48000 Hz, little-endian |
| Pactl.ParseExampleS16 | src/test/kotlin/de/matthiasfisch/audiodragon/core/platform/pactl/SampleSpecificationTest.kt:19-26 | "s16le 2ch 48000Hz" is signed 16-bit stereo at 48000 Hz, little-endian |
| Pactl.ParseExampleFloat | src/test/kotlin/de/matthiasfisch/audiodragon/core/platform/pactl/SampleSpecificationTest.kt:27-34 | "float16be 5ch 41000Hz" is 16-bit float, 5 channels at 41000 Hz, big-endian |
| Pactl.ParseExampleU8 | src/test/kotlin/de/matthiasfisch/audiodragon/core/platform/pactl/SampleSpecificationTest.kt:35-42 | "u8 1ch 8000Hz" is unsigned 8-bit mono at 8000 Hz, little-endian whatever the native order |
| Pactl.TwoTokensAreRejected | src/main/kotlin/de/matthiasfisch/audiodragon/core/platform/pactl/Pactl.kt:171 | a specification with two fields is malformed |
| Pactl.DoubledSpaceGivesEmptyToken | src/main/kotlin/de/matthiasfisch/audiodragon/core/platform/pactl/Pactl.kt:170 | two spaces in a row produce an empty field, so such a text never has three fields |

## Left out

- Audio capture from devices, threads, locks, executors, delays and futures: every
  asynchronous step is a synchronous function. A recognition result is delivered by an
  explicit call (`OnRecognitionResult`), and a written file by `OnTrackWritten`.
- Silence detection by RMS, and the FFT helpers of `PcmData`: floating point. A chunk
  reaches the detector as its duration and a flag saying whether it is silent.
- Floating-point rates and durations: rates are whole positive numbers and durations are
  whole milliseconds. Each conversion rounds down to whole frames and whole
  milliseconds. `PcmData.duration` rounds half up, as `roundToInt` does.
- Int and Long overflow: the `toInt()` casts in the range reads and in `timeSlice`, and
  buffer sizes beyond 2^31. The exception is the Int product in `toAudioFormat`, which
  is modelled.
- Streams and laziness: a range read or a stream error is a `Result` computed at once.
  The failing iterator of a spill file read with a cap of 0 is an `Err` of the whole read.
  The iterator of a disk-spilling buffer is otherwise modelled step by step
  (`DiskSpilling.Drain`), including the bytes it loses (see Findings).
- The in-memory buffer of the current revision: its `InMemoryAudioBuffer.kt` is not part
  of this model. Its factory can build one (`CaptureFactory.kt` lines 49-56), but
  `Resettable.BufferFactory`, the recognizer's buffers and `Captures.Handoff` hold
  disk-spilling buffers only. The older revision's choice of either kind is modelled by
  `LegacyAudioBuffers`.
- Closing an in-memory buffer, which has no effect on its data.
- The spill file itself: its bytes are a sequence, so creating it, deleting it and
  measuring free disk space are left out.
- HTTP and JSON in the MusicBrainz loader: a lookup is a function from track data to a
  response, either an error status, an empty body, or a document with the fields read.
  `getSearchEndpointUrl` (URL encoding) is not part of this model.
- Writing MP3 files and ID3 tags. The writer is reduced to the handoff of a buffer and
  its track data. The wall-clock timestamp in fallback file names is a parameter.
- The native byte order, which becomes a parameter of pactl parsing. Trimming,
  lowercasing and digit tests cover ASCII only. A sample rate parses as a digits-only
  number, where `toFloat` would also accept fractions and exponents.
- Pactl.TextRoundTrip: promises the round trip for signed, unsigned and float PCM only. The
  source prints mu-law and A-law as "uLaw<n>le|be" and "aLaw<n>le|be" and cannot parse
  those back, which `Pactl.LawTextsDoNotReadBack` states.
- Negative pactl sizes other than -1, and rates of 0 or below other than -1. Java's
  `AudioFormat` stores them, but the model has no value for them, so `ToAudioFormat`
  fails on them. Sizes of 0 are kept, as Java keeps them.
- The current revision's `Recording` class: the model takes from it only the order of
  its two subscribers (the capture's dispatch first, then the buffer add), its reset, and
  the stop future that completes when `record` ends (`Captures.OnRecordingFinished`).
  When `record` ends is left to the caller: the platform loops that poll
  `isStopRequested` are not part of this model, so chunks may still be fed after it ends.
  The older `JavaAudioSystemRecording` adds before it publishes, and `LegacyCapture.Feed`
  follows that order. The core module's `ResettableAudioBuffer.kt` is not part of this
  model; `LegacyCapture.NewSlot` and `LegacyCapture.ResetSlot` stand for it.
- Settings validation in the callers, such as positive retry counts and durations: the
  model imposes no such precondition.
- The audio provider of the recognizer is a function from the attempt number to the
  buffer that attempt reads.
- LegacyCapture.FeedFollowsDetector: proves events, handoff count and recognition
  launches against the detector trace. It does not prove the contents of each handed-off
  buffer, which `Captures.HandoffsHoldTheirTrack` proves for the current revision.
- Recognition.TakeSample: states the window as a range read of the buffer, from which
  `Recognition.ShortBufferSampledWhole` derives the bytes of a short buffer. The bytes
  of a long buffer's window follow from the range read's own contract.
- DiskSpilling.Close: states only that a closed buffer keeps its size and refuses reads.
  The deletion of the spill file is left out as above.

## Findings

| source | as written | input that shows it | evidently intended | confidence | as-written member | corrected member |
|---|---|---|---|---|---|---|
| src/main/kotlin/de/matthiasfisch/audiodragon/core/recognition/TrackRecognizer.kt:34 | `check(previousSamples.size + 1 < maxRetriesForRecognition)` runs before every attempt, so the chain never reaches `retries == maxRetriesForRecognition` at line 53 and never completes with null | maxRetriesForRecognition = 3 and a service that never finds the track: two attempts, then the check throws IllegalStateException("Maximum retries reached unexpectedly.") instead of the future completing with null after three attempts | `previousSamples.size < maxRetriesForRecognition`: exactly max attempts, then give up with null | not executed | Recognition.ExhaustionExample, Recognition.ExhaustionFailsTheCheck, Recognition.NeverGivesUp | Recognition.FixedMakesMaxAttempts, Recognition.FixedExhaustionGivesUp |
| core/src/main/kotlin/de/matthiasfisch/audiodragon/recognition/TrackRecognizer.kt:24 | the same guard in the older revision makes the give-up at lines 39-43 unreachable | maxRetriesForRecognition = 3 and a service that never finds the track: two attempts, then IllegalStateException | `previousSamples.size < maxRetriesForRecognition` | not executed | LegacyRecognition.ExhaustionFailsTheCheck, LegacyRecognition.NeverGivesUp | LegacyRecognition.FixedExhaustionGivesUp |
| src/main/kotlin/de/matthiasfisch/audiodragon/core/buffer/DiskSpillingAudioBuffer.kt:68 | `hasNext` is `bytesRead < bytesToReadFromSpill \|\| inMemoryDataIterator.hasNext()`, and `bytesRead` counts bytes loaded from the spill file, not bytes yielded; the first chunk is loaded when the stream is created (line 62). With an empty memory part the stream ends as soon as the last chunk is loaded, so the rest of that chunk is never yielded | cap 50, `add` of 200 bytes, then `add` of 0 bytes: the second add spills all 200 bytes and leaves memory empty, and `get()` yields 151 bytes. | `hasNext` also true while the loaded chunk has bytes left, so that `get()` yields every byte added | not executed | DiskSpilling.Stream, DiskSpilling.Drain, DiskSpilling.StrandedTailExample | DiskSpilling.StreamFixed, DiskSpilling.DrainFixed, DiskSpilling.ReadFixed, DiskSpilling.FixedGetAfterAdds |
| core/src/main/kotlin/de/matthiasfisch/audiodragon/buffer/DiskSpillingAudioBuffer.kt:57 | the same `hasNext` in the older revision | cap 50, `add` of 200 bytes, then `add` of 0 bytes: `get()` yields 151 bytes | as above | not executed | LegacyDiskSpilling.Read, LegacyDiskSpilling.Get, LegacyDiskSpilling.StrandedTailExample | DiskSpilling.StreamFixed, DiskSpilling.DrainFixed |

The buffers' reads (`DiskSpilling.Read`, `LegacyDiskSpilling.Read` and everything built on
them: range reads, recognition samples, the resettable buffer) follow the stream as
written, because that is what the application receives. Their all-bytes properties are
stated for buffers that drain. `DiskSpilling.ReadFixed` and `DiskSpilling.FixedGetAfterAdds`
state the intended behaviour for every buffer.

=== FILE: audio_buffer_legacy.dfy ===
/** The buffer interface of the core module (buffer/AudioBuffer.kt): either implementation,
    chosen by the buffer factory the recording is given. Every operation dispatches to the
    implementation; `Contents` is every byte added, in order, whichever part holds it. */
module LegacyAudioBuffers {
  import opened Wrappers
  import opened AudioFormats
  import opened Pcm
  import InMemoryBuffers
  import DiskSpilling
  import LegacyDiskSpilling

  datatype AudioBuffer =
    | Memory(memory: InMemoryBuffers.InMemoryBuffer)
    | Spilling(spilling: LegacyDiskSpilling.LegacyBuffer)

  /** A buffer factory `(AudioFormat) -> AudioBuffer` of either kind. */
  datatype Factory = MemoryFactory | SpillingFactory(maxInMemory: nat)

  function Make(factory: Factory, format: AudioFormat): (b: AudioBuffer)
    ensures Contents(b) == [] && Format(b) == format
    ensures b.Memory? <==> factory.MemoryFactory?
  {
    match factory
    case MemoryFactory => Memory(InMemoryBuffers.New(format))
    case SpillingFactory(max) => Spilling(LegacyDiskSpilling.New(format, max))
  }

  function Format(b: AudioBuffer): AudioFormat {
    match b
    case Memory(m) => m.format
    case Spilling(s) => s.format
  }

  /** Every byte added so far, in order. */
  function Contents(b: AudioBuffer): PcmData {
    match b
    case Memory(m) => InMemoryBuffers.Get(m)
    case Spilling(s) => DiskSpilling.Contents(s.parts)
  }

  function Add(b: AudioBuffer, data: PcmData): (r: AudioBuffer)
    ensures Contents(r) == Contents(b) + data
    ensures Format(r) == Format(b) && r.Memory? == b.Memory?
  {
    match b
    case Memory(m) => Memory(InMemoryBuffers.Add(m, data))
    case Spilling(s) => Spilling(LegacyDiskSpilling.Add(s, data))
  }

  /** `get()` consumed: all bytes of an in-memory buffer; a prefix of them from a spilling
      buffer, all of them when it drains. */
  function Read(b: AudioBuffer): (r: Result<PcmData>)
    ensures r.Ok? ==> r.value <= Contents(b)
    ensures b.Memory? ==> r == Ok(Contents(b))
    ensures b.Spilling? && r.Ok? && DiskSpilling.Drains(b.spilling.parts) ==> r.value == Contents(b)
  {
    match b
    case Memory(m) => Ok(InMemoryBuffers.Get(m))
    case Spilling(s) => LegacyDiskSpilling.Read(s)
  }

  function GetRange(b: AudioBuffer, offsetMs: nat, lengthMs: Option<nat>): (r: Result<PcmData>)
    ensures r.Ok? <==> EffectiveFrameRate(Format(b)).Ok? && EffectiveFrameSize(Format(b)).Ok? && Read(b).Ok?
    ensures r.Ok? ==>
      var all := Read(b).value;
      var off := DurationToByteCount(Format(b), offsetMs).value;
      var len := if lengthMs.Some? then Some(DurationToByteCount(Format(b), lengthMs.value).value) else None;
      && |r.value| == DiskSpilling.ClippedLength(|all|, off, len)
      && forall i :: 0 <= i < |r.value| ==> r.value[i] == all[off + i]
  {
    match b
    case Memory(m) => InMemoryBuffers.GetRange(m, offsetMs, lengthMs)
    case Spilling(s) =>
      assert Read(b) == LegacyDiskSpilling.Read(s) && Format(b) == s.format;
      LegacyDiskSpilling.GetRange(s, offsetMs, lengthMs)
  }

  function Size(b: AudioBuffer): (r: nat)
    ensures r == |Contents(b)|
  {
    match b
    case Memory(m) => InMemoryBuffers.Size(m)
    case Spilling(s) => LegacyDiskSpilling.Size(s)
  }

  function Duration(b: AudioBuffer): (r: Result<nat>)
    ensures r == ByteCountToDuration(Format(b), |Contents(b)|)
  {
    match b
    case Memory(m) => InMemoryBuffers.Duration(m)
    case Spilling(s) => LegacyDiskSpilling.Duration(s)
  }

  /** Both implementations fed the same chunks hold the same bytes and report the same size
      and duration. With a positive cap the spilling one's `get()` yields a prefix of the
      in-memory one's, and the two cannot be told apart by any read when it drains, in
      particular when the last chunk is not empty. */
  lemma ImplementationsAgree(format: AudioFormat, max: nat, chunks: seq<PcmData>, offsetMs: nat, lengthMs: Option<nat>)
    requires max > 0
    ensures var m := Memory(InMemoryBuffers.AddAll(InMemoryBuffers.New(format), chunks));
      var s := Spilling(LegacyDiskSpilling.AddAll(LegacyDiskSpilling.New(format, max), chunks));
      && Contents(m) == Contents(s) == Concat(chunks)
      && Size(m) == Size(s) && Duration(m) == Duration(s)
      && Read(s).Ok? && Read(s).value <= Read(m).value
      && (|chunks| > 0 && |chunks[|chunks| - 1]| > 0 ==> DiskSpilling.Drains(s.spilling.parts))
      && (DiskSpilling.Drains(s.spilling.parts) ==>
            Read(m) == Read(s) && GetRange(m, offsetMs, lengthMs) == GetRange(s, offsetMs, lengthMs))
  {
    var m := Memory(InMemoryBuffers.AddAll(InMemoryBuffers.New(format), chunks));
    var s := Spilling(LegacyDiskSpilling.AddAll(LegacyDiskSpilling.New(format, max), chunks));
    assert Contents(m) == Contents(s) == Concat(chunks) && Format(m) == Format(s) == format
      && s.spilling.maxInMemory == max
      && (|chunks| > 0 && |chunks[|chunks| - 1]| > 0 ==> DiskSpilling.Drains(s.spilling.parts)) by {
      InMemoryBuffers.GetReturnsAllAdds(format, chunks);
      LegacyDiskSpilling.ContentsAreAllAdds(format, max, chunks);
      LegacyFormatKept(format, max, chunks);
    }
    if DiskSpilling.Drains(s.spilling.parts) {
      assert Read(m) == Read(s);
      SameReadsSameRanges(m, s, offsetMs, lengthMs);
    }
  }

  /** Two buffers of one format whose reads agree agree on every range. */
  lemma SameReadsSameRanges(a: AudioBuffer, b: AudioBuffer, offsetMs: nat, lengthMs: Option<nat>)
    requires Format(a) == Format(b) && Read(a) == Read(b)
    ensures GetRange(a, offsetMs, lengthMs) == GetRange(b, offsetMs, lengthMs)
  {
    var ga := GetRange(a, offsetMs, lengthMs);
    var gb := GetRange(b, offsetMs, lengthMs);
    if ga.Ok? {
      assert ga.value == gb.value;
    }
  }

  lemma {:induction false} LegacyFormatKept(format: AudioFormat, max: nat, chunks: seq<PcmData>)
    ensures LegacyDiskSpilling.AddAll(LegacyDiskSpilling.New(format, max), chunks).format == format
  {
    if |chunks| > 0 {
      LegacyFormatKept(format, max, chunks[..|chunks| - 1]);
    }
  }
}

=== FILE: audio_format.dfy ===
/** Format-derived arithmetic (util/AudioFormat.kt of the core module).
    The source computes in `Float`; this model uses exact integer arithmetic:
    a rate is a whole number of frames per second and every conversion floors,
    as the source's `floor(...)` does on exact inputs. */
module AudioFormats {
  import opened Wrappers

  type pos = n: int | n > 0 witness 1

  datatype Encoding = PcmSigned | PcmUnsigned | PcmFloat | ULaw | ALaw

  /** javax.sound.sampled.AudioFormat. `None` stands for NOT_SPECIFIED (-1). */
  datatype AudioFormat = AudioFormat(
    encoding: Encoding,
    sampleRate: Option<pos>,
    sampleSizeInBits: Option<nat>,
    channels: Option<nat>,
    frameSize: Option<nat>,
    frameRate: Option<pos>,
    bigEndian: bool)

  /** The frame rate when specified, otherwise the sample rate; fails only when both are unspecified. */
  function EffectiveFrameRate(f: AudioFormat): (r: Result<pos>)
    ensures r.Ok? <==> f.frameRate.Some? || f.sampleRate.Some?
    ensures r.Ok? ==> r.value == if f.frameRate.Some? then f.frameRate.value else f.sampleRate.value
  {
    if f.sampleRate.None? && f.frameRate.None? then
      Err("Sample rate not specified. Can't calculate sample duration.")
    else if f.frameRate.Some? then Ok(f.frameRate.value)
    else Ok(f.sampleRate.value)
  }

  /** The frame size when specified, otherwise channels * bits / 8 (integer division). */
  function EffectiveFrameSize(f: AudioFormat): (r: Result<nat>)
    ensures r.Ok? <==> f.frameSize.Some? || (f.channels.Some? && f.sampleSizeInBits.Some?)
    ensures f.frameSize.Some? ==> r == Ok(f.frameSize.value)
    ensures f.frameSize.None? && r.Ok? ==> r.value * 8 <= f.channels.value * f.sampleSizeInBits.value < r.value * 8 + 8
  {
    if f.frameSize.None? && f.channels.None? then
      Err("Channel not specified. Can't calculate sample duration.")
    else if f.frameSize.None? && f.sampleSizeInBits.None? then
      Err("Sample size not specified. Can't calculate sample duration.")
    else if f.frameSize.Some? then Ok(f.frameSize.value)
    else
      var derived: nat := f.channels.value * f.sampleSizeInBits.value / 8;
      Ok(derived)
  }

  /** Whole frames that fit in `ms` milliseconds: floor(ms * rate / 1000). */
  function DurationToFrameCount(f: AudioFormat, ms: nat): (r: Result<nat>)
    ensures r.Ok? <==> EffectiveFrameRate(f).Ok?
    ensures r.Ok? ==> r.value * 1000 <= ms * EffectiveFrameRate(f).value < (r.value + 1) * 1000
  {
    var rate :- EffectiveFrameRate(f);
    Ok(ms * rate / 1000)
  }

  function DurationToByteCount(f: AudioFormat, ms: nat): (r: Result<nat>)
    ensures r.Ok? <==> EffectiveFrameRate(f).Ok? && EffectiveFrameSize(f).Ok?
    ensures r.Ok? ==> r.value == DurationToFrameCount(f, ms).value * EffectiveFrameSize(f).value
  {
    var frames :- DurationToFrameCount(f, ms);
    var size :- EffectiveFrameSize(f);
    Ok(frames * size)
  }

  /** Whole milliseconds spanned by `frames` frames: floor(frames * 1000 / rate). */
  function FrameCountToDuration(f: AudioFormat, frames: nat): (r: Result<nat>)
    ensures r.Ok? <==> EffectiveFrameRate(f).Ok?
    ensures r.Ok? ==> r.value * EffectiveFrameRate(f).value <= frames * 1000 < (r.value + 1) * EffectiveFrameRate(f).value
  {
    var rate :- EffectiveFrameRate(f);
    Ok(frames * 1000 / rate)
  }

  /** The duration of the whole frames in `bytes` bytes; a zero frame size divides by zero. */
  function ByteCountToDuration(f: AudioFormat, bytes: nat): (r: Result<nat>)
    ensures r.Ok? <==> EffectiveFrameSize(f).Ok? && EffectiveFrameSize(f).value > 0 && EffectiveFrameRate(f).Ok?
    ensures r.Ok? ==> r == FrameCountToDuration(f, bytes / EffectiveFrameSize(f).value)
  {
    var size :- EffectiveFrameSize(f);
    if size == 0 then Err("/ by zero")
    else FrameCountToDuration(f, bytes / size)
  }

  /** Both rates and sizes of `f` resolve, with a non-empty frame. */
  predicate Resolvable(f: AudioFormat) {
    EffectiveFrameRate(f).Ok? && EffectiveFrameSize(f).Ok? && EffectiveFrameSize(f).value > 0
  }

  lemma MulDivMonotone(a: nat, b: nat, c: nat)
    requires a <= b
    ensures a * c / 1000 <= b * c / 1000
  {
    assert a * c <= b * c by {
      assert (b - a) * c >= 0;
    }
  }

  lemma ByteCountIsWholeFrames(f: AudioFormat, ms: nat)
    requires Resolvable(f)
    ensures DurationToByteCount(f, ms).value % EffectiveFrameSize(f).value == 0
  {
    var frames := DurationToFrameCount(f, ms).value;
    var size := EffectiveFrameSize(f).value;
    assert DurationToByteCount(f, ms).value == frames * size;
    DivMul(frames, size);
  }

  /** Exact division of a multiple: (k * n) / n == k with no remainder. */
  lemma DivMul(k: nat, n: pos)
    ensures (k * n) / n == k
    ensures (k * n) % n == 0
  {
    var q := (k * n) / n;
    var r := (k * n) % n;
    assert k * n == q * n + r;
    assert q > k ==> (q - k - 1) * n >= 0;
    assert q < k ==> (k - q - 1) * n >= 0;
  }

  lemma DurationToByteCountMonotone(f: AudioFormat, ms1: nat, ms2: nat)
    requires EffectiveFrameRate(f).Ok? && EffectiveFrameSize(f).Ok?
    requires ms1 <= ms2
    ensures DurationToByteCount(f, ms1).value <= DurationToByteCount(f, ms2).value
  {
    var rate := EffectiveFrameRate(f).value;
    var size := EffectiveFrameSize(f).value;
    MulDivMonotone(ms1, ms2, rate);
    var n1 := DurationToFrameCount(f, ms1).value;
    var n2 := DurationToFrameCount(f, ms2).value;
    assert n1 <= n2;
    assert n1 * size <= n2 * size by {
      assert (n2 - n1) * size >= 0;
    }
  }

  lemma ZeroDurationIsZeroBytes(f: AudioFormat)
    requires EffectiveFrameRate(f).Ok? && EffectiveFrameSize(f).Ok?
    ensures DurationToByteCount(f, 0) == Ok(0)
  {
  }

  /** Only the number of whole frames matters: a trailing partial frame is ignored. */
  lemma ByteCountToDurationIgnoresPartialFrame(f: AudioFormat, b1: nat, b2: nat)
    requires Resolvable(f)
    requires b1 / EffectiveFrameSize(f).value == b2 / EffectiveFrameSize(f).value
    ensures ByteCountToDuration(f, b1) == ByteCountToDuration(f, b2)
  {
  }

  /** Converting a duration to bytes and back never yields more time than was asked for. */
  lemma DurationRoundTripRoundsDown(f: AudioFormat, ms: nat)
    requires Resolvable(f)
    ensures ByteCountToDuration(f, DurationToByteCount(f, ms).value).value <= ms
  {
    var rate := EffectiveFrameRate(f).value;
    var size := EffectiveFrameSize(f).value;
    var frames := DurationToFrameCount(f, ms).value;
    var bytes := DurationToByteCount(f, ms).value;
    assert bytes == frames * size;
    assert bytes / size == frames by {
      DivMul(frames, size);
    }
    var d := ByteCountToDuration(f, bytes).value;
    assert d * rate <= frames * 1000;
    assert frames * 1000 <= ms * rate;
    if d > ms {
      assert false;
    }
  }

  /** The format of the buffer tests: 100 Hz, 16-bit stereo, big-endian signed PCM (4-byte frames). */
  function TestFormat(): (f: AudioFormat)
    ensures Resolvable(f)
  {
    AudioFormat(PcmSigned, Some(100), Some(16), Some(2), Some(4), Some(100), true)
  }

  /** 1300 bytes at 100 frames/s with 4-byte frames last 3250 ms. */
  lemma ByteCountToDurationExample()
    ensures ByteCountToDuration(TestFormat(), 1300) == Ok(3250)
  {
  }

  /** 4005 ms at 100 frames/s is 400 whole frames: the sub-frame remainder is dropped. */
  lemma SubFrameOffsetRoundsDown()
    ensures DurationToFrameCount(TestFormat(), 4005) == Ok(400)
    ensures DurationToByteCount(TestFormat(), 4005) == Ok(1600)
  {
  }
}

=== FILE: capture.dfy ===
/** The capture orchestrator (core/capture/Capture.kt of the application module): each
    recorded chunk is classified by the track-bounds detector; a track start launches
    recognition and discards the pre-roll, a track end hands the track's audio and data to
    the file writer. Operations run one at a time; the recording thread, the publishers and
    the futures are abstracted: published events are appended to a log, writer calls to a
    list of hand-offs, and a recognition result and the end of `record` arrive as steps of
    their own. */
module Captures {
  import opened Wrappers
  import opened Pcm
  import opened Tracks
  import TrackBounds
  import Resettable
  import DiskSpilling
  import Recognition

  datatype Event =
    | TrackStartedEvent
    | TrackEndedEvent
    | TrackRecognizedEvent(track: TrackData)
    | TrackWrittenEvent(path: string)
    | CaptureStartedEvent
    | CaptureStoppedEvent
    | CaptureStopRequestedEvent

  /** How the recording thread's `record` has ended: it is still running, it returned (the
      stop future completes with the buffer), or it threw (the future fails). */
  datatype RecordingEnd = StillRecording | Returned | Threw

  /** One call of `fileWriter.writeToFileAsync(audio, trackData)`. */
  datatype Handoff = Handoff(audio: DiskSpilling.SpillingBuffer, track: Option<TrackData>)

  datatype Capture = Capture(
    detector: TrackBounds.Detector,
    audio: Resettable.ResettableBuffer,     // the recording's resettable buffer
    hasRecognizer: bool,                    // whether a track recognizer was configured
    trackData: Option<TrackData>,
    stopRequested: bool,
    recordingStarted: bool,
    recordingStopRequested: bool,
    recordingEnd: RecordingEnd,
    recognitionsLaunched: nat,
    events: seq<Event>,
    handoffs: seq<Handoff>)

  function New(minSilenceBetweenTracks: nat, factory: Resettable.BufferFactory, hasRecognizer: bool): (c: Capture)
    ensures c.trackData.None? && !c.stopRequested && !c.recordingStarted && !c.recordingStopRequested
    ensures c.recordingEnd == StillRecording
    ensures c.events == [] && c.handoffs == [] && c.recognitionsLaunched == 0
    ensures c.detector == TrackBounds.New(minSilenceBetweenTracks) && c.hasRecognizer == hasRecognizer
    ensures c.audio == Resettable.New(factory)
  {
    Capture(TrackBounds.New(minSilenceBetweenTracks), Resettable.New(factory), hasRecognizer, None, false, false, false, StillRecording, 0, [], [])
  }

  /** `start()`: starts the recording and publishes capture-started. */
  function Start(c: Capture): (r: Capture)
    ensures r.recordingStarted && r.events == c.events + [CaptureStartedEvent]
    ensures r.(recordingStarted := c.recordingStarted, events := c.events) == c
  {
    c.(recordingStarted := true, events := c.events + [CaptureStartedEvent])
  }

  /** Closing the buffer the stop future completes with: the resettable buffer, which closes
      its current buffer only. */
  function CloseAudio(c: Capture): (r: Capture)
    ensures r.audio.current.closed && r.audio.current.parts == c.audio.current.parts
    ensures r.(audio := c.audio) == c && r.audio.factory == c.audio.factory
  {
    c.(audio := Resettable.Close(c.audio))
  }

  /** `stop()`: asks the recording to stop and publishes capture-stopped. The buffer is closed
      only when the recording's stop future completes: at once if `record` has already
      returned, otherwise by `OnRecordingFinished`; never if `record` threw. */
  function Stop(c: Capture): (r: Capture)
    ensures r.recordingStopRequested && r.events == c.events + [CaptureStoppedEvent]
    ensures r.audio.current.parts == c.audio.current.parts && r.audio.factory == c.audio.factory
    ensures r.audio.current.closed <==> c.audio.current.closed || c.recordingEnd == Returned
    ensures r.handoffs == c.handoffs && r.trackData == c.trackData && r.detector == c.detector
    ensures r.stopRequested == c.stopRequested && r.recordingEnd == c.recordingEnd
  {
    var r := c.(recordingStopRequested := true, events := c.events + [CaptureStoppedEvent]);
    if c.recordingEnd == Returned then CloseAudio(r) else r
  }

  /** The recording thread's `record` ends, after the last chunk it published was dispatched
      and added: the stop future completes, normally or not. A stop already requested then
      closes the buffer, which holds every chunk recorded since the last reset. */
  function OnRecordingFinished(c: Capture, returned: bool): (r: Capture)
    ensures r.recordingEnd == (if returned then Returned else Threw)
    ensures r.audio.current.parts == c.audio.current.parts && r.audio.factory == c.audio.factory
    ensures r.audio.current.closed <==> c.audio.current.closed || (returned && c.recordingStopRequested)
    ensures r.(audio := c.audio, recordingEnd := c.recordingEnd) == c
  {
    var r := c.(recordingEnd := if returned then Returned else Threw);
    if returned && c.recordingStopRequested then CloseAudio(r) else r
  }

  /** `stopAfterTrack()`: only raises the flag and publishes stop-requested; nothing stops yet. */
  function StopAfterTrack(c: Capture): (r: Capture)
    ensures r.stopRequested && r.events == c.events + [CaptureStopRequestedEvent]
    ensures r.audio == c.audio && r.handoffs == c.handoffs && r.recordingStopRequested == c.recordingStopRequested
    ensures r.(stopRequested := c.stopRequested, events := c.events) == c
  {
    c.(stopRequested := true, events := c.events + [CaptureStopRequestedEvent])
  }

  function CurrentTrack(c: Capture): Option<TrackData> {
    c.trackData
  }

  datatype Merged = Merged(capture: Capture, merged: TrackData)

  /** `mergeTrackData`: the argument becomes the current track data when there is none,
      otherwise it is merged into it; the new current value is returned. */
  function MergeTrackData(c: Capture, t: TrackData): (r: Merged)
    ensures r.capture.trackData == Some(r.merged)
    ensures c.trackData.None? ==> r.merged == t
    ensures c.trackData.Some? ==>
      forall f: Field :: Get(r.merged, f) == if IsSet(t, f) then Get(t, f) else Get(c.trackData.value, f)
    ensures r.capture.(trackData := c.trackData) == c
  {
    var merged := if c.trackData.None? then t else Merge(c.trackData.value, t);
    Merged(c.(trackData := Some(merged)), merged)
  }

  /** `onTrackStarted`: publishes track-started, launches recognition when a recognizer is
      configured, then resets the buffer so the audio before the start is dropped. */
  function OnTrackStarted(c: Capture): (r: Capture)
    ensures r.events == c.events + [TrackStartedEvent]
    ensures r.recognitionsLaunched == c.recognitionsLaunched + (if c.hasRecognizer then 1 else 0)
    ensures r.audio == Resettable.Reset(c.audio).buffer
    ensures DiskSpilling.Contents(r.audio.current.parts) == [] && !r.audio.current.closed
    ensures r.handoffs == c.handoffs && r.trackData == c.trackData && r.detector == c.detector
    ensures r.stopRequested == c.stopRequested && r.recordingStopRequested == c.recordingStopRequested
  {
    var launched := if c.hasRecognizer then c.recognitionsLaunched + 1 else c.recognitionsLaunched;
    c.(events := c.events + [TrackStartedEvent], recognitionsLaunched := launched,
       audio := Resettable.Reset(c.audio).buffer)
  }

  /** `onTrackEnded`: publishes track-ended, resets the buffer, hands the buffer that was
      current and the track data as it was to the writer, clears the track data, and stops
      when a stop after the track was requested. */
  function OnTrackEnded(c: Capture): (r: Capture)
    ensures r.handoffs == c.handoffs + [Handoff(c.audio.current, c.trackData)]
    ensures r.trackData.None?
    ensures DiskSpilling.Contents(r.audio.current.parts) == []
    ensures r.audio.factory == c.audio.factory
    ensures !c.stopRequested ==>
      && r.events == c.events + [TrackEndedEvent]
      && !r.audio.current.closed
      && r.recordingStopRequested == c.recordingStopRequested
    ensures c.stopRequested ==>
      && r.events == c.events + [TrackEndedEvent, CaptureStoppedEvent]
      && (r.audio.current.closed <==> c.recordingEnd == Returned)
      && r.recordingStopRequested
    ensures r.detector == c.detector && r.recognitionsLaunched == c.recognitionsLaunched
    ensures r.stopRequested == c.stopRequested && r.hasRecognizer == c.hasRecognizer
    ensures r.recordingEnd == c.recordingEnd
  {
    var reset := Resettable.Reset(c.audio);
    var ended := c.(events := c.events + [TrackEndedEvent], audio := reset.buffer, trackData := None,
                    handoffs := c.handoffs + [Handoff(reset.previous, c.trackData)]);
    if c.stopRequested then Stop(ended) else ended
  }

  /** The chunk subscription: the detector classifies the chunk, and only a track start or a
      track end triggers anything. */
  function OnChunk(c: Capture, chunk: TrackBounds.Chunk): (r: Capture)
    ensures r.detector == TrackBounds.Process(c.detector, chunk).detector
    ensures var s := TrackBounds.Process(c.detector, chunk).state;
      && (s == TrackBounds.Silence || s == TrackBounds.Playing ==> r.(detector := c.detector) == c)
      && (s == TrackBounds.TrackStarted ==> r.events == c.events + [TrackStartedEvent] && r.handoffs == c.handoffs)
      && (s == TrackBounds.TrackEnded ==>
            && r.handoffs == c.handoffs + [Handoff(c.audio.current, c.trackData)]
            && r.trackData.None?
            && |r.events| > |c.events|
            && r.events[..|c.events| + 1] == c.events + [TrackEndedEvent])
  {
    var step := TrackBounds.Process(c.detector, chunk);
    var c1 := c.(detector := step.detector);
    match step.state
    case TrackStarted => OnTrackStarted(c1)
    case TrackEnded => OnTrackEnded(c1)
    case Silence => c1
    case Playing => c1
  }

  /** The recording's own subscription: each chunk's bytes are added to the current buffer,
      which fails once that buffer is closed. */
  function Record(c: Capture, data: PcmData): (r: Result<Capture>)
    ensures r.Ok? <==> !c.audio.current.closed
    ensures r.Ok? ==> DiskSpilling.Contents(r.value.audio.current.parts) == DiskSpilling.Contents(c.audio.current.parts) + data
    ensures r.Ok? ==> r.value.(audio := c.audio) == c && r.value.audio.factory == c.audio.factory
    ensures r.Ok? ==> !r.value.audio.current.closed
  {
    var audio :- Resettable.Add(c.audio, data);
    Ok(c.(audio := audio))
  }

  /** The completion of a launched recognition: a track is published and merged into the
      current track data; null or a failure changes nothing. */
  function OnRecognitionResult(c: Capture, outcome: Recognition.Outcome): (r: Capture)
    ensures outcome.Recognized? ==>
      && r.events == c.events + [TrackRecognizedEvent(outcome.track)]
      && r.trackData == Some(MergeTrackData(c, outcome.track).merged)
      && r.(events := c.events, trackData := c.trackData) == c
    ensures !outcome.Recognized? ==> r == c
  {
    match Recognition.Delivered(outcome)
    case Some(Some(t)) => MergeTrackData(c.(events := c.events + [TrackRecognizedEvent(t)]), t).capture
    case _ => c
  }

  /** The completion of a file write: the written path is published. */
  function OnTrackWritten(c: Capture, path: string): (r: Capture)
    ensures r.events == c.events + [TrackWrittenEvent(path)]
    ensures r.(events := c.events) == c
  {
    c.(events := c.events + [TrackWrittenEvent(path)])
  }

  // ---------------------------------------------------------------------------
  // Feeding recorded chunks
  // ---------------------------------------------------------------------------

  /** One recorded chunk: what the detector sees of it, and its bytes. */
  datatype Block = Block(chunk: TrackBounds.Chunk, data: PcmData)

  /** The capture subscribed to the chunk stream before the recording's buffer did, so each
      chunk is first dispatched and then added to the buffer. */
  function Feed(c: Capture, b: Block): Result<Capture> {
    Record(OnChunk(c, b.chunk), b.data)
  }

  function FeedAll(c: Capture, blocks: seq<Block>): Result<Capture> {
    if |blocks| == 0 then Ok(c)
    else
      var prev :- FeedAll(c, blocks[..|blocks| - 1]);
      Feed(prev, blocks[|blocks| - 1])
  }

  function Chunks(blocks: seq<Block>): (r: seq<TrackBounds.Chunk>)
    ensures |r| == |blocks|
    ensures forall i :: 0 <= i < |blocks| ==> r[i] == blocks[i].chunk
  {
    seq(|blocks|, i requires 0 <= i < |blocks| => blocks[i].chunk)
  }

  /** The same blocks as buffer operations: a boundary resets the buffer before its bytes are written. */
  function BufferOps(blocks: seq<Block>, states: seq<TrackBounds.TrackState>): (r: seq<Resettable.Op>)
    requires |states| == |blocks|
  {
    if |blocks| == 0 then []
    else
      var n := |blocks| - 1;
      var prev := BufferOps(blocks[..n], states[..n]);
      if states[n] == TrackBounds.TrackStarted || states[n] == TrackBounds.TrackEnded then
        prev + [Resettable.ResetOp, Resettable.Write(blocks[n].data)]
      else prev + [Resettable.Write(blocks[n].data)]
  }

  /** The event each boundary publishes. */
  function BoundaryEvents(bounds: seq<TrackBounds.TrackState>): (r: seq<Event>)
    ensures |r| == |bounds|
    ensures forall i :: 0 <= i < |bounds| ==>
      r[i] == if bounds[i] == TrackBounds.TrackStarted then TrackStartedEvent else TrackEndedEvent
  {
    seq(|bounds|, i requires 0 <= i < |bounds| => if bounds[i] == TrackBounds.TrackStarted then TrackStartedEvent else TrackEndedEvent)
  }

  /** Whether a state is a track boundary. */
  predicate IsBoundary(s: TrackBounds.TrackState) {
    s == TrackBounds.TrackStarted || s == TrackBounds.TrackEnded
  }

  /** How a capture fed with recorded chunks only relates to the detector trace of those
      chunks and to the resettable buffer run on their bytes, with a reset at each boundary. */
  ghost predicate Matches(c: Capture, t: TrackBounds.Trace, run: Resettable.RunState, hasRecognizer: bool) {
    var bounds := TrackBounds.Boundaries(t.states);
    && c.detector == t.detector
    && TrackBounds.Valid(t.detector)
    && (t.detector.isSoundPresent <==> |bounds| % 2 == 1)
    && c.events == BoundaryEvents(bounds)
    && run.buffer == c.audio
    && |run.handedOut| == |bounds|
    && |c.handoffs| == |bounds| / 2
    && (forall k :: 0 <= k < |c.handoffs| ==> c.handoffs[k] == Handoff(run.handedOut[2 * k + 1], None))
    && c.trackData.None? && !c.stopRequested && !c.audio.current.closed
    && c.hasRecognizer == hasRecognizer
    && c.recognitionsLaunched == (if hasRecognizer then (|bounds| + 1) / 2 else 0)
  }

  /** The buffer operations of one block. */
  function BlockOps(s: TrackBounds.TrackState, b: Block): seq<Resettable.Op> {
    if IsBoundary(s) then [Resettable.ResetOp, Resettable.Write(b.data)] else [Resettable.Write(b.data)]
  }

  lemma BoundaryEventsSnoc(bounds: seq<TrackBounds.TrackState>, s: TrackBounds.TrackState)
    requires IsBoundary(s)
    ensures BoundaryEvents(bounds + [s]) == BoundaryEvents(bounds) + [if s == TrackBounds.TrackStarted then TrackStartedEvent else TrackEndedEvent]
  {
  }

  /** A track start: the reset hands out the pre-roll, which the capture drops. */
  lemma StartedStep(c: Capture, t: TrackBounds.Trace, run: Resettable.RunState, hasRecognizer: bool, b: Block)
    requires Matches(c, t, run, hasRecognizer)
    requires TrackBounds.Process(t.detector, b.chunk).state == TrackBounds.TrackStarted
    ensures var step := TrackBounds.Process(t.detector, b.chunk);
      var reset := Resettable.RunState(run.handedOut + [run.buffer.current], Resettable.Reset(run.buffer).buffer);
      && Feed(c, b).Ok? && Resettable.Apply(reset, Resettable.Write(b.data)).Ok?
      && Matches(Feed(c, b).value, TrackBounds.Trace(step.detector, t.states + [step.state]),
                 Resettable.Apply(reset, Resettable.Write(b.data)).value, hasRecognizer)
  {
    var step := TrackBounds.Process(t.detector, b.chunk);
    var bounds := TrackBounds.Boundaries(t.states);
    assert TrackBounds.Boundaries(t.states + [step.state]) == bounds + [step.state] by {
      assert (t.states + [step.state])[..|t.states|] == t.states;
    }
    BoundaryEventsSnoc(bounds, step.state);
    assert |bounds| % 2 == 0;
  }

  /** A track end: the reset hands out the track, which goes to the writer. */
  lemma EndedStep(c: Capture, t: TrackBounds.Trace, run: Resettable.RunState, hasRecognizer: bool, b: Block)
    requires Matches(c, t, run, hasRecognizer)
    requires TrackBounds.Process(t.detector, b.chunk).state == TrackBounds.TrackEnded
    ensures var step := TrackBounds.Process(t.detector, b.chunk);
      var reset := Resettable.RunState(run.handedOut + [run.buffer.current], Resettable.Reset(run.buffer).buffer);
      && Feed(c, b).Ok? && Resettable.Apply(reset, Resettable.Write(b.data)).Ok?
      && Matches(Feed(c, b).value, TrackBounds.Trace(step.detector, t.states + [step.state]),
                 Resettable.Apply(reset, Resettable.Write(b.data)).value, hasRecognizer)
  {
    var step := TrackBounds.Process(t.detector, b.chunk);
    var bounds := TrackBounds.Boundaries(t.states);
    assert TrackBounds.Boundaries(t.states + [step.state]) == bounds + [step.state] by {
      assert (t.states + [step.state])[..|t.states|] == t.states;
    }
    BoundaryEventsSnoc(bounds, step.state);
    assert |bounds| % 2 == 1;
    var r := Feed(c, b).value;
    assert |r.handoffs| == |c.handoffs| + 1;
    assert 2 * |c.handoffs| + 1 == |run.handedOut|;
  }

  /** Any other chunk: its bytes are appended to the current buffer and nothing else happens. */
  lemma QuietStep(c: Capture, t: TrackBounds.Trace, run: Resettable.RunState, hasRecognizer: bool, b: Block)
    requires Matches(c, t, run, hasRecognizer)
    requires !IsBoundary(TrackBounds.Process(t.detector, b.chunk).state)
    ensures var step := TrackBounds.Process(t.detector, b.chunk);
      && Feed(c, b).Ok? && Resettable.Apply(run, Resettable.Write(b.data)).Ok?
      && Matches(Feed(c, b).value, TrackBounds.Trace(step.detector, t.states + [step.state]),
                 Resettable.Apply(run, Resettable.Write(b.data)).value, hasRecognizer)
  {
    var step := TrackBounds.Process(t.detector, b.chunk);
    assert TrackBounds.Boundaries(t.states + [step.state]) == TrackBounds.Boundaries(t.states) by {
      assert (t.states + [step.state])[..|t.states|] == t.states;
    }
  }

  /** One more block keeps the correspondence, whatever the detector makes of it. */
  lemma FeedStep(rb: Resettable.ResettableBuffer, opsPrev: seq<Resettable.Op>, c: Capture, t: TrackBounds.Trace, hasRecognizer: bool, b: Block)
    requires Resettable.Run(rb, opsPrev).Ok?
    requires Matches(c, t, Resettable.Run(rb, opsPrev).value, hasRecognizer)
    ensures var step := TrackBounds.Process(t.detector, b.chunk);
      var run := Resettable.Run(rb, opsPrev + BlockOps(step.state, b));
      && Feed(c, b).Ok? && run.Ok?
      && Matches(Feed(c, b).value, TrackBounds.Trace(step.detector, t.states + [step.state]), run.value, hasRecognizer)
  {
    var step := TrackBounds.Process(t.detector, b.chunk);
    var runPrev := Resettable.Run(rb, opsPrev).value;
    if IsBoundary(step.state) {
      Resettable.RunSnoc(rb, opsPrev, Resettable.ResetOp);
      Resettable.RunSnoc(rb, opsPrev + [Resettable.ResetOp], Resettable.Write(b.data));
      assert opsPrev + [Resettable.ResetOp] + [Resettable.Write(b.data)] == opsPrev + BlockOps(step.state, b);
      var reset := Resettable.RunState(runPrev.handedOut + [runPrev.buffer.current], Resettable.Reset(runPrev.buffer).buffer);
      assert Resettable.Run(rb, opsPrev + [Resettable.ResetOp]) == Ok(reset);
      if step.state == TrackBounds.TrackStarted {
        StartedStep(c, t, runPrev, hasRecognizer, b);
      } else {
        EndedStep(c, t, runPrev, hasRecognizer, b);
      }
    } else {
      Resettable.RunSnoc(rb, opsPrev, Resettable.Write(b.data));
      QuietStep(c, t, runPrev, hasRecognizer, b);
    }
  }

  /** Fed with recorded chunks only, a fresh capture has run the detector over exactly those
      chunks, has published one event per track boundary, and its buffer is the resettable
      buffer driven by the same bytes with a reset at every boundary; the k-th track handed to
      the writer is the buffer handed out by the reset at the k-th track end, with no track data. */
  lemma {:induction false} FeedInvariant(minSilence: nat, factory: Resettable.BufferFactory, hasRecognizer: bool, blocks: seq<Block>)
    ensures Invariant(minSilence, factory, hasRecognizer, blocks)
  {
    if |blocks| == 0 {
      assert Chunks(blocks) == [];
    } else {
      FeedInvariant(minSilence, factory, hasRecognizer, blocks[..|blocks| - 1]);
      FeedInvariantStep(minSilence, factory, hasRecognizer, blocks);
    }
  }

  /** The capture fed with `blocks` matches the detector trace of their chunks and the
      resettable buffer run on their operations. */
  ghost predicate Invariant(minSilence: nat, factory: Resettable.BufferFactory, hasRecognizer: bool, blocks: seq<Block>) {
    var t := TrackBounds.Run(TrackBounds.New(minSilence), Chunks(blocks));
    var run := Resettable.Run(Resettable.New(factory), BufferOps(blocks, t.states));
    && FeedAll(New(minSilence, factory, hasRecognizer), blocks).Ok?
    && run.Ok?
    && Matches(FeedAll(New(minSilence, factory, hasRecognizer), blocks).value, t, run.value, hasRecognizer)
  }

  /** The invariant carries over from all blocks but the last to all of them. */
  lemma FeedInvariantStep(minSilence: nat, factory: Resettable.BufferFactory, hasRecognizer: bool, blocks: seq<Block>)
    requires |blocks| > 0
    requires Invariant(minSilence, factory, hasRecognizer, blocks[..|blocks| - 1])
    ensures Invariant(minSilence, factory, hasRecognizer, blocks)
  {
    var c0 := New(minSilence, factory, hasRecognizer);
    var n := |blocks| - 1;
    var init := blocks[..n];
    var b := blocks[n];
    var tp := TrackBounds.Run(TrackBounds.New(minSilence), Chunks(init));
    var cp := FeedAll(c0, init).value;
    var opsPrev := BufferOps(init, tp.states);
    var step := TrackBounds.Process(tp.detector, b.chunk);
    var t := TrackBounds.Trace(step.detector, tp.states + [step.state]);
    var run := Resettable.Run(Resettable.New(factory), opsPrev + BlockOps(step.state, b));
    assert FeedAll(c0, blocks) == Feed(cp, b);
    FeedStep(Resettable.New(factory), opsPrev, cp, tp, hasRecognizer, b);
    assert t == TrackBounds.Run(TrackBounds.New(minSilence), Chunks(blocks))
      && run == Resettable.Run(Resettable.New(factory), BufferOps(blocks, t.states)) by {
      BlocksSnoc(minSilence, blocks);
    }
    InvariantOf(minSilence, factory, hasRecognizer, blocks, Feed(cp, b), t, run);
  }

  /** The invariant, from a capture, trace and buffer run known to be the ones it names. */
  lemma InvariantOf(minSilence: nat, factory: Resettable.BufferFactory, hasRecognizer: bool, blocks: seq<Block>,
                    c: Result<Capture>, t: TrackBounds.Trace, run: Result<Resettable.RunState>)
    requires c == FeedAll(New(minSilence, factory, hasRecognizer), blocks)
    requires t == TrackBounds.Run(TrackBounds.New(minSilence), Chunks(blocks))
    requires run == Resettable.Run(Resettable.New(factory), BufferOps(blocks, t.states))
    requires c.Ok? && run.Ok? && Matches(c.value, t, run.value, hasRecognizer)
    ensures Invariant(minSilence, factory, hasRecognizer, blocks)
  {
  }

  /** One more block extends the detector trace by its step and the buffer operations by its operations. */
  lemma BlocksSnoc(minSilence: nat, blocks: seq<Block>)
    requires |blocks| > 0
    ensures var n := |blocks| - 1;
      var d0 := TrackBounds.New(minSilence);
      var tp := TrackBounds.Run(d0, Chunks(blocks[..n]));
      var step := TrackBounds.Process(tp.detector, blocks[n].chunk);
      var t := TrackBounds.Run(d0, Chunks(blocks));
      && t == TrackBounds.Trace(step.detector, tp.states + [step.state])
      && BufferOps(blocks, t.states) == BufferOps(blocks[..n], tp.states) + BlockOps(step.state, blocks[n])
  {
    var n := |blocks| - 1;
    var d0 := TrackBounds.New(minSilence);
    assert Chunks(blocks)[..n] == Chunks(blocks[..n]);
    var tp := TrackBounds.Run(d0, Chunks(blocks[..n]));
    var t := TrackBounds.Run(d0, Chunks(blocks));
    assert t.states[..n] == tp.states;
  }


  /** The published boundary events of any recorded chunks strictly alternate between
      track-started and track-ended, beginning with track-started, and the writer has received
      one track per track end. */
  lemma EventsAlternate(minSilence: nat, factory: Resettable.BufferFactory, hasRecognizer: bool, blocks: seq<Block>)
    ensures var c := FeedAll(New(minSilence, factory, hasRecognizer), blocks);
      && c.Ok?
      && (forall i :: 0 <= i < |c.value.events| ==>
            c.value.events[i] == if i % 2 == 0 then TrackStartedEvent else TrackEndedEvent)
      && |c.value.handoffs| == |c.value.events| / 2
  {
    FeedInvariant(minSilence, factory, hasRecognizer, blocks);
    TrackBounds.RunInvariants(minSilence, Chunks(blocks));
  }

  /** Each track handed to the writer holds exactly the bytes recorded from the chunk that
      started it up to, but excluding, the chunk that ended it: the segment of the written
      bytes between the reset at its start and the reset at its end. */
  lemma HandoffsHoldTheirTrack(minSilence: nat, factory: Resettable.BufferFactory, hasRecognizer: bool, blocks: seq<Block>)
    ensures FeedAll(New(minSilence, factory, hasRecognizer), blocks).Ok?
    ensures var c := FeedAll(New(minSilence, factory, hasRecognizer), blocks).value;
      var t := TrackBounds.Run(TrackBounds.New(minSilence), Chunks(blocks));
      var segments := Resettable.Segments(BufferOps(blocks, t.states));
      && |segments| == |TrackBounds.Boundaries(t.states)| + 1
      && |c.handoffs| == |TrackBounds.Boundaries(t.states)| / 2
      && forall k :: 0 <= k < |c.handoffs| ==> DiskSpilling.Contents(c.handoffs[k].audio.parts) == segments[2 * k + 1]
  {
    FeedInvariant(minSilence, factory, hasRecognizer, blocks);
    var t := TrackBounds.Run(TrackBounds.New(minSilence), Chunks(blocks));
    Resettable.ResetsHandOutSegments(factory, BufferOps(blocks, t.states));
  }

  /** While `record` runs, no chunk closes the buffer, so adding each chunk succeeds. */
  lemma FeedKeepsBufferOpen(c: Capture, b: Block)
    requires !c.audio.current.closed && c.recordingEnd == StillRecording
    ensures Feed(c, b).Ok?
    ensures !Feed(c, b).value.audio.current.closed && Feed(c, b).value.recordingEnd == StillRecording
  {
  }

  /** Any number of chunks recorded while `record` runs are all added without failure. */
  lemma {:induction false} FeedAllKeepsBufferOpen(c: Capture, blocks: seq<Block>)
    requires !c.audio.current.closed && c.recordingEnd == StillRecording
    ensures FeedAll(c, blocks).Ok?
    ensures !FeedAll(c, blocks).value.audio.current.closed && FeedAll(c, blocks).value.recordingEnd == StillRecording
  {
    if |blocks| > 0 {
      var n := |blocks| - 1;
      FeedAllKeepsBufferOpen(c, blocks[..n]);
      FeedKeepsBufferOpen(FeedAll(c, blocks[..n]).value, blocks[n]);
    }
  }

  /** A stop, or a stop after the track, requested at any point of a recording never makes a
      later chunk of that recording fail: the buffer is closed only once `record` returns. */
  lemma StopsNeverFailARecording(minSilence: nat, factory: Resettable.BufferFactory, hasRecognizer: bool,
                                 before: seq<Block>, after: seq<Block>)
    ensures FeedAll(New(minSilence, factory, hasRecognizer), before).Ok?
    ensures var c := FeedAll(New(minSilence, factory, hasRecognizer), before).value;
      && FeedAll(StopAfterTrack(c), after).Ok?
      && FeedAll(Stop(c), after).Ok?
  {
    var c0 := New(minSilence, factory, hasRecognizer);
    FeedAllKeepsBufferOpen(c0, before);
    var c := FeedAll(c0, before).value;
    FeedAllKeepsBufferOpen(StopAfterTrack(c), after);
    FeedAllKeepsBufferOpen(Stop(c), after);
  }

  /** With a stop requested, the chunk that ends a track still hands the full, unclosed
      buffer to the writer and publishes capture-stopped after track-ended; the chunk's own
      bytes go to the fresh buffer, which stays open until `record` returns and is then
      closed holding exactly those bytes. */
  lemma StopAfterTrackHandsOffFirst(c: Capture, b: Block)
    requires c.stopRequested && !c.audio.current.closed && c.recordingEnd == StillRecording
    requires TrackBounds.Process(c.detector, b.chunk).state == TrackBounds.TrackEnded
    ensures Feed(c, b).Ok?
    ensures var r := Feed(c, b).value;
      && r.handoffs == c.handoffs + [Handoff(c.audio.current, c.trackData)]
      && r.events == c.events + [TrackEndedEvent, CaptureStoppedEvent]
      && r.recordingStopRequested && !r.audio.current.closed
      && DiskSpilling.Contents(r.audio.current.parts) == b.data
      && var f := OnRecordingFinished(r, true);
        && f.audio.current.closed && DiskSpilling.Contents(f.audio.current.parts) == b.data
        && f.handoffs == r.handoffs && f.events == r.events
  {
  }

  /** The stop-after-track flag is never cleared, so every later track end stops the capture again. */
  lemma StopRequestPersists(c: Capture, chunk: TrackBounds.Chunk)
    requires c.stopRequested
    ensures OnChunk(c, chunk).stopRequested
    ensures TrackBounds.Process(c.detector, chunk).state == TrackBounds.TrackEnded ==>
      OnChunk(c, chunk).events[|c.events|..] == [TrackEndedEvent, CaptureStoppedEvent]
  {
  }

  /** A recognition result that arrives after its track ended is merged into the next track's
      data, or becomes it when none has been collected yet. */
  lemma LateRecognitionStartsNextTrackData(c: Capture, t: TrackData)
    requires c.trackData.None?
    ensures OnRecognitionResult(c, Recognition.Recognized(t)).trackData == Some(t)
  {
  }
}

=== FILE: capture_legacy.dfy ===
/** The older capture orchestrator (recording/Capture.kt of the core module). It reacts to
    chunks as the current revision does, with three differences: a recognizer is always
    configured, `stop()` only interrupts the recording and closes nothing, and there is no
    track-written event. Its buffer is the recording's resettable slot over the core
    module's buffer interface; the recording adds each chunk to the buffer before publishing it. */
module LegacyCapture {
  import opened Wrappers
  import opened AudioFormats
  import Pcm
  import opened Tracks
  import TrackBounds
  import LegacyAudioBuffers
  import Captures
  import Recognition

  /** The recording's resettable buffer: the current buffer and how to make a fresh one. */
  datatype Slot = Slot(factory: LegacyAudioBuffers.Factory, format: AudioFormat, current: LegacyAudioBuffers.AudioBuffer)

  function NewSlot(factory: LegacyAudioBuffers.Factory, format: AudioFormat): (s: Slot)
    ensures LegacyAudioBuffers.Contents(s.current) == [] && LegacyAudioBuffers.Format(s.current) == format
  {
    Slot(factory, format, LegacyAudioBuffers.Make(factory, format))
  }

  /** `reset()`: the fresh slot; the buffer it hands out is the current one. */
  function ResetSlot(s: Slot): (r: Slot)
    ensures r.factory == s.factory && r.format == s.format
    ensures LegacyAudioBuffers.Contents(r.current) == []
  {
    s.(current := LegacyAudioBuffers.Make(s.factory, s.format))
  }

  datatype Handoff = Handoff(audio: LegacyAudioBuffers.AudioBuffer, track: Option<TrackData>)

  datatype Capture = Capture(
    detector: TrackBounds.Detector,
    slot: Slot,
    trackData: Option<TrackData>,
    stopRequested: bool,
    recordingStarted: bool,
    interrupted: bool,
    recognitionsLaunched: nat,
    events: seq<Captures.Event>,
    handoffs: seq<Handoff>)

  function New(minSilenceBetweenTracks: nat, factory: LegacyAudioBuffers.Factory, format: AudioFormat): (c: Capture)
    ensures c.trackData.None? && !c.stopRequested && !c.interrupted && c.events == [] && c.handoffs == []
    ensures c.detector == TrackBounds.New(minSilenceBetweenTracks) && LegacyAudioBuffers.Contents(c.slot.current) == []
  {
    Capture(TrackBounds.New(minSilenceBetweenTracks), NewSlot(factory, format), None, false, false, false, 0, [], [])
  }

  function Start(c: Capture): (r: Capture)
    ensures r.recordingStarted && r.events == c.events + [Captures.CaptureStartedEvent]
    ensures r.(recordingStarted := c.recordingStarted, events := c.events) == c
  {
    c.(recordingStarted := true, events := c.events + [Captures.CaptureStartedEvent])
  }

  /** `stop()`: interrupts the recording and publishes capture-stopped; the buffer stays open. */
  function Stop(c: Capture): (r: Capture)
    ensures r.interrupted && r.events == c.events + [Captures.CaptureStoppedEvent]
    ensures r.slot == c.slot && r.handoffs == c.handoffs && r.trackData == c.trackData
    ensures r.(interrupted := c.interrupted, events := c.events) == c
  {
    c.(interrupted := true, events := c.events + [Captures.CaptureStoppedEvent])
  }

  function StopAfterTrack(c: Capture): (r: Capture)
    ensures r.stopRequested && StopAfterTrackRequested(r)
    ensures r.events == c.events + [Captures.CaptureStopRequestedEvent]
    ensures r.(stopRequested := c.stopRequested, events := c.events) == c
  {
    c.(stopRequested := true, events := c.events + [Captures.CaptureStopRequestedEvent])
  }

  /** `stopAfterTrackRequested()`: reports the flag. */
  function StopAfterTrackRequested(c: Capture): (r: bool)
    ensures r <==> c.stopRequested
  {
    c.stopRequested
  }

  function CurrentTrack(c: Capture): Option<TrackData> {
    c.trackData
  }

  datatype Merged = Merged(capture: Capture, merged: TrackData)

  /** `mergeTrackData`: the argument when there is no current track data, otherwise merged into it. */
  function MergeTrackData(c: Capture, t: TrackData): (r: Merged)
    ensures r.capture.trackData == Some(r.merged)
    ensures c.trackData.None? ==> r.merged == t
    ensures c.trackData.Some? ==>
      forall f: Field :: Get(r.merged, f) == if IsSet(t, f) then Get(t, f) else Get(c.trackData.value, f)
    ensures r.capture.(trackData := c.trackData) == c
  {
    var merged := if c.trackData.None? then t else Merge(c.trackData.value, t);
    Merged(c.(trackData := Some(merged)), merged)
  }

  /** `onTrackStarted`: publishes track-started, always launches recognition, then resets the buffer. */
  function OnTrackStarted(c: Capture): (r: Capture)
    ensures r.events == c.events + [Captures.TrackStartedEvent]
    ensures r.recognitionsLaunched == c.recognitionsLaunched + 1
    ensures r.slot == ResetSlot(c.slot) && LegacyAudioBuffers.Contents(r.slot.current) == []
    ensures r.handoffs == c.handoffs && r.trackData == c.trackData && r.detector == c.detector
    ensures r.stopRequested == c.stopRequested && r.interrupted == c.interrupted
  {
    c.(events := c.events + [Captures.TrackStartedEvent], recognitionsLaunched := c.recognitionsLaunched + 1,
       slot := ResetSlot(c.slot))
  }

  /** `onTrackEnded`: publishes track-ended, resets, hands the old buffer and the track data to
      the writer, clears the track data, and stops when asked to after the track. */
  function OnTrackEnded(c: Capture): (r: Capture)
    ensures r.handoffs == c.handoffs + [Handoff(c.slot.current, c.trackData)]
    ensures r.trackData.None? && r.slot == ResetSlot(c.slot)
    ensures !c.stopRequested ==> r.events == c.events + [Captures.TrackEndedEvent] && r.interrupted == c.interrupted
    ensures c.stopRequested ==> r.events == c.events + [Captures.TrackEndedEvent, Captures.CaptureStoppedEvent] && r.interrupted
    ensures r.detector == c.detector && r.recognitionsLaunched == c.recognitionsLaunched && r.stopRequested == c.stopRequested
  {
    var ended := c.(events := c.events + [Captures.TrackEndedEvent], slot := ResetSlot(c.slot), trackData := None,
                    handoffs := c.handoffs + [Handoff(c.slot.current, c.trackData)]);
    if c.stopRequested then Stop(ended) else ended
  }

  function OnChunk(c: Capture, chunk: TrackBounds.Chunk): (r: Capture)
    ensures r.detector == TrackBounds.Process(c.detector, chunk).detector
    ensures var s := TrackBounds.Process(c.detector, chunk).state;
      && (s == TrackBounds.Silence || s == TrackBounds.Playing ==> r.(detector := c.detector) == c)
      && (s == TrackBounds.TrackStarted ==> r.events == c.events + [Captures.TrackStartedEvent] && r.handoffs == c.handoffs)
      && (s == TrackBounds.TrackEnded ==> r.handoffs == c.handoffs + [Handoff(c.slot.current, c.trackData)] && r.trackData.None?)
  {
    var step := TrackBounds.Process(c.detector, chunk);
    var c1 := c.(detector := step.detector);
    match step.state
    case TrackStarted => OnTrackStarted(c1)
    case TrackEnded => OnTrackEnded(c1)
    case Silence => c1
    case Playing => c1
  }

  /** The recording adds a chunk's bytes to the current buffer; this never fails. */
  function Record(c: Capture, data: Pcm.PcmData): (r: Capture)
    ensures LegacyAudioBuffers.Contents(r.slot.current) == LegacyAudioBuffers.Contents(c.slot.current) + data
    ensures r.(slot := c.slot) == c
  {
    c.(slot := c.slot.(current := LegacyAudioBuffers.Add(c.slot.current, data)))
  }

  function OnRecognitionResult(c: Capture, outcome: Recognition.Outcome): (r: Capture)
    ensures outcome.Recognized? ==>
      && r.events == c.events + [Captures.TrackRecognizedEvent(outcome.track)]
      && r.trackData == Some(MergeTrackData(c, outcome.track).merged)
    ensures !outcome.Recognized? ==> r == c
  {
    match Recognition.Delivered(outcome)
    case Some(Some(t)) => MergeTrackData(c.(events := c.events + [Captures.TrackRecognizedEvent(t)]), t).capture
    case _ => c
  }

  /** The recording adds a chunk to the buffer before publishing it, so a boundary chunk's
      bytes land in the buffer that the boundary then resets. */
  function Feed(c: Capture, b: Captures.Block): Capture {
    OnChunk(Record(c, b.data), b.chunk)
  }

  function FeedAll(c: Capture, blocks: seq<Captures.Block>): Capture {
    if |blocks| == 0 then c else Feed(FeedAll(c, blocks[..|blocks| - 1]), blocks[|blocks| - 1])
  }

  // ---------------------------------------------------------------------------
  // Properties
  // ---------------------------------------------------------------------------

  /** Observations shared by both revisions: detector, track data, flags, events, and the track
      data handed to the writer. */
  ghost predicate SameDecisions(l: Capture, c: Captures.Capture) {
    && l.detector == c.detector && l.trackData == c.trackData && l.stopRequested == c.stopRequested
    && l.events == c.events && l.recognitionsLaunched == c.recognitionsLaunched
    && |l.handoffs| == |c.handoffs|
    && (forall k :: 0 <= k < |l.handoffs| ==> l.handoffs[k].track == c.handoffs[k].track)
  }

  /** Given a configured recognizer, both revisions make the same decisions on every chunk;
      they differ only in what a stop does to the buffer. */
  lemma ChunkAgreesWithCurrentRevision(l: Capture, c: Captures.Capture, chunk: TrackBounds.Chunk)
    requires SameDecisions(l, c) && c.hasRecognizer
    ensures SameDecisions(OnChunk(l, chunk), Captures.OnChunk(c, chunk))
  {
    var s := TrackBounds.Process(c.detector, chunk).state;
    var l1 := l.(detector := TrackBounds.Process(l.detector, chunk).detector);
    var c1 := c.(detector := TrackBounds.Process(c.detector, chunk).detector);
    if s == TrackBounds.TrackStarted {
      assert OnChunk(l, chunk) == OnTrackStarted(l1);
      assert Captures.OnChunk(c, chunk) == Captures.OnTrackStarted(c1);
    } else if s == TrackBounds.TrackEnded {
      assert OnChunk(l, chunk) == OnTrackEnded(l1);
      assert Captures.OnChunk(c, chunk) == Captures.OnTrackEnded(c1);
    }
  }

  /** Both revisions handle a recognition result alike. */
  lemma ResultAgreesWithCurrentRevision(l: Capture, c: Captures.Capture, outcome: Recognition.Outcome)
    requires SameDecisions(l, c)
    ensures SameDecisions(OnRecognitionResult(l, outcome), Captures.OnRecognitionResult(c, outcome))
  {
    if outcome.Recognized? {
      var t := outcome.track;
      var l1 := l.(events := l.events + [Captures.TrackRecognizedEvent(t)]);
      var c1 := c.(events := c.events + [Captures.TrackRecognizedEvent(t)]);
      assert OnRecognitionResult(l, outcome) == MergeTrackData(l1, t).capture;
      assert Captures.OnRecognitionResult(c, outcome) == Captures.MergeTrackData(c1, t).capture;
    }
  }

  /** Both revisions handle a stop-after-track request alike. */
  lemma StopRequestAgreesWithCurrentRevision(l: Capture, c: Captures.Capture)
    requires SameDecisions(l, c)
    ensures SameDecisions(StopAfterTrack(l), Captures.StopAfterTrack(c))
  {
  }

  /** What a capture fed with recorded chunks only has done, given the detector's trace. */
  ghost predicate FollowsDetector(c: Capture, t: TrackBounds.Trace) {
    var bounds := TrackBounds.Boundaries(t.states);
    && c.detector == t.detector
    && TrackBounds.Valid(t.detector)
    && (t.detector.isSoundPresent <==> |bounds| % 2 == 1)
    && c.events == Captures.BoundaryEvents(bounds)
    && |c.handoffs| == |bounds| / 2
    && c.recognitionsLaunched == (|bounds| + 1) / 2
    && c.trackData.None? && !c.stopRequested && !c.interrupted
  }

  /** One more recorded block keeps the capture in step with the detector. */
  lemma FeedStep(c: Capture, t: TrackBounds.Trace, b: Captures.Block)
    requires FollowsDetector(c, t)
    ensures var step := TrackBounds.Process(t.detector, b.chunk);
      FollowsDetector(Feed(c, b), TrackBounds.Trace(step.detector, t.states + [step.state]))
  {
    RecordFollows(c, t, b.data);
    OnChunkFollows(Record(c, b.data), t, b.chunk);
  }

  /** Adding bytes to the buffer changes nothing the detector decides. */
  lemma RecordFollows(c: Capture, t: TrackBounds.Trace, data: Pcm.PcmData)
    requires FollowsDetector(c, t)
    ensures FollowsDetector(Record(c, data), t)
  {
  }

  /** Reacting to a chunk follows the detector's step: an event per boundary, a hand-off per
      track end, a recognition per track start. */
  lemma OnChunkFollows(c: Capture, t: TrackBounds.Trace, chunk: TrackBounds.Chunk)
    requires FollowsDetector(c, t)
    ensures var step := TrackBounds.Process(t.detector, chunk);
      FollowsDetector(OnChunk(c, chunk), TrackBounds.Trace(step.detector, t.states + [step.state]))
  {
    var step := TrackBounds.Process(t.detector, chunk);
    var bounds := TrackBounds.Boundaries(t.states);
    assert TrackBounds.Boundaries(t.states + [step.state]) == if Captures.IsBoundary(step.state) then bounds + [step.state] else bounds by {
      assert (t.states + [step.state])[..|t.states|] == t.states;
    }
    if step.state == TrackBounds.TrackStarted {
      Captures.BoundaryEventsSnoc(bounds, step.state);
      assert |bounds| % 2 == 0;
    } else if step.state == TrackBounds.TrackEnded {
      Captures.BoundaryEventsSnoc(bounds, step.state);
      assert |bounds| % 2 == 1;
    }
  }

  /** The events and writer hand-offs of a fresh capture fed with recorded chunks follow the
      detector's boundaries: one event per boundary, one hand-off and no track data per track
      end, one recognition per track start. */
  lemma {:induction false} FeedFollowsDetector(minSilence: nat, factory: LegacyAudioBuffers.Factory, format: AudioFormat, blocks: seq<Captures.Block>)
    ensures FollowsDetector(FeedAll(New(minSilence, factory, format), blocks),
                            TrackBounds.Run(TrackBounds.New(minSilence), Captures.Chunks(blocks)))
  {
    if |blocks| > 0 {
      var n := |blocks| - 1;
      var init := blocks[..n];
      FeedFollowsDetector(minSilence, factory, format, init);
      assert Captures.Chunks(blocks)[..n] == Captures.Chunks(init);
      var tp := TrackBounds.Run(TrackBounds.New(minSilence), Captures.Chunks(init));
      FeedStep(FeedAll(New(minSilence, factory, format), init), tp, blocks[n]);
    } else {
      assert Captures.Chunks(blocks) == [];
    }
  }

  /** Starts and ends published by the older capture alternate too, beginning with a start. */
  lemma EventsAlternate(minSilence: nat, factory: LegacyAudioBuffers.Factory, format: AudioFormat, blocks: seq<Captures.Block>)
    ensures var c := FeedAll(New(minSilence, factory, format), blocks);
      && (forall i :: 0 <= i < |c.events| ==>
            c.events[i] == if i % 2 == 0 then Captures.TrackStartedEvent else Captures.TrackEndedEvent)
      && |c.handoffs| == |c.events| / 2
  {
    FeedFollowsDetector(minSilence, factory, format, blocks);
    TrackBounds.RunInvariants(minSilence, Captures.Chunks(blocks));
  }

  /** With a stop requested, a track end hands the track off and then stops, leaving every buffer open. */
  lemma StopAfterTrackLeavesBuffersOpen(c: Capture)
    requires c.stopRequested
    ensures var r := OnTrackEnded(c);
      && r.handoffs[|c.handoffs|] == Handoff(c.slot.current, c.trackData)
      && r.events == c.events + [Captures.TrackEndedEvent, Captures.CaptureStoppedEvent]
      && r.interrupted && r.slot == ResetSlot(c.slot)
  {
  }
}

=== FILE: disk_spilling_buffer.dfy ===
/** The disk-spilling audio buffer (core/buffer/DiskSpillingAudioBuffer.kt of the application
    module): a spill file holding older bytes plus an in-memory part holding the newest ones.
    The spill file is modelled by its contents; file handles, locks and the temporary file are
    not modelled. The spill rule and the stream of `get` are shared with the older revision. */
module DiskSpilling {
  import opened Wrappers
  import opened AudioFormats
  import opened Pcm
  import InMemoryBuffers

  /** 128 MiB. */
  const DEFAULT_MAX_IN_MEMORY_BUFFER_SIZE: nat := 128 * 1024 * 1024

  /** The bytes on disk and the bytes in memory. */
  datatype Parts = Parts(spilled: PcmData, memory: PcmData)

  /** All bytes held, oldest first. */
  function Contents(p: Parts): PcmData {
    p.spilled + p.memory
  }

  /** The spill rule of `add`: when the memory part and the new chunk together exceed `max`,
      the whole memory part goes to the spill file first; the chunk always goes to memory. */
  function Spill(max: nat, p: Parts, data: PcmData): (r: Parts)
    ensures Contents(r) == Contents(p) + data
    ensures r.spilled == p.spilled || r.spilled == p.spilled + p.memory
    ensures |r.memory| <= max || r.memory == data
    ensures |p.memory| + |data| <= max ==> r.spilled == p.spilled
    ensures |p.memory| + |data| > max ==> r.memory == data
    ensures |data| > 0 ==> Drains(r)
  {
    if |p.memory| + |data| > max then Parts(p.spilled + p.memory, data)
    else Parts(p.spilled, p.memory + data)
  }

  /** Whether the stream of `get` is sure to reach every byte held: bytes in memory keep
      `hasNext` true until the last spilled byte has been yielded, and with nothing spilled
      nothing can be cut short. */
  predicate Drains(p: Parts) {
    |p.memory| > 0 || |p.spilled| == 0
  }

  /** Where the last chunk starts when `size` bytes are read back in chunks of `max`. */
  function LastChunkStart(size: nat, max: nat): (r: nat)
    requires max > 0 && size > 0
    ensures r < size <= r + max
    ensures size > max ==> r >= max
    decreases size
  {
    if size <= max then 0 else max + LastChunkStart(size - max, max)
  }

  /** What the stream of `get` yields over the spill `p.spilled` and the memory part
      `p.memory`, consumed to its end. The first chunk of min(max, spilled) bytes is loaded
      when the stream is created, and `hasNext` asks only whether chunks remain to be
      LOADED or memory bytes remain. So with an empty memory part the stream ends as soon as
      the last chunk is loaded: it is empty when everything fitted in the first chunk, and
      otherwise stops after the first byte of the last chunk. A zero cap loads empty chunks,
      and `next` then fails on the empty chunk. */
  function Stream(p: Parts, max: nat): (r: Result<PcmData>)
    ensures r.Ok? <==> max > 0 || |p.spilled| == 0
    ensures r.Ok? ==> r.value <= Contents(p)
    ensures r.Ok? && Drains(p) ==> r.value == Contents(p)
    ensures r.Ok? && !Drains(p) && |p.spilled| <= max ==> r.value == []
    ensures r.Ok? && !Drains(p) && |p.spilled| > max ==> |p.spilled| - max < |r.value|
    ensures r.Ok? ==>
      (r.value == Contents(p) <==> Drains(p) || (|p.spilled| > max && LastChunkStart(|p.spilled|, max) + 1 == |p.spilled|))
  {
    if max == 0 && |p.spilled| > 0 then Err("NoSuchElementException")
    else if Drains(p) then Ok(p.spilled + p.memory)
    else if |p.spilled| <= max then Ok([])
    else Ok(p.spilled[..LastChunkStart(|p.spilled|, max) + 1])
  }

  /** The iterator behind the stream of `get`: the chunk of the spill file loaded last, which
      starts at `chunkStart`, the number of bytes loaded so far (`bytesRead`), the position
      in the loaded chunk, and the position in the snapshot of the memory part. */
  datatype SpillIterator = SpillIterator(chunkStart: nat, chunk: PcmData, bytesRead: nat, pos: nat, memPos: nat)

  /** `readChunkFromSpill`: loads min(max, remaining) bytes and counts them as read. */
  function LoadChunk(p: Parts, max: nat, it: SpillIterator): (r: SpillIterator)
    requires it.bytesRead <= |p.spilled|
    ensures r.chunkStart == it.bytesRead && r.pos == 0 && r.memPos == it.memPos
    ensures |r.chunk| == Min(max, |p.spilled| - it.bytesRead) && r.bytesRead == it.bytesRead + |r.chunk|
    ensures r.chunk == p.spilled[it.bytesRead..r.bytesRead]
  {
    var n := Min(max, |p.spilled| - it.bytesRead);
    SpillIterator(it.bytesRead, p.spilled[it.bytesRead..it.bytesRead + n], it.bytesRead + n, 0, it.memPos)
  }

  /** The iterator when the stream is created: the first chunk is already loaded. */
  function Start(p: Parts, max: nat): SpillIterator {
    LoadChunk(p, max, SpillIterator(0, [], 0, 0, 0))
  }

  /** The source's `hasNext`: chunks remain to be loaded, or memory bytes remain. */
  predicate HasNext(p: Parts, it: SpillIterator) {
    it.bytesRead < |p.spilled| || it.memPos < |p.memory|
  }

  /** The corrected `hasNext`, which also asks whether the loaded chunk has bytes left. */
  predicate HasNextFixed(p: Parts, it: SpillIterator) {
    it.pos < |it.chunk| || HasNext(p, it)
  }

  /** The bytes an iterator has yielded so far. */
  function Yielded(p: Parts, it: SpillIterator): PcmData
    requires it.chunkStart + it.pos <= |p.spilled| && it.memPos <= |p.memory|
  {
    p.spilled[..it.chunkStart + it.pos] + p.memory[..it.memPos]
  }

  /** What holds of the iterator between calls. */
  ghost predicate Valid(p: Parts, max: nat, it: SpillIterator) {
    && it.chunkStart + |it.chunk| == it.bytesRead <= |p.spilled|
    && |it.chunk| == Min(max, |p.spilled| - it.chunkStart)
    && it.chunk == p.spilled[it.chunkStart..it.bytesRead]
    && it.pos <= |it.chunk| && it.memPos <= |p.memory|
    && (it.memPos > 0 ==> it.chunkStart + it.pos == |p.spilled|)
    && (max == 0 ==> it.bytesRead == 0)
    && (max > 0 && |p.spilled| > 0 ==> it.bytesRead > 0)
    && (it.chunkStart > 0 ==> |p.spilled| > max)
    && (max > 0 && it.chunkStart < |p.spilled| ==>
          it.chunkStart + LastChunkStart(|p.spilled| - it.chunkStart, max) == LastChunkStart(|p.spilled|, max))
  }

  /** The bytes an iterator has still to yield, at most. */
  function Remaining(p: Parts, it: SpillIterator): nat
    requires it.chunkStart + it.pos <= |p.spilled| && it.memPos <= |p.memory|
  {
    |p.spilled| - (it.chunkStart + it.pos) + (|p.memory| - it.memPos)
  }

  /** One call to `next` took the iterator from `it` to `it2`, yielding `b`: the invariant
      still holds, `b` extends what was yielded, and fewer bytes remain. */
  ghost predicate Advanced(p: Parts, max: nat, it: SpillIterator, b: byte, it2: SpillIterator) {
    && Valid(p, max, it) && Valid(p, max, it2)
    && Yielded(p, it2) == Yielded(p, it) + [b]
    && Remaining(p, it2) < Remaining(p, it)
  }

  /** The source's `next`: a byte of the loaded chunk, else the first byte of a newly loaded
      chunk, else a byte of memory. Fails when the newly loaded chunk is empty, as
      `next` on an empty array iterator does. */
  method Next(p: Parts, max: nat, it: SpillIterator) returns (r: Result<(byte, SpillIterator)>)
    requires Valid(p, max, it) && HasNextFixed(p, it)
    ensures r.Ok? ==> Advanced(p, max, it, r.value.0, r.value.1)
    ensures r.Ok? && it.bytesRead < |p.spilled| && r.value.1.bytesRead == |p.spilled| ==>
      r.value.1.pos == 1 && r.value.1.chunkStart > 0
    ensures r.Err? <==> max == 0 && it.pos == |it.chunk| && it.bytesRead < |p.spilled|
  {
    if it.pos < |it.chunk| {
      var b, it2 := NextFromChunk(p, max, it);
      return Ok((b, it2));
    } else if it.bytesRead < |p.spilled| {
      if |LoadChunk(p, max, it).chunk| == 0 {
        return Err("NoSuchElementException");
      }
      var b, it2 := NextFromNewChunk(p, max, it);
      return Ok((b, it2));
    } else {
      var b, it2 := NextFromMemory(p, max, it);
      return Ok((b, it2));
    }
  }

  /** `next` while the loaded chunk has bytes left. */
  method NextFromChunk(p: Parts, max: nat, it: SpillIterator) returns (b: byte, it2: SpillIterator)
    requires Valid(p, max, it) && it.pos < |it.chunk|
    ensures Advanced(p, max, it, b, it2) && it2.bytesRead == it.bytesRead
  {
    NextInChunk(p, max, it);
    b, it2 := it.chunk[it.pos], it.(pos := it.pos + 1);
  }

  /** `next` once the loaded chunk is used up and the spill file has more: the next chunk is
      loaded and its first byte returned. */
  method NextFromNewChunk(p: Parts, max: nat, it: SpillIterator) returns (b: byte, it2: SpillIterator)
    requires Valid(p, max, it) && it.pos == |it.chunk| && it.bytesRead < |p.spilled| && max > 0
    ensures Advanced(p, max, it, b, it2) && it2.pos == 1 && it2.chunkStart > 0
  {
    var loaded := LoadChunk(p, max, it);
    NextLoads(p, max, it);
    LoadedYields(p, max, it);
    b, it2 := loaded.chunk[0], loaded.(pos := 1);
  }

  /** `next` once the spill file is used up: a byte of memory. */
  method NextFromMemory(p: Parts, max: nat, it: SpillIterator) returns (b: byte, it2: SpillIterator)
    requires Valid(p, max, it) && it.pos == |it.chunk| && it.bytesRead == |p.spilled| && it.memPos < |p.memory|
    ensures Advanced(p, max, it, b, it2) && it2.bytesRead == it.bytesRead
  {
    NextInMemory(p, max, it);
    b, it2 := p.memory[it.memPos], it.(memPos := it.memPos + 1);
  }

  /** `next` from the loaded chunk. */
  lemma NextInChunk(p: Parts, max: nat, it: SpillIterator)
    requires Valid(p, max, it) && it.pos < |it.chunk|
    ensures Advanced(p, max, it, it.chunk[it.pos], it.(pos := it.pos + 1))
  {
    ChunkStepYields(p, max, it);
  }

  /** A byte of the loaded chunk is the next spilled byte. */
  lemma ChunkStepYields(p: Parts, max: nat, it: SpillIterator)
    requires Valid(p, max, it) && it.pos < |it.chunk|
    ensures Yielded(p, it.(pos := it.pos + 1)) == Yielded(p, it) + [it.chunk[it.pos]]
  {
    assert it.memPos == 0;
    assert p.spilled[..it.chunkStart + it.pos + 1] == p.spilled[..it.chunkStart + it.pos] + [it.chunk[it.pos]];
  }

  /** `next` loading the next chunk of the spill file, which with a positive cap is not empty. */
  lemma NextLoads(p: Parts, max: nat, it: SpillIterator)
    requires Valid(p, max, it) && it.pos == |it.chunk| && it.bytesRead < |p.spilled| && max > 0
    ensures var loaded := LoadChunk(p, max, it);
      && |loaded.chunk| > 0 && loaded.chunkStart > 0
      && Valid(p, max, loaded.(pos := 1))
      && Remaining(p, loaded.(pos := 1)) < Remaining(p, it)
  {
    var rest := |p.spilled| - it.chunkStart;
    assert LastChunkStart(rest, max) == max + LastChunkStart(rest - max, max);
  }

  /** The first byte of a newly loaded chunk extends what was yielded. */
  lemma LoadedYields(p: Parts, max: nat, it: SpillIterator)
    requires Valid(p, max, it) && it.pos == |it.chunk| && it.bytesRead < |p.spilled| && max > 0
    ensures var loaded := LoadChunk(p, max, it);
      Yielded(p, loaded.(pos := 1)) == Yielded(p, it) + [loaded.chunk[0]]
  {
    var loaded := LoadChunk(p, max, it);
    assert it.memPos == 0;
    assert p.spilled[..loaded.chunkStart + 1] == p.spilled[..loaded.chunkStart] + [loaded.chunk[0]];
  }

  /** `next` from the memory part, once every spilled byte is loaded and yielded. */
  lemma NextInMemory(p: Parts, max: nat, it: SpillIterator)
    requires Valid(p, max, it) && it.pos == |it.chunk| && it.bytesRead == |p.spilled| && it.memPos < |p.memory|
    ensures Advanced(p, max, it, p.memory[it.memPos], it.(memPos := it.memPos + 1))
  {
    assert p.memory[..it.memPos + 1] == p.memory[..it.memPos] + [p.memory[it.memPos]];
  }

  /** The stream of `get` consumed to its end, as the source's iterator runs: `next` while
      `hasNext`. */
  method Drain(p: Parts, max: nat) returns (r: Result<PcmData>)
    ensures r == Stream(p, max)
  {
    var it := Start(p, max);
    var out: PcmData := [];
    while HasNext(p, it)
      invariant Valid(p, max, it)
      invariant out == Yielded(p, it)
      invariant |p.memory| == 0 && it.bytesRead == |p.spilled| ==> it.pos == (if it.chunkStart == 0 then 0 else 1)
      decreases Remaining(p, it)
    {
      var step := Next(p, max, it);
      if step.Err? {
        return Err("NoSuchElementException");
      }
      out := out + [step.value.0];
      it := step.value.1;
    }
    StreamAtEnd(p, max, it);
    return Ok(out);
  }

  /** Where the iterator stops: with every chunk loaded and memory exhausted, the bytes
      yielded are what `Stream` says. */
  lemma StreamAtEnd(p: Parts, max: nat, it: SpillIterator)
    requires Valid(p, max, it) && !HasNext(p, it)
    requires |p.memory| == 0 ==> it.pos == (if it.chunkStart == 0 then 0 else 1)
    ensures Stream(p, max) == Ok(Yielded(p, it))
  {
    assert p.memory[..it.memPos] == p.memory;
    if it.chunkStart + it.pos == |p.spilled| {
      assert p.spilled[..it.chunkStart + it.pos] == p.spilled;
    }
    if !Drains(p) {
      assert Yielded(p, it) == p.spilled[..it.chunkStart + it.pos];
      if it.chunkStart > 0 {
        assert LastChunkStart(|p.spilled| - it.chunkStart, max) == 0;
        assert Stream(p, max) == Ok(p.spilled[..LastChunkStart(|p.spilled|, max) + 1]);
      } else {
        assert Stream(p, max) == Ok([]);
      }
    }
  }

  /** The stream `get` evidently means to return: the same iterator with `hasNext` also
      true while the loaded chunk has bytes left, so every spilled byte is yielded. */
  function StreamFixed(p: Parts, max: nat): (r: Result<PcmData>)
    ensures r.Ok? <==> max > 0 || |p.spilled| == 0
    ensures r.Ok? ==> r.value == Contents(p)
  {
    if max == 0 && |p.spilled| > 0 then Err("NoSuchElementException")
    else Ok(p.spilled + p.memory)
  }

  /** The corrected iterator consumed to its end: `next` while the corrected `hasNext`. */
  method DrainFixed(p: Parts, max: nat) returns (r: Result<PcmData>)
    ensures r == StreamFixed(p, max)
  {
    var it := Start(p, max);
    var out: PcmData := [];
    while HasNextFixed(p, it)
      invariant Valid(p, max, it)
      invariant out == Yielded(p, it)
      decreases Remaining(p, it)
    {
      var step := Next(p, max, it);
      if step.Err? {
        return Err("NoSuchElementException");
      }
      out := out + [step.value.0];
      it := step.value.1;
    }
    assert p.memory[..it.memPos] == p.memory;
    assert p.spilled[..it.chunkStart + it.pos] == p.spilled;
    return Ok(out);
  }

  /** How many of `size` bytes remain after skipping `n` and limiting to `len`. */
  function ClippedLength(size: nat, n: nat, len: Option<nat>): (r: nat)
    ensures r == 0 || n + r <= size
    ensures len.Some? ==> r <= len.value
  {
    if n < size then (if len.Some? then Min(len.value, size - n) else size - n) else 0
  }

  /** `InputStream.skip` then `Stream.limit`: drop `n` bytes, then keep at most `len`. */
  function SkipLimit(s: PcmData, n: nat, len: Option<nat>): (r: PcmData)
    ensures |r| == ClippedLength(|s|, n, len)
    ensures forall i :: 0 <= i < |r| ==> r[i] == s[n + i]
  {
    var rest := if n < |s| then s[n..] else [];
    if len.Some? && len.value < |rest| then rest[..len.value] else rest
  }

  datatype SpillingBuffer = SpillingBuffer(format: AudioFormat, maxInMemory: nat, parts: Parts, closed: bool)

  function New(format: AudioFormat, maxInMemory: nat): (b: SpillingBuffer)
    ensures Contents(b.parts) == [] && !b.closed
  {
    SpillingBuffer(format, maxInMemory, Parts([], []), false)
  }

  /** Appends a chunk; fails once the buffer is closed. */
  function Add(b: SpillingBuffer, data: PcmData): (r: Result<SpillingBuffer>)
    ensures r.Ok? <==> !b.closed
    ensures r.Ok? ==> Contents(r.value.parts) == Contents(b.parts) + data
    ensures r.Ok? ==> |r.value.parts.memory| <= b.maxInMemory || r.value.parts.memory == data
    ensures r.Ok? ==> r.value.format == b.format && r.value.maxInMemory == b.maxInMemory && !r.value.closed
    ensures r.Ok? && |data| > 0 ==> Drains(r.value.parts)
  {
    if b.closed then Err("Buffer is already closed and can't accept any data.")
    else Ok(b.(parts := Spill(b.maxInMemory, b.parts, data)))
  }

  /** What the stream of `get` yields when consumed: a prefix of the bytes held, all of
      them when the buffer drains; fails once closed. */
  function Read(b: SpillingBuffer): (r: Result<PcmData>)
    ensures r.Ok? <==> !b.closed && (b.maxInMemory > 0 || |b.parts.spilled| == 0)
    ensures r.Ok? ==> r.value <= Contents(b.parts)
    ensures r.Ok? && Drains(b.parts) ==> r.value == Contents(b.parts)
  {
    if b.closed then Err("Buffer is already closed.") else Stream(b.parts, b.maxInMemory)
  }

  /** `get()`: the `require` on the closed state, then the stream consumed. */
  method Get(b: SpillingBuffer) returns (r: Result<PcmData>)
    ensures r == Read(b)
  {
    if b.closed {
      return Err("Buffer is already closed.");
    }
    r := Drain(b.parts, b.maxInMemory);
  }

  /** `get()` with the corrected `hasNext`: every byte held. */
  function ReadFixed(b: SpillingBuffer): (r: Result<PcmData>)
    ensures r.Ok? <==> !b.closed && (b.maxInMemory > 0 || |b.parts.spilled| == 0)
    ensures r.Ok? ==> r.value == Contents(b.parts)
  {
    if b.closed then Err("Buffer is already closed.") else StreamFixed(b.parts, b.maxInMemory)
  }

  method GetFixed(b: SpillingBuffer) returns (r: Result<PcmData>)
    ensures r == ReadFixed(b)
  {
    if b.closed {
      return Err("Buffer is already closed.");
    }
    r := DrainFixed(b.parts, b.maxInMemory);
  }

  /** `get(offset, length)`: skip the offset in bytes of the stream of `get()`, then limit to
      the length in bytes. */
  function GetRange(b: SpillingBuffer, offsetMs: nat, lengthMs: Option<nat>): (r: Result<PcmData>)
    ensures r.Ok? <==> EffectiveFrameRate(b.format).Ok? && EffectiveFrameSize(b.format).Ok? && Read(b).Ok?
    ensures r.Ok? ==>
      var all := Read(b).value;
      var off := DurationToByteCount(b.format, offsetMs).value;
      var len := if lengthMs.Some? then Some(DurationToByteCount(b.format, lengthMs.value).value) else None;
      && |r.value| == ClippedLength(|all|, off, len)
      && forall i :: 0 <= i < |r.value| ==> r.value[i] == all[off + i]
  {
    var off :- DurationToByteCount(b.format, offsetMs);
    var len := if lengthMs.Some? then Some(DurationToByteCount(b.format, lengthMs.value).value) else None;
    var all :- Read(b);
    Ok(SkipLimit(all, off, len))
  }

  /** The number of bytes held; still answers after `close`. */
  function Size(b: SpillingBuffer): (r: nat)
    ensures r == |Contents(b.parts)|
  {
    |b.parts.spilled| + |b.parts.memory|
  }

  function Duration(b: SpillingBuffer): (r: Result<nat>)
    ensures r.Ok? <==> Resolvable(b.format)
    ensures r.Ok? ==>
      var frames := Size(b) / EffectiveFrameSize(b.format).value;
      var rate := EffectiveFrameRate(b.format).value;
      r.value * rate <= frames * 1000 < (r.value + 1) * rate
  {
    // The same duration an in-memory buffer holding these bytes reports.
    InMemoryBuffers.Duration(InMemoryBuffers.InMemoryBuffer(b.format, Contents(b.parts)))
  }

  /** Marks the buffer closed; the spill file is deleted but the byte counts are kept. */
  function Close(b: SpillingBuffer): (r: SpillingBuffer)
    ensures r.closed && Size(r) == Size(b)
    ensures Read(r).Err?
  {
    b.(closed := true)
  }

  /** Adds the chunks in order; `None` once an add fails. */
  function AddAll(b: SpillingBuffer, chunks: seq<PcmData>): Option<SpillingBuffer> {
    if |chunks| == 0 then Some(b)
    else
      match AddAll(b, chunks[..|chunks| - 1])
      case None => None
      case Some(prev) =>
        match Add(prev, chunks[|chunks| - 1])
        case Ok(next) => Some(next)
        case Err(_) => None
  }

  /** Spilled bytes followed by memory bytes are every byte added, in add order; the memory part
      stays within its cap unless it holds exactly the last chunk. */
  lemma {:induction false} ContentsAreAllAdds(format: AudioFormat, max: nat, chunks: seq<PcmData>)
    ensures AddAll(New(format, max), chunks).Some?
    ensures Contents(AddAll(New(format, max), chunks).value.parts) == Concat(chunks)
    ensures Size(AddAll(New(format, max), chunks).value) == |Concat(chunks)|
    ensures !AddAll(New(format, max), chunks).value.closed
    ensures AddAll(New(format, max), chunks).value.maxInMemory == max
    ensures |chunks| > 0 ==>
      var memory := AddAll(New(format, max), chunks).value.parts.memory;
      |memory| <= max || memory == chunks[|chunks| - 1]
    ensures |chunks| > 0 && |chunks[|chunks| - 1]| > 0 ==> Drains(AddAll(New(format, max), chunks).value.parts)
  {
    if |chunks| > 0 {
      ContentsAreAllAdds(format, max, chunks[..|chunks| - 1]);
    }
  }

  /** With a positive cap, `get()` after any adds yields a prefix of their concatenation,
      and all of it when the buffer drains, in particular when the last chunk is not empty. */
  lemma GetAfterAdds(format: AudioFormat, max: nat, chunks: seq<PcmData>)
    requires max > 0
    ensures var r := AddAll(New(format, max), chunks);
      && r.Some? && Read(r.value).Ok? && Read(r.value).value <= Concat(chunks)
      && (Drains(r.value.parts) ==> Read(r.value) == Ok(Concat(chunks)))
      && (|chunks| > 0 && |chunks[|chunks| - 1]| > 0 ==> Drains(r.value.parts))
  {
    ContentsAreAllAdds(format, max, chunks);
  }

  /** With the corrected `hasNext` and a positive cap, `get()` after any adds returns all of
      them concatenated. */
  lemma FixedGetAfterAdds(format: AudioFormat, max: nat, chunks: seq<PcmData>)
    requires max > 0
    ensures var r := AddAll(New(format, max), chunks); r.Some? && ReadFixed(r.value) == Ok(Concat(chunks))
  {
    ContentsAreAllAdds(format, max, chunks);
  }

  /** The stream as written loses spilled bytes: with a cap of 50, a 200-byte chunk followed
      by an empty one leaves all 200 bytes spilled and memory empty, and `get()` yields the
      three full chunks and the first byte of the fourth, 151 bytes, where the corrected
      stream yields all 200. */
  lemma StrandedTailExample(a: PcmData)
    requires |a| == 200
    ensures AddAll(New(TestFormat(), 50), [a, []]) == Some(SpillingBuffer(TestFormat(), 50, Parts(a, []), false))
    ensures var b := SpillingBuffer(TestFormat(), 50, Parts(a, []), false);
      Read(b) == Ok(a[..151]) && ReadFixed(b) == Ok(a)
  {
    var f := TestFormat();
    var empty := New(f, 50);
    assert [a, []][..1] == [a];
    assert [a][..0] == [];
    var one := SpillingBuffer(f, 50, Parts([], a), false);
    assert [] + a == a;
    assert Spill(50, Parts([], []), a) == one.parts;
    assert Add(empty, a) == Ok(one);
    assert AddAll(empty, [a]) == Some(one);
    var two := SpillingBuffer(f, 50, Parts(a, []), false);
    assert [] + a == a;
    assert Spill(50, one.parts, []) == two.parts;
    assert Add(one, []) == Ok(two);
    assert LastChunkStart(50, 50) == 0;
    assert LastChunkStart(100, 50) == 50;
    assert LastChunkStart(150, 50) == 100;
    assert LastChunkStart(200, 50) == 150;
    assert Stream(two.parts, 50) == Ok(a[..151]);
    assert a + [] == a;
  }

  /** A closed buffer rejects adds and reads of every kind. */
  lemma ClosedRejectsEverything(b: SpillingBuffer, data: PcmData, offsetMs: nat, lengthMs: Option<nat>)
    ensures Add(Close(b), data).Err?
    ensures Read(Close(b)).Err?
    ensures GetRange(Close(b), offsetMs, lengthMs).Err?
  {
  }

  /** The buffer tests' scenario with a 50-byte cap: 30 + 30 + 200 bytes leave the first two
      chunks on disk and the 200-byte chunk alone in memory. */
  lemma SpillExample(a: PcmData, b: PcmData, c: PcmData)
    requires |a| == 30 && |b| == 30 && |c| == 200
    ensures AddAll(New(TestFormat(), 50), [a, b, c]) == Some(SpillingBuffer(TestFormat(), 50, Parts(a + b, c), false))
  {
    var f := TestFormat();
    var empty := New(f, 50);
    assert [a, b, c][..2] == [a, b];
    assert [a, b][..1] == [a];
    assert [a][..0] == [];
    var one := SpillingBuffer(f, 50, Parts([], a), false);
    assert [] + a == a;
    assert Spill(50, Parts([], []), a) == one.parts;
    assert Add(empty, a) == Ok(one);
    assert AddAll(empty, [a]) == Some(one);
    var two := SpillingBuffer(f, 50, Parts(a, b), false);
    assert Spill(50, one.parts, b) == two.parts;
    assert Add(one, b) == Ok(two);
    assert AddAll(empty, [a, b]) == Some(two);
    assert Add(two, c) == Ok(SpillingBuffer(f, 50, Parts(a + b, c), false));
  }

  /** Skipping and limiting the stream selects the same bytes as the in-memory buffer's
      slice of what the stream yields: of all the bytes held when the buffer drains. */
  lemma GetRangeAgreesWithInMemory(b: SpillingBuffer, offsetMs: nat, lengthMs: Option<nat>)
    requires Read(b).Ok?
    ensures GetRange(b, offsetMs, lengthMs)
      == InMemoryBuffers.GetRange(InMemoryBuffers.InMemoryBuffer(b.format, Read(b).value), offsetMs, lengthMs)
    ensures Drains(b.parts) ==>
      GetRange(b, offsetMs, lengthMs) == InMemoryBuffers.GetRange(InMemoryBuffers.InMemoryBuffer(b.format, Contents(b.parts)), offsetMs, lengthMs)
  {
    var m := InMemoryBuffers.InMemoryBuffer(b.format, Read(b).value);
    var r1 := GetRange(b, offsetMs, lengthMs);
    var r2 := InMemoryBuffers.GetRange(m, offsetMs, lengthMs);
    assert r1.Ok? <==> r2.Ok?;
    if r1.Ok? {
      assert |r1.value| == |r2.value|;
      assert forall i :: 0 <= i < |r1.value| ==> r1.value[i] == r2.value[i];
      assert r1.value == r2.value;
    }
  }
}

=== FILE: disk_spilling_buffer_legacy.dfy ===
/** The older disk-spilling buffer (buffer/DiskSpillingAudioBuffer.kt of the core module):
    the same spill rule and stream of `get` as the current revision, with no `close`, no
    closed state and no default cap. */
module LegacyDiskSpilling {
  import opened Wrappers
  import opened AudioFormats
  import opened Pcm
  import DiskSpilling

  datatype LegacyBuffer = LegacyBuffer(format: AudioFormat, maxInMemory: nat, parts: DiskSpilling.Parts)

  function New(format: AudioFormat, maxInMemory: nat): (b: LegacyBuffer)
    ensures DiskSpilling.Contents(b.parts) == []
  {
    LegacyBuffer(format, maxInMemory, DiskSpilling.Parts([], []))
  }

  /** Appends a chunk; always succeeds. */
  function Add(b: LegacyBuffer, data: PcmData): (r: LegacyBuffer)
    ensures DiskSpilling.Contents(r.parts) == DiskSpilling.Contents(b.parts) + data
    ensures |r.parts.memory| <= b.maxInMemory || r.parts.memory == data
    ensures r.parts.spilled == b.parts.spilled || r.parts.spilled == DiskSpilling.Contents(b.parts)
    ensures r.format == b.format && r.maxInMemory == b.maxInMemory
    ensures |data| > 0 ==> DiskSpilling.Drains(r.parts)
  {
    b.(parts := DiskSpilling.Spill(b.maxInMemory, b.parts, data))
  }

  /** `get()`: the stream of the current revision, with its `hasNext` (no closed state). */
  method Get(b: LegacyBuffer) returns (r: Result<PcmData>)
    ensures r == Read(b)
  {
    r := DiskSpilling.Drain(b.parts, b.maxInMemory);
  }

  /** What the stream of `get` yields when consumed: a prefix of the bytes held, all of them
      when the buffer drains. */
  function Read(b: LegacyBuffer): (r: Result<PcmData>)
    ensures r.Ok? <==> b.maxInMemory > 0 || |b.parts.spilled| == 0
    ensures r.Ok? ==> r.value <= DiskSpilling.Contents(b.parts)
    ensures r.Ok? && DiskSpilling.Drains(b.parts) ==> r.value == DiskSpilling.Contents(b.parts)
  {
    DiskSpilling.Stream(b.parts, b.maxInMemory)
  }

  /** `get(offset, length)`: skip the offset in bytes of the stream of `get()`, then limit to
      the length in bytes. */
  function GetRange(b: LegacyBuffer, offsetMs: nat, lengthMs: Option<nat>): (r: Result<PcmData>)
    ensures r.Ok? <==> EffectiveFrameRate(b.format).Ok? && EffectiveFrameSize(b.format).Ok? && Read(b).Ok?
    ensures r.Ok? ==>
      var all := Read(b).value;
      var off := DurationToByteCount(b.format, offsetMs).value;
      var len := if lengthMs.Some? then Some(DurationToByteCount(b.format, lengthMs.value).value) else None;
      && |r.value| == DiskSpilling.ClippedLength(|all|, off, len)
      && forall i :: 0 <= i < |r.value| ==> r.value[i] == all[off + i]
  {
    var off :- DurationToByteCount(b.format, offsetMs);
    var len := if lengthMs.Some? then Some(DurationToByteCount(b.format, lengthMs.value).value) else None;
    var all :- Read(b);
    Ok(DiskSpilling.SkipLimit(all, off, len))
  }

  function Size(b: LegacyBuffer): (r: nat)
    ensures r == |DiskSpilling.Contents(b.parts)|
  {
    |b.parts.spilled| + |b.parts.memory|
  }

  function Duration(b: LegacyBuffer): (r: Result<nat>)
    ensures r.Ok? <==> Resolvable(b.format)
    ensures r.Ok? ==>
      var frames := Size(b) / EffectiveFrameSize(b.format).value;
      var rate := EffectiveFrameRate(b.format).value;
      r.value * rate <= frames * 1000 < (r.value + 1) * rate
  {
    // The older revision computes it as the current one does, from the bytes held.
    DiskSpilling.Duration(DiskSpilling.SpillingBuffer(b.format, b.maxInMemory, b.parts, false))
  }

  function AddAll(b: LegacyBuffer, chunks: seq<PcmData>): LegacyBuffer {
    if |chunks| == 0 then b else Add(AddAll(b, chunks[..|chunks| - 1]), chunks[|chunks| - 1])
  }

  /** Spilled followed by memory bytes are every byte added, in order, and the size counts them all. */
  lemma {:induction false} ContentsAreAllAdds(format: AudioFormat, max: nat, chunks: seq<PcmData>)
    ensures DiskSpilling.Contents(AddAll(New(format, max), chunks).parts) == Concat(chunks)
    ensures Size(AddAll(New(format, max), chunks)) == |Concat(chunks)|
    ensures AddAll(New(format, max), chunks).maxInMemory == max
    ensures |chunks| > 0 && |chunks[|chunks| - 1]| > 0 ==> DiskSpilling.Drains(AddAll(New(format, max), chunks).parts)
  {
    if |chunks| > 0 {
      ContentsAreAllAdds(format, max, chunks[..|chunks| - 1]);
    }
  }

  /** The stream loses spilled bytes here too: with a cap of 50, a 200-byte chunk followed by
      an empty one leaves memory empty and `get()` yields 151 of the 200 bytes. */
  lemma StrandedTailExample(a: PcmData)
    requires |a| == 200
    ensures AddAll(New(TestFormat(), 50), [a, []]).parts == DiskSpilling.Parts(a, [])
    ensures Read(AddAll(New(TestFormat(), 50), [a, []])) == Ok(a[..151])
  {
    assert [a, []][..1] == [a];
    assert [a][..0] == [];
    assert [] + a == a;
    var one := New(TestFormat(), 50).(parts := DiskSpilling.Parts([], a));
    assert AddAll(New(TestFormat(), 50), [a]) == one;
    assert DiskSpilling.Spill(50, one.parts, []) == DiskSpilling.Parts(a, []);
    var b := AddAll(New(TestFormat(), 50), [a, []]);
    assert b == Add(one, []);
    DiskSpilling.StrandedTailExample(a);
    assert DiskSpilling.Read(DiskSpilling.SpillingBuffer(b.format, b.maxInMemory, b.parts, false)) == Read(b);
  }

  /** The older buffer behaves as the current one would had it never been closed. */
  lemma AgreesWithCurrentRevision(b: LegacyBuffer, data: PcmData, offsetMs: nat, lengthMs: Option<nat>)
    ensures var current := DiskSpilling.SpillingBuffer(b.format, b.maxInMemory, b.parts, false);
      && DiskSpilling.Add(current, data) == Ok(DiskSpilling.SpillingBuffer(b.format, b.maxInMemory, Add(b, data).parts, false))
      && DiskSpilling.Read(current) == Read(b)
      && DiskSpilling.GetRange(current, offsetMs, lengthMs) == GetRange(b, offsetMs, lengthMs)
      && DiskSpilling.Size(current) == Size(b)
  {
  }
}

=== FILE: file_names.dfy ===
/** File names for written tracks (core/writer/AudioFileWriter.kt of the application module):
    "<artist> - <title>.<ext>" when both are known, "track-<timestamp>.<ext>" otherwise, with
    every character that is illegal in a file name replaced by '_'. The timestamp, read from
    the clock in the source, is a parameter. */
module FileNames {
  import opened Wrappers
  import opened Tracks

  /** `ILLEGAL_FILENAME_CHARS`, in the order they are replaced. The path separator '/' is not among them. */
  const IllegalChars: seq<char> := ['"', '*', ':', '<', '>', '?', '\\', '|', '\U{007F}', '\U{0000}']

  const Replacement: char := '_'

  /** `String.replace(old, new)` on characters: every occurrence of `from` becomes `to`. */
  function Replace(s: string, from: char, to: char): (r: string)
    ensures |r| == |s|
    ensures forall k :: 0 <= k < |s| ==> r[k] == if s[k] == from then to else s[k]
  {
    seq(|s|, k requires 0 <= k < |s| => if s[k] == from then to else s[k])
  }

  /** The reference definition: each illegal character is '_', every other one stays in place. */
  function Sanitized(s: string): string {
    seq(|s|, k requires 0 <= k < |s| => if s[k] in IllegalChars then Replacement else s[k])
  }

  /** `sanitizeFilename`: one `replace` pass per illegal character, in list order. */
  method Sanitize(filename: string) returns (sanitized: string)
    ensures sanitized == Sanitized(filename)
  {
    sanitized := filename;
    for i := 0 to |IllegalChars|
      invariant |sanitized| == |filename|
      invariant forall k :: 0 <= k < |filename| ==>
        sanitized[k] == if filename[k] in IllegalChars[..i] then Replacement else filename[k]
    {
      assert forall k :: 0 <= k < |filename| ==>
        (filename[k] in IllegalChars[..i + 1] <==> filename[k] in IllegalChars[..i] || filename[k] == IllegalChars[i]);
      sanitized := Replace(sanitized, IllegalChars[i], Replacement);
    }
    assert IllegalChars[..|IllegalChars|] == IllegalChars;
  }

  /** No illegal character survives, the length is kept, and every legal character stays in place. */
  lemma SanitizedIsLegal(s: string)
    ensures |Sanitized(s)| == |s|
    ensures forall k :: 0 <= k < |s| ==> Sanitized(s)[k] !in IllegalChars
    ensures forall k :: 0 <= k < |s| && s[k] !in IllegalChars ==> Sanitized(s)[k] == s[k]
  {
    assert Replacement !in IllegalChars;
  }

  /** Sanitising twice is sanitising once. */
  lemma SanitizeIdempotent(s: string)
    ensures Sanitized(Sanitized(s)) == Sanitized(s)
  {
    SanitizedIsLegal(s);
  }

  /** A name free of illegal characters is left as it is. */
  lemma SanitizeKeepsLegalNames(s: string)
    requires forall k :: 0 <= k < |s| ==> s[k] !in IllegalChars
    ensures Sanitized(s) == s
  {
  }

  /** A title holding the path separator keeps it, so the name names a sub-directory. */
  lemma SlashIsKept()
    ensures Sanitized("AC/DC") == "AC/DC"
    ensures Sanitized("a:b") == "a_b"
  {
    assert forall k :: 0 <= k < |"AC/DC"| ==> "AC/DC"[k] !in IllegalChars;
  }

  /** `filenameFor`: the sanitised "<artist> - <title>.<extension>" when the track data has
      both a title and an artist, otherwise the sanitised "track-<timestamp>.<extension>". */
  function FilenameFor(trackData: Option<TrackData>, extension: string, timestamp: string): (r: string)
    ensures trackData.Some? && trackData.value.title.Some? && trackData.value.artist.Some? ==>
      r == Sanitized(trackData.value.artist.value + " - " + trackData.value.title.value + "." + extension)
    ensures !(trackData.Some? && trackData.value.title.Some? && trackData.value.artist.Some?) ==>
      r == Sanitized("track-" + timestamp + "." + extension)
  {
    if trackData.Some? && trackData.value.title.Some? && trackData.value.artist.Some? then
      Sanitized(trackData.value.artist.value + " - " + trackData.value.title.value + "." + extension)
    else
      Sanitized("track-" + timestamp + "." + extension)
  }

  /** A file name never holds an illegal character, and it ends with "." and the sanitised extension. */
  lemma FilenameIsLegal(trackData: Option<TrackData>, extension: string, timestamp: string)
    ensures var r := FilenameFor(trackData, extension, timestamp);
      && (forall k :: 0 <= k < |r| ==> r[k] !in IllegalChars)
      && |r| > |extension|
      && r[|r| - |extension| - 1..] == "." + Sanitized(extension)
  {
    if trackData.Some? && trackData.value.title.Some? && trackData.value.artist.Some? {
      SanitizedName(trackData.value.artist.value + " - " + trackData.value.title.value, extension);
    } else {
      SanitizedName("track-" + timestamp, extension);
    }
  }

  /** The sanitised "<name>.<extension>" is legal and ends with "." and the sanitised extension. */
  lemma SanitizedName(name: string, extension: string)
    ensures var r := Sanitized(name + "." + extension);
      && (forall k :: 0 <= k < |r| ==> r[k] !in IllegalChars)
      && |r| > |extension|
      && r[|r| - |extension| - 1..] == "." + Sanitized(extension)
  {
    var full := name + "." + extension;
    SanitizedIsLegal(full);
    assert full == name + ("." + extension);
    SanitizedSuffix(name, "." + extension);
    SanitizedSuffix(".", extension);
  }

  /** Sanitising works character by character, so it distributes over concatenation. */
  lemma SanitizedSuffix(a: string, b: string)
    ensures Sanitized(a + b) == Sanitized(a) + Sanitized(b)
  {
  }

  /** Both title and artist are needed: track data with a title only falls back to the timestamp. */
  lemma TitleAloneFallsBack(title: string)
    ensures FilenameFor(Some(Empty.(title := Some(title))), "mp3", "t") == Sanitized("track-t.mp3")
  {
  }

  /** A clean artist and title give exactly "<artist> - <title>.<extension>". */
  lemma CleanNamesAreKept(artist: string, title: string, extension: string)
    requires forall k :: 0 <= k < |artist| ==> artist[k] !in IllegalChars
    requires forall k :: 0 <= k < |title| ==> title[k] !in IllegalChars
    requires forall k :: 0 <= k < |extension| ==> extension[k] !in IllegalChars
    ensures FilenameFor(Some(Empty.(title := Some(title), artist := Some(artist))), extension, "")
      == artist + " - " + title + "." + extension
  {
    var full := artist + " - " + title + "." + extension;
    forall k | 0 <= k < |full| ensures full[k] !in IllegalChars {
      if k < |artist| {
        assert full[k] == artist[k];
      } else if k < |artist| + 3 {
      } else if k < |artist| + 3 + |title| {
        assert full[k] == title[k - |artist| - 3];
      } else if k > |artist| + 3 + |title| {
        assert full[k] == extension[k - |artist| - 4 - |title|];
      }
    }
    SanitizeKeepsLegalNames(full);
  }
}

=== FILE: in_memory_buffer.dfy ===
/** The in-memory audio buffer (buffer/InMemoryAudioBuffer.kt of the core module):
    one growing byte array. */
module InMemoryBuffers {
  import opened Wrappers
  import opened AudioFormats
  import opened Pcm

  datatype InMemoryBuffer = InMemoryBuffer(format: AudioFormat, data: PcmData)

  /** A fresh buffer; the initial capacity only sizes the backing array and is not modelled. */
  function New(format: AudioFormat): (b: InMemoryBuffer)
    ensures Size(b) == 0 && b.format == format
  {
    InMemoryBuffer(format, [])
  }

  function Add(b: InMemoryBuffer, chunk: PcmData): (r: InMemoryBuffer)
    ensures r.format == b.format
    ensures Size(r) == Size(b) + |chunk|
    ensures Get(r)[..Size(b)] == Get(b) && Get(r)[Size(b)..] == chunk
  {
    InMemoryBuffer(b.format, b.data + chunk)
  }

  /** Every byte written so far, in order. */
  function Get(b: InMemoryBuffer): PcmData {
    b.data
  }

  function Size(b: InMemoryBuffer): nat {
    |b.data|
  }

  /** Bytes [off, min(end, size)) where `off` is the offset in bytes and `end` is
      `off` plus the length in bytes, or the size when no length is given. */
  function GetRange(b: InMemoryBuffer, offsetMs: nat, lengthMs: Option<nat>): (r: Result<PcmData>)
    ensures r.Ok? <==> EffectiveFrameRate(b.format).Ok? && EffectiveFrameSize(b.format).Ok?
    ensures r.Ok? ==>
      var off := DurationToByteCount(b.format, offsetMs).value;
      var len := if lengthMs.Some? then DurationToByteCount(b.format, lengthMs.value).value else Size(b);
      && |r.value| == (if off < Size(b) then Min(len, Size(b) - off) else 0)
      && forall i :: 0 <= i < |r.value| ==> r.value[i] == Get(b)[off + i]
  {
    var off :- DurationToByteCount(b.format, offsetMs);
    var end := if lengthMs.Some? then off + DurationToByteCount(b.format, lengthMs.value).value else |b.data|;
    Ok(Clip(b.data, off, end))
  }

  /** The duration of the whole frames held so far. */
  function Duration(b: InMemoryBuffer): (r: Result<nat>)
    ensures r.Ok? <==> Resolvable(b.format)
    ensures r.Ok? ==>
      var frames := Size(b) / EffectiveFrameSize(b.format).value;
      var rate := EffectiveFrameRate(b.format).value;
      r.value * rate <= frames * 1000 < (r.value + 1) * rate
  {
    ByteCountToDuration(b.format, Size(b))
  }

  /** Adds the chunks in order. */
  function AddAll(b: InMemoryBuffer, chunks: seq<PcmData>): InMemoryBuffer
  {
    if |chunks| == 0 then b else Add(AddAll(b, chunks[..|chunks| - 1]), chunks[|chunks| - 1])
  }

  /** A buffer that received a sequence of chunks returns them concatenated, and its size
      is their total length; reading in between adds sees exactly the earlier adds. */
  lemma {:induction false} GetReturnsAllAdds(format: AudioFormat, chunks: seq<PcmData>)
    ensures Get(AddAll(New(format), chunks)) == Concat(chunks)
    ensures Size(AddAll(New(format), chunks)) == |Concat(chunks)|
    ensures AddAll(New(format), chunks).format == format
  {
    if |chunks| > 0 {
      GetReturnsAllAdds(format, chunks[..|chunks| - 1]);
    }
  }

  lemma EmptyBufferHasZeroDuration(format: AudioFormat)
    requires Resolvable(format)
    ensures Duration(New(format)) == Ok(0)
  {
  }

  /** Ten seconds at 400 bytes/s: the time-slices of the buffer tests. */
  lemma GetRangeExamples(data: PcmData)
    requires |data| == 4000
    ensures GetRange(Add(New(TestFormat()), data), 4000, None) == Ok(data[1600..4000])
    ensures GetRange(Add(New(TestFormat()), data), 0, None) == Ok(data)
    ensures GetRange(Add(New(TestFormat()), data), 4005, None) == Ok(data[1600..4000])
    ensures GetRange(Add(New(TestFormat()), data), 4000, Some(1000)) == Ok(data[1600..2000])
    ensures GetRange(Add(New(TestFormat()), data), 4000, Some(0)) == Ok([])
    ensures GetRange(Add(New(TestFormat()), data), 9000, Some(3000)) == Ok(data[3600..4000])
  {
    assert data[0..4000] == data;
  }

  /** 3.25 seconds of data last 3250 ms. */
  lemma DurationExample(data: PcmData)
    requires |data| == 1300
    ensures Duration(Add(New(TestFormat()), data)) == Ok(3250)
  {
  }
}

=== FILE: musicbrainz.dfy ===
/** Augmenting recognised tracks from MusicBrainz (core/recognition/musicbrainz/
    MusicBrainzTrackDataLoader.kt of the application module). The HTTP request, URL building
    and JSON parsing are abstracted: the lookup is a function from the track to the response,
    and a successful response is the handful of values read from its JSON document. */
module MusicBrainz {
  import opened Wrappers
  import opened Tracks

  /** The values read from `$.recordings[0]` of a search response. */
  datatype Document = Document(
    score: Option<int>,
    title: Option<string>,
    artist: Option<string>,
    album: Option<string>,
    genres: Option<seq<Option<string>>>,
    releaseYear: Option<string>,
    lengthMillis: Option<int>)

  /** What a lookup produced. Any throwable other than a bad status or an empty body is a transport error. */
  datatype Response =
    | Unsuccessful(statusCode: int)
    | EmptyBody
    | Body(document: Document)
    | TransportError

  datatype Loader = Loader(minScore: int, preferInput: bool)

  /** The best recording's score; a missing score counts as 0. */
  function BestScore(doc: Document): int {
    doc.score.GetOr(0)
  }

  /** The track data of a response: only title, artist, album, genres, release year and length are read. */
  function ParseResponseBody(doc: Document): (t: TrackData)
    ensures t.title == doc.title && t.artist == doc.artist && t.album == doc.album
    ensures t.genres == doc.genres && t.releaseYear == doc.releaseYear && t.lengthMillis == doc.lengthMillis
    ensures t.labels.None? && t.coverartImageUrl.None? && t.backgroundImageUrl.None? && t.lyrics.None?
  {
    TrackData(doc.title, doc.artist, doc.album, None, doc.genres, doc.releaseYear, None, None, None, doc.lengthMillis)
  }

  /** `loadTrackData`: an unsuccessful status or an empty body raises an I/O error; a best
      score below the minimum yields no data. */
  function LoadTrackData(loader: Loader, response: Response): (r: Result<Option<TrackData>>)
    ensures r.Err? <==> !response.Body?
    ensures r.Ok? ==> (r.value.None? <==> BestScore(response.document) < loader.minScore)
    ensures r.Ok? && r.value.Some? ==> r.value.value == ParseResponseBody(response.document)
  {
    match response
    case Unsuccessful(code) => Err("Loading track information from MusicBrainz API failed with status code")
    case EmptyBody => Err("MusicBrainz API returned an empty response")
    case TransportError => Err("transport failure")
    case Body(doc) =>
      if BestScore(doc) < loader.minScore then Ok(None)
      else Ok(Some(ParseResponseBody(doc)))
  }

  /** `augment`: the input when title or artist is unknown, when loading fails, or when there is
      no good enough match; otherwise the input merged with the loaded data, the input's fields
      winning when `preferInput` is set and the loaded ones otherwise. */
  function Augment(loader: Loader, lookup: TrackData -> Response, track: TrackData): (r: TrackData)
    ensures track.title.None? || track.artist.None? ==> r == track
    ensures track.title.Some? && track.artist.Some? ==>
      match LoadTrackData(loader, lookup(track))
      case Err(_) => r == track
      case Ok(None) => r == track
      case Ok(Some(loaded)) =>
        forall f: Field :: Get(r, f) ==
          if loader.preferInput then (if IsSet(track, f) then Get(track, f) else Get(loaded, f))
          else (if IsSet(loaded, f) then Get(loaded, f) else Get(track, f))
  {
    if track.title.None? || track.artist.None? then track
    else
      match LoadTrackData(loader, lookup(track))
      case Err(_) => track
      case Ok(None) => track
      case Ok(Some(loaded)) => if loader.preferInput then Merge(loaded, track) else Merge(track, loaded)
  }

  /** The loader as a recognition postprocessor. */
  function AsPostprocessor(loader: Loader, lookup: TrackData -> Response): TrackData -> TrackData {
    t => Augment(loader, lookup, t)
  }

  /** Without a title and an artist the lookup is never consulted: any two lookups give the same result. */
  lemma NoLookupWithoutTitleAndArtist(loader: Loader, l1: TrackData -> Response, l2: TrackData -> Response, track: TrackData)
    requires track.title.None? || track.artist.None?
    ensures Augment(loader, l1, track) == Augment(loader, l2, track) == track
  {
  }

  /** Augmenting never loses a field the input has set, and with `preferInput` never changes one. */
  lemma AugmentKeepsInputFields(loader: Loader, lookup: TrackData -> Response, track: TrackData)
    ensures forall f: Field :: IsSet(track, f) ==> IsSet(Augment(loader, lookup, track), f)
    ensures loader.preferInput ==> forall f: Field :: IsSet(track, f) ==> Get(Augment(loader, lookup, track), f) == Get(track, f)
  {
  }

  /** Labels, artwork URLs and lyrics are never read from MusicBrainz, so augmenting leaves them as they were. */
  lemma AugmentLeavesUnreadFields(loader: Loader, lookup: TrackData -> Response, track: TrackData)
    ensures var r := Augment(loader, lookup, track);
      && r.labels == track.labels && r.coverartImageUrl == track.coverartImageUrl
      && r.backgroundImageUrl == track.backgroundImageUrl && r.lyrics == track.lyrics
  {
  }

  /** A failed request and a poor match alike leave the track unchanged. */
  lemma FailuresAreAbsorbed(loader: Loader, lookup: TrackData -> Response, track: TrackData)
    requires !lookup(track).Body? || BestScore(lookup(track).document) < loader.minScore
    ensures Augment(loader, lookup, track) == track
  {
  }

  /** A response without a score is a match only when the minimum score is at most 0. */
  lemma MissingScoreCountsAsZero(loader: Loader, doc: Document)
    requires doc.score.None?
    ensures LoadTrackData(loader, Body(doc)).value.Some? <==> loader.minScore <= 0
  {
  }
}

=== FILE: pactl.dfy ===
/** PulseAudio sample specifications as `pactl` prints them (core/platform/pactl/Pactl.kt of
    the application module, `PactlSampleSpecification`): the text form "s16le 2ch 48000Hz" is
    parsed into encoding, bits per sample, channel count, rate and byte order, and a format
    token is printed back. Whitespace and letter case are the ASCII ones; the native byte
    order is a parameter. */
module Pactl {
  import opened Wrappers
  import opened AudioFormats

  const INT_MAX: int := 0x7FFF_FFFF
  const INT_MIN: int := -0x8000_0000

  /** `PactlSampleSpecification`. Integers are Kotlin `Int`s; -1 stands for NOT_SPECIFIED.
      The rate is a whole number of samples per second. */
  datatype SampleSpec = SampleSpec(
    encoding: Encoding,
    bitsPerSample: int,
    channels: int,
    sampleRate: int,
    isBigEndian: bool)

  // ---------------------------------------------------------------------------
  // Text primitives
  // ---------------------------------------------------------------------------

  predicate IsWhitespace(c: char) {
    c == ' ' || c == '\t' || c == '\n' || c == '\U{000B}' || c == '\U{000C}' || c == '\r' || ('\U{001C}' <= c <= '\U{001F}')
  }

  function TrimStart(s: string): (r: string)
    ensures |r| <= |s| && r == s[|s| - |r|..]
    ensures forall i :: 0 <= i < |s| - |r| ==> IsWhitespace(s[i])
    ensures |r| > 0 ==> !IsWhitespace(r[0])
  {
    if |s| > 0 && IsWhitespace(s[0]) then TrimStart(s[1..]) else s
  }

  function TrimEnd(s: string): (r: string)
    ensures |r| <= |s| && r == s[..|r|]
    ensures forall i :: |r| <= i < |s| ==> IsWhitespace(s[i])
    ensures |r| > 0 ==> !IsWhitespace(r[|r| - 1])
  {
    if |s| > 0 && IsWhitespace(s[|s| - 1]) then TrimEnd(s[..|s| - 1]) else s
  }

  /** `trim()`: drops leading and trailing whitespace. */
  function Trim(s: string): string {
    TrimEnd(TrimStart(s))
  }

  /** Text that neither starts nor ends with whitespace is its own trim. */
  lemma TrimKeepsTrimmed(s: string)
    requires |s| > 0 && !IsWhitespace(s[0]) && !IsWhitespace(s[|s| - 1])
    ensures Trim(s) == s
  {
  }

  /** `split(" ")`: the pieces between single spaces; consecutive spaces give empty pieces. */
  function Split(s: string): (r: seq<string>)
    ensures |r| >= 1
  {
    if |s| == 0 then [""]
    else
      var rest := Split(s[1..]);
      if s[0] == ' ' then [""] + rest
      else [[s[0]] + rest[0]] + rest[1..]
  }

  /** The pieces separated by single spaces. */
  function Join(pieces: seq<string>): string
    requires |pieces| >= 1
  {
    if |pieces| == 1 then pieces[0] else pieces[0] + " " + Join(pieces[1..])
  }

  /** The pieces hold no space, and joining them gives the text back. */
  lemma {:induction false} JoinSplit(s: string)
    ensures forall i :: 0 <= i < |Split(s)| ==> ' ' !in Split(s)[i]
    ensures Join(Split(s)) == s
  {
    if |s| > 0 {
      var rest := Split(s[1..]);
      JoinSplit(s[1..]);
      if s[0] == ' ' {
        assert Split(s) == [""] + rest;
        assert (["" ] + rest)[1..] == rest;
        assert [s[0]] + s[1..] == s;
      } else {
        var r := Split(s);
        assert r == [[s[0]] + rest[0]] + rest[1..];
        if |rest| == 1 {
          assert [s[0]] + s[1..] == s;
        } else {
          assert r[1..] == rest[1..];
          assert Join(rest) == rest[0] + " " + Join(rest[1..]);
          assert Join(r) == [s[0]] + rest[0] + " " + Join(rest[1..]);
          assert [s[0]] + (rest[0] + " " + Join(rest[1..])) == s;
        }
      }
    }
  }

  lemma {:induction false} SplitNoSpace(a: string)
    requires ' ' !in a
    ensures Split(a) == [a]
  {
    if |a| > 0 {
      SplitNoSpace(a[1..]);
      assert [a[0]] + a[1..] == a;
    }
  }

  lemma {:induction false} SplitCons(a: string, rest: string)
    requires ' ' !in a
    ensures Split(a + " " + rest) == [a] + Split(rest)
  {
    if |a| == 0 {
      assert a + " " + rest == [' '] + rest;
      assert (a + " " + rest)[1..] == rest;
    } else {
      var text := a + " " + rest;
      SplitCons(a[1..], rest);
      assert text[1..] == a[1..] + " " + rest;
      assert text[0] == a[0] && a[0] != ' ';
      assert Split(text) == [[a[0]] + a[1..]] + Split(rest);
      assert [a[0]] + a[1..] == a;
    }
  }

  /** Splitting undoes joining pieces that hold no space. */
  lemma {:induction false} SplitJoin(pieces: seq<string>)
    requires |pieces| >= 1
    requires forall i :: 0 <= i < |pieces| ==> ' ' !in pieces[i]
    ensures Split(Join(pieces)) == pieces
  {
    if |pieces| == 1 {
      SplitNoSpace(pieces[0]);
    } else {
      SplitJoin(pieces[1..]);
      SplitCons(pieces[0], Join(pieces[1..]));
    }
  }

  function LowerChar(c: char): char {
    if 'A' <= c <= 'Z' then (c as int + 32) as char else c
  }

  /** `lowercase()`. */
  function Lower(s: string): (r: string)
    ensures |r| == |s| && forall i :: 0 <= i < |s| ==> r[i] == LowerChar(s[i])
  {
    seq(|s|, i requires 0 <= i < |s| => LowerChar(s[i]))
  }

  predicate StartsWith(s: string, prefix: string) {
    |prefix| <= |s| && s[..|prefix|] == prefix
  }

  predicate EndsWith(s: string, suffix: string) {
    |suffix| <= |s| && s[|s| - |suffix|..] == suffix
  }

  /** `removeSuffix`: the text without the suffix when it ends with it, otherwise unchanged. */
  function RemoveSuffix(s: string, suffix: string): (r: string)
    ensures EndsWith(s, suffix) ==> r + suffix == s
    ensures !EndsWith(s, suffix) ==> r == s
  {
    if EndsWith(s, suffix) then s[..|s| - |suffix|] else s
  }

  // ---------------------------------------------------------------------------
  // Numbers
  // ---------------------------------------------------------------------------

  predicate IsDigit(c: char) {
    '0' <= c <= '9'
  }

  predicate AllDigits(s: string) {
    forall i :: 0 <= i < |s| ==> IsDigit(s[i])
  }

  function DigitsValue(s: string): (r: nat)
    requires AllDigits(s)
  {
    if |s| == 0 then 0 else DigitsValue(s[..|s| - 1]) * 10 + (s[|s| - 1] as int - '0' as int)
  }

  /** Decimal digits of `n`, most significant first, without leading zeros. */
  function NatToString(n: nat): (r: string)
    ensures |r| > 0 && AllDigits(r)
  {
    if n < 10 then [('0' as int + n) as char] else NatToString(n / 10) + [('0' as int + n % 10) as char]
  }

  function IntToString(n: int): (r: string)
    ensures |r| > 0
  {
    if n < 0 then "-" + NatToString(-n) else NatToString(n)
  }

  lemma {:induction false} NatToStringValue(n: nat)
    ensures DigitsValue(NatToString(n)) == n
  {
    var s := NatToString(n);
    if n >= 10 {
      NatToStringValue(n / 10);
      assert s[..|s| - 1] == NatToString(n / 10);
    }
  }

  /** Kotlin's `toInt()`: an optional sign and at least one decimal digit, within the range of `Int`. */
  function ParseInt(s: string): (r: Result<int>)
    ensures r.Ok? ==> INT_MIN <= r.value <= INT_MAX
    ensures r.Ok? ==> |s| > 0
  {
    if |s| == 0 then Err("NumberFormatException")
    else
      var negative := s[0] == '-';
      var digits := if s[0] == '-' || s[0] == '+' then s[1..] else s;
      if |digits| == 0 || !AllDigits(digits) then Err("NumberFormatException")
      else
        var v: int := if negative then 0 - DigitsValue(digits) else DigitsValue(digits);
        if v < INT_MIN || v > INT_MAX then Err("NumberFormatException") else Ok(v)
  }

  /** The rate: decimal digits only. */
  function ParseRate(s: string): (r: Result<nat>)
    ensures r.Ok? <==> |s| > 0 && AllDigits(s)
  {
    if |s| == 0 || !AllDigits(s) then Err("NumberFormatException") else Ok(DigitsValue(s))
  }

  /** Printing an `Int` and parsing it back gives the same number. */
  lemma ParseIntToString(n: int)
    requires INT_MIN <= n <= INT_MAX
    ensures ParseInt(IntToString(n)) == Ok(n)
  {
    var text := IntToString(n);
    if n < 0 {
      NatToStringValue(-n);
      assert text[0] == '-' && text[1..] == NatToString(-n);
      assert DigitsValue(text[1..]) == -n;
    } else {
      NatToStringValue(n);
      assert text == NatToString(n) && text[0] != '-' && text[0] != '+';
    }
  }

  // ---------------------------------------------------------------------------
  // The format token
  // ---------------------------------------------------------------------------

  /** The maximal run of digits starting at `j`. */
  function DigitRun(t: string, j: nat): (r: string)
    requires j <= |t|
    ensures j + |r| <= |t| && r == t[j..j + |r|] && AllDigits(r)
    ensures j + |r| == |t| || !IsDigit(t[j + |r|])
    decreases |t| - j
  {
    if j == |t| || !IsDigit(t[j]) then "" else [t[j]] + DigitRun(t, j + 1)
  }

  /** The digits the pattern `(s|u|float)([0-9]+)` captures when a match starts at `i`. */
  function MatchAt(t: string, i: nat): (r: Option<string>)
    requires i < |t|
    ensures r.Some? ==> |r.value| > 0 && AllDigits(r.value)
    ensures r.Some? ==> t[i] == 's' || t[i] == 'u' || t[i] == 'f'
  {
    if (t[i] == 's' || t[i] == 'u') && DigitRun(t, i + 1) != "" then Some(DigitRun(t, i + 1))
    else if StartsWith(t[i..], "float") && DigitRun(t, i + 5) != "" then Some(DigitRun(t, i + 5))
    else None
  }

  /** `Regex.find` from position `i`: the digits of the leftmost match. */
  function FindBits(t: string, i: nat): Option<string>
    decreases |t| - i
  {
    if i >= |t| then None
    else if MatchAt(t, i).Some? then MatchAt(t, i)
    else FindBits(t, i + 1)
  }

  /** The search finds nothing exactly when no position matches, and otherwise the match at
      the leftmost matching position. */
  lemma {:induction false} FindBitsLeftmost(t: string, i: nat)
    ensures FindBits(t, i).None? ==> forall k :: i <= k < |t| ==> MatchAt(t, k).None?
    ensures FindBits(t, i).Some? ==> exists k :: i <= k < |t| && MatchAt(t, k) == FindBits(t, i) && forall k' :: i <= k' < k ==> MatchAt(t, k').None?
    decreases |t| - i
  {
    if i < |t| && MatchAt(t, i).None? {
      FindBitsLeftmost(t, i + 1);
      if FindBits(t, i + 1).Some? {
        var k :| i + 1 <= k < |t| && MatchAt(t, k) == FindBits(t, i + 1) && forall k' :: i + 1 <= k' < k ==> MatchAt(t, k').None?;
        assert forall k' :: i <= k' < k ==> MatchAt(t, k').None?;
      }
    }
  }

  /** `getEncoding`: decided in the order uLaw, aLaw, float*, u*, s*. */
  function EncodingOf(token: string): (r: Result<Encoding>)
    ensures r.Ok? <==> token == "uLaw" || token == "aLaw" || StartsWith(token, "float") || StartsWith(token, "u") || StartsWith(token, "s")
    ensures r == Ok(PcmFloat) <==> StartsWith(token, "float")
    ensures r == Ok(PcmUnsigned) <==> token != "uLaw" && StartsWith(token, "u")
    ensures r == Ok(PcmSigned) <==> StartsWith(token, "s")
  {
    if token == "uLaw" then assert token[0] == 'u'; Ok(ULaw)
    else if token == "aLaw" then assert token[0] == 'a'; Ok(ALaw)
    else if StartsWith(token, "float") then assert token[0] == 'f'; Ok(PcmFloat)
    else if StartsWith(token, "u") then Ok(PcmUnsigned)
    else if StartsWith(token, "s") then Ok(PcmSigned)
    else Err("Unknown sample encoding")
  }

  /** `getBitsPerSample`: 8 for uLaw and aLaw, otherwise the digits of the first pattern match. */
  function BitsOf(token: string): (r: Result<int>)
    ensures token == "uLaw" || token == "aLaw" ==> r == Ok(8)
    ensures token != "uLaw" && token != "aLaw" ==>
      (FindBits(token, 0).None? ==> r.Err?) &&
      (FindBits(token, 0).Some? ==> r == ParseInt(FindBits(token, 0).value))
  {
    if token == "uLaw" || token == "aLaw" then Ok(8)
    else
      match FindBits(token, 0)
      case None => Err("Could not extract sample size")
      case Some(digits) => ParseInt(digits)
  }

  /** `isBigEndian`: u8, ulaw and alaw (any case) are little-endian; otherwise the suffix
      decides: be big, le little, re the opposite of native order, ne native order. */
  function BigEndianOf(token: string, nativeBigEndian: bool): (r: Result<bool>)
    ensures Lower(token) in ["u8", "ulaw", "alaw"] ==> r == Ok(false)
    ensures Lower(token) !in ["u8", "ulaw", "alaw"] ==>
      && (EndsWith(token, "be") ==> r == Ok(true))
      && (!EndsWith(token, "be") && EndsWith(token, "le") ==> r == Ok(false))
      && (r.Err? <==> !EndsWith(token, "be") && !EndsWith(token, "le") && !EndsWith(token, "re") && !EndsWith(token, "ne"))
  {
    if Lower(token) in ["u8", "ulaw", "alaw"] then Ok(false)
    else if EndsWith(token, "be") then Ok(true)
    else if EndsWith(token, "le") then Ok(false)
    else if EndsWith(token, "re") then Ok(!nativeBigEndian)
    else if EndsWith(token, "ne") then Ok(nativeBigEndian)
    else Err("Could not extract byte order")
  }

  /** The secondary constructor from a text: split the trimmed text into exactly three
      space-separated tokens, then read the fields in declaration order. */
  function Parse(s: string, nativeBigEndian: bool): (r: Result<SampleSpec>)
    ensures r.Ok? ==> |Split(Trim(s))| == 3
    ensures r.Ok? ==> var tokens := Split(Trim(s));
      && EncodingOf(tokens[0]) == Ok(r.value.encoding)
      && BitsOf(tokens[0]) == Ok(r.value.bitsPerSample)
      && ParseInt(RemoveSuffix(Lower(Trim(tokens[1])), "ch")) == Ok(r.value.channels)
      && ParseRate(RemoveSuffix(Lower(Trim(tokens[2])), "hz")) == Ok(r.value.sampleRate)
      && BigEndianOf(tokens[0], nativeBigEndian) == Ok(r.value.isBigEndian)
  {
    var tokens := Split(Trim(s));
    if |tokens| != 3 then Err("Sample specification is malformed and can't be parsed.")
    else
      var encoding :- EncodingOf(tokens[0]);
      var bits :- BitsOf(tokens[0]);
      var channels :- ParseInt(RemoveSuffix(Lower(Trim(tokens[1])), "ch"));
      var rate :- ParseRate(RemoveSuffix(Lower(Trim(tokens[2])), "hz"));
      var bigEndian :- BigEndianOf(tokens[0], nativeBigEndian);
      Ok(SampleSpec(encoding, bits, channels, rate, bigEndian))
  }

  /** The name an encoding is printed with. */
  function Prefix(e: Encoding): string {
    match e
    case ALaw => "aLaw"
    case ULaw => "uLaw"
    case PcmFloat => "float"
    case PcmSigned => "s"
    case PcmUnsigned => "u"
  }

  /** `toFormatSpecificationString`: "u8" for unsigned 8-bit, otherwise the encoding's
      name, the bits and "be" or "le". */
  function FormatToken(spec: SampleSpec): (r: string)
    ensures spec.encoding == PcmUnsigned && spec.bitsPerSample == 8 ==> r == "u8"
    ensures !(spec.encoding == PcmUnsigned && spec.bitsPerSample == 8) ==>
      StartsWith(r, Prefix(spec.encoding)) && EndsWith(r, if spec.isBigEndian then "be" else "le")
  {
    if spec.encoding == PcmUnsigned && spec.bitsPerSample == 8 then "u8"
    else Prefix(spec.encoding) + IntToString(spec.bitsPerSample) + (if spec.isBigEndian then "be" else "le")
  }

  /** The full text pactl prints for a specification: format token, channels, rate. */
  function SpecText(spec: SampleSpec): string
    requires spec.sampleRate >= 0
  {
    FormatToken(spec) + " " + (IntToString(spec.channels) + "ch") + " " + (NatToString(spec.sampleRate) + "Hz")
  }

  // ---------------------------------------------------------------------------
  // Conversion to and from the audio format
  // ---------------------------------------------------------------------------

  /** Kotlin `Int` arithmetic: the result reduced into the 32-bit two's complement range. */
  function Wrap32(x: int): (r: int)
    ensures INT_MIN <= r <= INT_MAX
    ensures (r - x) % 0x1_0000_0000 == 0
    ensures INT_MIN <= x <= INT_MAX ==> r == x
  {
    (x - INT_MIN) % 0x1_0000_0000 + INT_MIN
  }

  /** Kotlin `Int` division, which truncates toward zero. */
  function TruncDiv(a: int, b: pos): (r: int)
    ensures a >= 0 ==> r == a / b
    ensures a < 0 ==> r == -((-a) / b)
  {
    if a >= 0 then a / b else -((-a) / b)
  }

  /** A Java size field: -1 is NOT_SPECIFIED, other negative values do not fit this model's format. */
  function SizeField(v: int): (r: Result<Option<nat>>)
    ensures r == Ok(None) <==> v == -1
    ensures r.Ok? && r.value.Some? <==> v >= 0
    ensures v >= 0 ==> r == Ok(Some(v))
  {
    if v == -1 then Ok(None) else if v < 0 then Err("size not representable") else Ok(Some(v))
  }

  /** A Java rate field: -1 is NOT_SPECIFIED; a rate of zero or below does not fit this model's format. */
  function RateField(v: int): (r: Result<Option<pos>>)
    ensures r == Ok(None) <==> v == -1
    ensures r.Ok? && r.value.Some? <==> v > 0
    ensures v > 0 ==> r == Ok(Some(v))
  {
    if v == -1 then Ok(None) else if v <= 0 then Err("rate not representable") else Ok(Some(v))
  }

  /** `toAudioFormat`: sample and frame rate are both the specification's rate, the frame size
      is channels * (bits / 8) in `Int` arithmetic. */
  function ToAudioFormat(spec: SampleSpec): (r: Result<AudioFormat>)
    ensures r.Ok? <==>
      && SizeField(spec.bitsPerSample).Ok? && SizeField(spec.channels).Ok?
      && SizeField(Wrap32(spec.channels * TruncDiv(spec.bitsPerSample, 8))).Ok?
      && RateField(spec.sampleRate).Ok?
    ensures r.Ok? ==>
      && r.value.encoding == spec.encoding && r.value.bigEndian == spec.isBigEndian
      && r.value.sampleRate == r.value.frameRate
      && r.value.frameSize == SizeField(Wrap32(spec.channels * TruncDiv(spec.bitsPerSample, 8))).value
  {
    var bits :- SizeField(spec.bitsPerSample);
    var channels :- SizeField(spec.channels);
    var frameSize :- SizeField(Wrap32(spec.channels * TruncDiv(spec.bitsPerSample, 8)));
    var rate :- RateField(spec.sampleRate);
    Ok(AudioFormat(spec.encoding, rate, bits, channels, frameSize, rate, spec.isBigEndian))
  }

  /** The constructor from an audio format: unspecified fields become -1. */
  function FromAudioFormat(f: AudioFormat): (r: SampleSpec)
    ensures r.encoding == f.encoding && r.isBigEndian == f.bigEndian
    ensures (r.bitsPerSample == -1) <==> f.sampleSizeInBits.None?
    ensures (r.channels == -1) <==> f.channels.None?
    ensures (r.sampleRate == -1) <==> f.sampleRate.None?
  {
    SampleSpec(
      f.encoding,
      if f.sampleSizeInBits.Some? then f.sampleSizeInBits.value else -1,
      if f.channels.Some? then f.channels.value else -1,
      if f.sampleRate.Some? then f.sampleRate.value else -1,
      f.bigEndian)
  }

  /** Converting to an audio format loses nothing: converting back gives the specification. */
  lemma AudioFormatRoundTrip(spec: SampleSpec)
    requires ToAudioFormat(spec).Ok?
    ensures FromAudioFormat(ToAudioFormat(spec).value) == spec
  {
  }

  /** For a specification without overflow the format is fully specified, with whole-byte
      samples per frame, and its effective rate and frame size are the ones printed. */
  lemma ToAudioFormatResolves(spec: SampleSpec)
    requires spec.bitsPerSample >= 0 && spec.channels >= 0 && spec.sampleRate > 0
    requires spec.channels * (spec.bitsPerSample / 8) <= INT_MAX
    ensures ToAudioFormat(spec).Ok?
    ensures EffectiveFrameRate(ToAudioFormat(spec).value) == Ok(spec.sampleRate)
    ensures EffectiveFrameSize(ToAudioFormat(spec).value) == Ok(spec.channels * (spec.bitsPerSample / 8))
  {
    assert spec.channels * (spec.bitsPerSample / 8) >= 0;
  }

  /** An overflowing frame size wraps: 65536 channels of 65536-byte samples give a zero frame size. */
  lemma FrameSizeWraps()
    ensures ToAudioFormat(SampleSpec(PcmSigned, 524288, 65536, 48000, false)).Ok?
    ensures ToAudioFormat(SampleSpec(PcmSigned, 524288, 65536, 48000, false)).value.frameSize == Some(0)
  {
    assert TruncDiv(524288, 8) == 65536;
    assert 65536 * 65536 == 0x1_0000_0000;
    assert Wrap32(0x1_0000_0000) == 0;
  }

  // ---------------------------------------------------------------------------
  // Round trip
  // ---------------------------------------------------------------------------

  /** Field values the printer writes as plain numbers: bits and rate non-negative, every
      field a Kotlin `Int` (the rate is a whole number here). */
  predicate PrintableFields(spec: SampleSpec) {
    && 0 <= spec.bitsPerSample <= INT_MAX
    && INT_MIN <= spec.channels <= INT_MAX
    && spec.sampleRate >= 0
  }

  /** The PCM specifications whose printed text the parser reads back; the mu-law and A-law
      ones print but do not read back (`LawTextsDoNotReadBack`). */
  predicate Printable(spec: SampleSpec) {
    && spec.encoding in {PcmSigned, PcmUnsigned, PcmFloat}
    && PrintableFields(spec)
  }

  lemma NoSpaceInNumbers(n: int)
    ensures ' ' !in IntToString(n)
    ensures forall i :: 0 <= i < |IntToString(n)| ==> IntToString(n)[i] == '-' || IsDigit(IntToString(n)[i])
  {
    if n < 0 {
      assert forall i :: 1 <= i < |IntToString(n)| ==> IntToString(n)[i] == NatToString(-n)[i - 1];
    }
  }

  /** The maximal digit run at `j` is `digits` when `digits` sits there followed by a non-digit. */
  lemma {:induction false} DigitRunIs(t: string, j: nat, digits: string)
    requires AllDigits(digits) && j + |digits| < |t| && t[j..j + |digits|] == digits && !IsDigit(t[j + |digits|])
    ensures DigitRun(t, j) == digits
    decreases |digits|
  {
    if |digits| > 0 {
      assert t[j + 1..j + 1 + |digits[1..]|] == digits[1..];
      DigitRunIs(t, j + 1, digits[1..]);
      assert [t[j]] + digits[1..] == digits;
    }
  }

  /** The pattern finds the digits between a PCM prefix and the byte-order suffix. */
  lemma BitsFound(prefix: string, digits: string, suffix: string)
    requires prefix in ["s", "u", "float"] && suffix in ["be", "le"]
    requires |digits| > 0 && AllDigits(digits)
    ensures FindBits(prefix + digits + suffix, 0) == Some(digits)
  {
    var t := prefix + digits + suffix;
    var p := |prefix|;
    assert t[p..p + |digits|] == digits;
    assert t[p + |digits|] == suffix[0];
    DigitRunIs(t, p, digits);
    assert t[..p] == prefix;
    if prefix == "float" {
      FloatMatch(t, digits);
    } else {
      LetterMatch(t, digits);
    }
  }

  lemma LetterMatch(t: string, digits: string)
    requires |t| > 0 && (t[..1] == "s" || t[..1] == "u") && DigitRun(t, 1) == digits && digits != ""
    ensures FindBits(t, 0) == Some(digits)
  {
    assert t[0] == t[..1][0];
  }

  lemma FloatMatch(t: string, digits: string)
    requires StartsWith(t, "float") && DigitRun(t, 5) == digits && digits != ""
    ensures FindBits(t, 0) == Some(digits)
  {
    assert t[0] == "float"[0];
    assert t[0..] == t;
  }

  /** The encoding of a PCM token is read back from its prefix. */
  lemma EncodingFound(e: Encoding, digits: string, suffix: string)
    requires e in {PcmSigned, PcmUnsigned, PcmFloat}
    requires |digits| > 0 && AllDigits(digits)
    ensures EncodingOf(Prefix(e) + digits + suffix) == Ok(e)
  {
    var t := Prefix(e) + digits + suffix;
    assert t[..|Prefix(e)|] == Prefix(e);
    assert t[0] == Prefix(e)[0];
    if e == PcmUnsigned {
      assert t[1] == digits[0];
      assert t != "uLaw";
    }
  }

  /** A token ending in "be" or "le" that is not one of the little-endian names reads back its suffix. */
  lemma EndiannessFound(t: string, bigEndian: bool, nativeBigEndian: bool)
    requires EndsWith(t, if bigEndian then "be" else "le")
    ensures BigEndianOf(t, nativeBigEndian) == Ok(bigEndian)
  {
    assert Lower(t)[|t| - 1] == 'e';
  }

  /** No space appears in a token made of space-free prefix and suffix around digits. */
  lemma NoSpaceInToken(prefix: string, digits: string, suffix: string)
    requires ' ' !in prefix && ' ' !in suffix && AllDigits(digits)
    ensures ' ' !in prefix + digits + suffix
  {
  }

  /** A PCM token other than unsigned 8-bit reads back everything it was printed from. */
  lemma PcmTokenRoundTrip(e: Encoding, n: nat, bigEndian: bool, nativeBigEndian: bool)
    requires e in {PcmSigned, PcmUnsigned, PcmFloat} && n <= INT_MAX
    ensures var t := Prefix(e) + NatToString(n) + (if bigEndian then "be" else "le");
      && ' ' !in t
      && EncodingOf(t) == Ok(e)
      && BitsOf(t) == Ok(n)
      && BigEndianOf(t, nativeBigEndian) == Ok(bigEndian)
  {
    var digits := NatToString(n);
    var suffix := if bigEndian then "be" else "le";
    var t := Prefix(e) + digits + suffix;
    NoSpaceInToken(Prefix(e), digits, suffix);
    EncodingFound(e, digits, suffix);
    BitsFound(Prefix(e), digits, suffix);
    ParseIntToString(n);
    assert t[|t| - 1] == 'e';
    assert BitsOf(t) == ParseInt(digits);
    assert t[|t| - 2..] == suffix;
    EndiannessFound(t, bigEndian, nativeBigEndian);
  }

  /** "u8" reads back as unsigned 8-bit little-endian. */
  lemma U8TokenRoundTrip(nativeBigEndian: bool)
    ensures EncodingOf("u8") == Ok(PcmUnsigned)
    ensures BitsOf("u8") == Ok(8)
    ensures BigEndianOf("u8", nativeBigEndian) == Ok(false)
  {
    var token := "u8";
    assert DigitRun(token, 2) == "";
    assert DigitRun(token, 1) == "8";
    assert MatchAt(token, 0) == Some("8");
    assert FindBits(token, 0) == Some("8");
    assert ParseInt("8") == Ok(8);
    assert Lower(token) == "u8";
  }

  /** The token of a printable specification reads back its encoding and bits, and its byte
      order except for unsigned 8-bit, which always reads back as little-endian. */
  lemma TokenRoundTrip(spec: SampleSpec, nativeBigEndian: bool)
    requires Printable(spec)
    ensures var token := FormatToken(spec);
      && EncodingOf(token) == Ok(spec.encoding)
      && BitsOf(token) == Ok(spec.bitsPerSample)
      && BigEndianOf(token, nativeBigEndian) == Ok(if spec.encoding == PcmUnsigned && spec.bitsPerSample == 8 then false else spec.isBigEndian)
  {
    var token := FormatToken(spec);
    if spec.encoding == PcmUnsigned && spec.bitsPerSample == 8 {
      U8TokenRoundTrip(nativeBigEndian);
    } else {
      assert token == Prefix(spec.encoding) + NatToString(spec.bitsPerSample) + (if spec.isBigEndian then "be" else "le");
      PcmTokenRoundTrip(spec.encoding, spec.bitsPerSample, spec.isBigEndian, nativeBigEndian);
    }
  }

  /** Lower-casing leaves text without capital letters unchanged. */
  lemma LowerKeepsLowercase(s: string)
    requires forall i :: 0 <= i < |s| ==> !('A' <= s[i] <= 'Z')
    ensures Lower(s) == s
  {
  }

  /** The channel field as printed, "<n>ch", reads back as `n`. */
  lemma ChannelsRoundTrip(n: int)
    requires INT_MIN <= n <= INT_MAX
    ensures var text := IntToString(n) + "ch";
      && ' ' !in text && |text| > 0 && !IsWhitespace(text[0]) && !IsWhitespace(text[|text| - 1])
      && ParseInt(RemoveSuffix(Lower(Trim(text)), "ch")) == Ok(n)
  {
    var digits := IntToString(n);
    var text := digits + "ch";
    NoSpaceInNumbers(n);
    assert text[0] == digits[0];
    TrimKeepsTrimmed(text);
    LowerKeepsLowercase(text);
    assert text[..|digits|] == digits;
    ParseIntToString(n);
  }

  /** The rate field as printed, "<n>Hz", reads back as `n`. */
  lemma RateRoundTrip(n: nat)
    ensures var text := NatToString(n) + "Hz";
      && ' ' !in text && |text| > 0 && !IsWhitespace(text[0]) && !IsWhitespace(text[|text| - 1])
      && ParseRate(RemoveSuffix(Lower(Trim(text)), "hz")) == Ok(n)
  {
    var digits := NatToString(n);
    var text := digits + "Hz";
    assert text[0] == digits[0];
    TrimKeepsTrimmed(text);
    LowerKeepsLowercase(digits);
    assert Lower(text) == digits + "hz";
    assert (digits + "hz")[..|digits|] == digits;
    NatToStringValue(n);
  }

  lemma JoinThree(a: string, b: string, c: string)
    ensures Join([a, b, c]) == a + " " + b + " " + c
  {
    assert [a, b, c][1..] == [b, c];
    assert [b, c][1..] == [c];
    assert Join([c]) == c;
    assert Join([b, c]) == b + " " + c;
    assert Join([a, b, c]) == a + " " + (b + " " + c);
    assert a + " " + (b + " " + c) == a + " " + b + " " + c;
  }

  /** The converse of the parser's contract: three tokens whose fields all read successfully
      give exactly the specification they read as. */
  lemma ParseOfTokens(s: string, nativeBigEndian: bool, spec: SampleSpec)
    requires |Split(Trim(s))| == 3
    requires var tokens := Split(Trim(s));
      && EncodingOf(tokens[0]) == Ok(spec.encoding)
      && BitsOf(tokens[0]) == Ok(spec.bitsPerSample)
      && ParseInt(RemoveSuffix(Lower(Trim(tokens[1])), "ch")) == Ok(spec.channels)
      && ParseRate(RemoveSuffix(Lower(Trim(tokens[2])), "hz")) == Ok(spec.sampleRate)
      && BigEndianOf(tokens[0], nativeBigEndian) == Ok(spec.isBigEndian)
    ensures Parse(s, nativeBigEndian) == Ok(spec)
  {
  }

  /** A printed token holds no space and does not start with whitespace. */
  lemma TokenShape(spec: SampleSpec)
    requires PrintableFields(spec)
    ensures var token := FormatToken(spec); ' ' !in token && |token| > 0 && !IsWhitespace(token[0])
  {
    if !(spec.encoding == PcmUnsigned && spec.bitsPerSample == 8) {
      var digits := NatToString(spec.bitsPerSample);
      var suffix := if spec.isBigEndian then "be" else "le";
      assert FormatToken(spec) == Prefix(spec.encoding) + digits + suffix;
      NoSpaceInToken(Prefix(spec.encoding), digits, suffix);
      assert FormatToken(spec)[0] == Prefix(spec.encoding)[0];
    }
  }

  /** The printed text of a specification is its own trim and splits into its three fields. */
  lemma SpecTextSplits(spec: SampleSpec)
    requires PrintableFields(spec)
    ensures Split(Trim(SpecText(spec))) ==
      [FormatToken(spec), IntToString(spec.channels) + "ch", NatToString(spec.sampleRate) + "Hz"]
  {
    TokenShape(spec);
    ChannelsRoundTrip(spec.channels);
    RateRoundTrip(spec.sampleRate);
    ThreeFieldsSplit(FormatToken(spec), IntToString(spec.channels) + "ch", NatToString(spec.sampleRate) + "Hz");
  }

  /** Three space-free fields joined by single spaces, with no whitespace at either end, split back into themselves. */
  lemma ThreeFieldsSplit(a: string, b: string, c: string)
    requires ' ' !in a && ' ' !in b && ' ' !in c && |a| > 0 && |c| > 0
    requires !IsWhitespace(a[0]) && !IsWhitespace(c[|c| - 1])
    ensures Split(Trim(a + " " + b + " " + c)) == [a, b, c]
  {
    var text := a + " " + b + " " + c;
    JoinThree(a, b, c);
    assert text[0] == a[0];
    assert text[|text| - 1] == c[|c| - 1];
    TrimKeepsTrimmed(text);
    SplitJoin([a, b, c]);
  }

  /** Printing a specification and parsing the text gives the specification back, except that
      unsigned 8-bit always reads back as little-endian ("u8" carries no byte order). */
  lemma TextRoundTrip(spec: SampleSpec, nativeBigEndian: bool)
    requires Printable(spec)
    ensures Parse(SpecText(spec), nativeBigEndian)
      == Ok(spec.(isBigEndian := if spec.encoding == PcmUnsigned && spec.bitsPerSample == 8 then false else spec.isBigEndian))
  {
    SpecTextSplits(spec);
    TokenRoundTrip(spec, nativeBigEndian);
    ChannelsRoundTrip(spec.channels);
    RateRoundTrip(spec.sampleRate);
    ParseOfTokens(SpecText(spec), nativeBigEndian,
      spec.(isBigEndian := if spec.encoding == PcmUnsigned && spec.bitsPerSample == 8 then false else spec.isBigEndian));
  }

  /** The mu-law and A-law names read back as 8-bit little-endian, whatever the native order. */
  lemma LawTokensAreLittleEndian(nativeBigEndian: bool)
    ensures BigEndianOf("uLaw", nativeBigEndian) == Ok(false)
    ensures BigEndianOf("aLaw", nativeBigEndian) == Ok(false)
    ensures BitsOf("uLaw") == Ok(8) && EncodingOf("uLaw") == Ok(ULaw)
    ensures BitsOf("aLaw") == Ok(8) && EncodingOf("aLaw") == Ok(ALaw)
  {
    assert Lower("uLaw") == "ulaw";
    assert Lower("aLaw") == "alaw";
  }

  /** "uLaw" followed by digits and a byte-order suffix holds no `(s|u|float)[0-9]+` match:
      its only 'u' is followed by 'L', and no 's' or 'f' occurs. */
  lemma ULawTokenHasNoBits(digits: string, suffix: string)
    requires AllDigits(digits) && suffix in {"be", "le"}
    ensures FindBits("uLaw" + digits + suffix, 0).None?
  {
    var token := "uLaw" + digits + suffix;
    forall k | 0 <= k < |token|
      ensures MatchAt(token, k).None?
    {
      if k == 0 {
        assert token[1] == 'L';
        assert DigitRun(token, 1) == "";
      } else if k < 4 {
        assert token[k] == "uLaw"[k];
      } else if k < 4 + |digits| {
        assert token[k] == digits[k - 4];
      } else {
        assert token[k] == suffix[k - 4 - |digits|];
      }
    }
    FindBitsLeftmost(token, 0);
  }

  /** How the parser reads the first field of a mu-law or A-law token as printed. */
  lemma LawTokenFields(e: Encoding, digits: string, suffix: string)
    requires e in {ULaw, ALaw} && |digits| > 0 && AllDigits(digits) && suffix in {"be", "le"}
    ensures e == ALaw ==> EncodingOf(Prefix(e) + digits + suffix).Err?
    ensures e == ULaw ==> EncodingOf(Prefix(e) + digits + suffix) == Ok(PcmUnsigned)
    ensures e == ULaw ==> BitsOf(Prefix(e) + digits + suffix).Err?
  {
    var token := Prefix(e) + digits + suffix;
    assert token[0] == Prefix(e)[0] && |token| > 4;
    if e == ULaw {
      assert token[..1] == "u";
      ULawTokenHasNoBits(digits, suffix);
    }
  }

  /** The printer writes mu-law and A-law as "uLaw<n>le|be" and "aLaw<n>le|be", which the
      parser does not read back: an "aLaw…" token has no encoding, a "uLaw…" token reads as
      unsigned PCM and then has no `(s|u|float)[0-9]+` match for its bits, so the text fails. */
  lemma LawTextsDoNotReadBack(spec: SampleSpec, nativeBigEndian: bool)
    requires spec.encoding in {ULaw, ALaw} && PrintableFields(spec)
    ensures FormatToken(spec) == Prefix(spec.encoding) + NatToString(spec.bitsPerSample) + (if spec.isBigEndian then "be" else "le")
    ensures spec.encoding == ALaw ==> EncodingOf(FormatToken(spec)).Err?
    ensures spec.encoding == ULaw ==> EncodingOf(FormatToken(spec)) == Ok(PcmUnsigned) && BitsOf(FormatToken(spec)).Err?
    ensures Parse(SpecText(spec), nativeBigEndian).Err?
  {
    var suffix := if spec.isBigEndian then "be" else "le";
    assert FormatToken(spec) == Prefix(spec.encoding) + NatToString(spec.bitsPerSample) + suffix;
    LawTokenFields(spec.encoding, NatToString(spec.bitsPerSample), suffix);
    SpecTextSplits(spec);
  }

  lemma {:induction false} NatToStringDigits(n: nat)
    requires n >= 10
    ensures NatToString(n) == NatToString(n / 10) + [('0' as int + n % 10) as char]
  {
  }

  lemma RateTexts()
    ensures NatToString(48000) == "48000" && NatToString(41000) == "41000" && NatToString(8000) == "8000"
  {
    assert NatToString(4) == "4";
    NatToStringDigits(48);
    NatToStringDigits(480);
    NatToStringDigits(4800);
    NatToStringDigits(48000);
    NatToStringDigits(41);
    NatToStringDigits(410);
    NatToStringDigits(4100);
    NatToStringDigits(41000);
    assert NatToString(8) == "8";
    NatToStringDigits(80);
    NatToStringDigits(800);
    NatToStringDigits(8000);
  }

  lemma ParseExampleS32Text()
    ensures SpecText(SampleSpec(PcmSigned, 32, 2, 48000, false)) == "s32le 2ch 48000Hz"
  {
    var spec := SampleSpec(PcmSigned, 32, 2, 48000, false);
    RateTexts();
    assert IntToString(32) == "32";
    var token := FormatToken(spec);
    assert token == "s32le";
    assert IntToString(2) == "2";
    assert SpecText(spec) == token + " " + ("2" + "ch") + " " + ("48000" + "Hz");
    assert "s32le" + " " + ("2" + "ch") + " " + ("48000" + "Hz") == "s32le 2ch 48000Hz";
  }

  /** "s32le 2ch 48000Hz" from the unit tests. */
  lemma ParseExampleS32()
    ensures Parse("s32le 2ch 48000Hz", false) == Ok(SampleSpec(PcmSigned, 32, 2, 48000, false))
  {
    ParseExampleS32Text();
    TextRoundTrip(SampleSpec(PcmSigned, 32, 2, 48000, false), false);
  }

  lemma ParseExampleS16Text()
    ensures SpecText(SampleSpec(PcmSigned, 16, 2, 48000, false)) == "s16le 2ch 48000Hz"
  {
    var spec := SampleSpec(PcmSigned, 16, 2, 48000, false);
    RateTexts();
    assert IntToString(16) == "16";
    var token := FormatToken(spec);
    assert token == "s16le";
    assert IntToString(2) == "2";
    assert SpecText(spec) == token + " " + ("2" + "ch") + " " + ("48000" + "Hz");
    assert "s16le" + " " + ("2" + "ch") + " " + ("48000" + "Hz") == "s16le 2ch 48000Hz";
  }

  /** "s16le 2ch 48000Hz" from the unit tests. */
  lemma ParseExampleS16()
    ensures Parse("s16le 2ch 48000Hz", false) == Ok(SampleSpec(PcmSigned, 16, 2, 48000, false))
  {
    ParseExampleS16Text();
    TextRoundTrip(SampleSpec(PcmSigned, 16, 2, 48000, false), false);
  }

  lemma ParseExampleFloatText()
    ensures SpecText(SampleSpec(PcmFloat, 16, 5, 41000, true)) == "float16be 5ch 41000Hz"
  {
    var spec := SampleSpec(PcmFloat, 16, 5, 41000, true);
    RateTexts();
    assert IntToString(16) == "16";
    var token := FormatToken(spec);
    assert token == "float16be";
    assert IntToString(5) == "5";
    assert SpecText(spec) == token + " " + ("5" + "ch") + " " + ("41000" + "Hz");
    assert "float16be" + " " + ("5" + "ch") + " " + ("41000" + "Hz") == "float16be 5ch 41000Hz";
  }

  /** "float16be 5ch 41000Hz" from the unit tests. */
  lemma ParseExampleFloat()
    ensures Parse("float16be 5ch 41000Hz", false) == Ok(SampleSpec(PcmFloat, 16, 5, 41000, true))
  {
    ParseExampleFloatText();
    TextRoundTrip(SampleSpec(PcmFloat, 16, 5, 41000, true), false);
  }

  lemma ParseExampleU8Text()
    ensures SpecText(SampleSpec(PcmUnsigned, 8, 1, 8000, true)) == "u8 1ch 8000Hz"
  {
    var spec := SampleSpec(PcmUnsigned, 8, 1, 8000, true);
    RateTexts();
    var token := FormatToken(spec);
    assert token == "u8";
    assert IntToString(1) == "1";
    assert SpecText(spec) == token + " " + ("1" + "ch") + " " + ("8000" + "Hz");
    assert "u8" + " " + ("1" + "ch") + " " + ("8000" + "Hz") == "u8 1ch 8000Hz";
  }

  /** "u8 1ch 8000Hz" from the unit tests, read as little-endian whatever the native order; printed from a big-endian specification it still reads back little-endian. */
  lemma ParseExampleU8(nativeBigEndian: bool)
    ensures Parse("u8 1ch 8000Hz", nativeBigEndian) == Ok(SampleSpec(PcmUnsigned, 8, 1, 8000, false))
  {
    ParseExampleU8Text();
    TextRoundTrip(SampleSpec(PcmUnsigned, 8, 1, 8000, true), nativeBigEndian);
  }

  /** A text with only two tokens is rejected, as "s16le 2ch" is. */
  lemma TwoTokensAreRejected(a: string, b: string, nativeBigEndian: bool)
    requires ' ' !in a && ' ' !in b && |a| > 0 && |b| > 0
    requires !IsWhitespace(a[0]) && !IsWhitespace(b[|b| - 1])
    ensures Parse(a + " " + b, nativeBigEndian).Err?
  {
    var text := a + " " + b;
    assert text[0] == a[0] && text[|text| - 1] == b[|b| - 1];
    TrimKeepsTrimmed(text);
    SplitCons(a, b);
    SplitNoSpace(b);
  }

  /** A doubled space yields an empty token between its neighbours, so a text such as
      "s16le  2ch 48000Hz" splits into more than three tokens. */
  lemma DoubledSpaceGivesEmptyToken(a: string, b: string)
    requires ' ' !in a
    ensures Split(a + "  " + b) == [a, ""] + Split(b)
  {
    SplitCons(a, " " + b);
    assert a + "  " + b == a + " " + (" " + b);
    assert (" " + b)[1..] == b;
  }
}

=== FILE: pcm_data.dfy ===
/** PCM helpers (model/PcmData.kt of the core module): duration, time slices and
    decoding sample bytes into integers. PCM data is never self-describing; every
    operation takes the format as a parameter. */
module Pcm {
  import opened Wrappers
  import opened AudioFormats

  type byte = b: int | 0 <= b < 256
  type PcmData = seq<byte>

  /** Bytes [from, min(to, |s|)) of `s`, empty when that range is empty; Kotlin's
      `slice(from until min(to, size))`. */
  function Clip(s: PcmData, from: nat, to: nat): (r: PcmData)
    ensures |r| == if from < Min(to, |s|) then Min(to, |s|) - from else 0
    ensures forall i :: 0 <= i < |r| ==> r[i] == s[from + i]
  {
    var end := Min(to, |s|);
    if from < end then s[from..end] else []
  }

  /** The chunks of a sequence of writes, back to back. */
  function Concat(chunks: seq<PcmData>): (r: PcmData)
    ensures chunks == [] ==> r == []
  {
    if |chunks| == 0 then [] else Concat(chunks[..|chunks| - 1]) + chunks[|chunks| - 1]
  }

  // ---------------------------------------------------------------------------
  // Nonlinear arithmetic helpers
  // ---------------------------------------------------------------------------

  lemma MulLtCancel(a: int, b: int, c: pos)
    requires a * c < b * c
    ensures a < b
  {
    assert a >= b ==> (a - b) * c >= 0;
  }

  lemma MulLeCancel(a: int, b: int, c: pos)
    requires a * c <= b * c
    ensures a <= b
  {
    assert a > b ==> (a - b - 1) * c >= 0;
  }

  // ---------------------------------------------------------------------------
  // duration and timeSlice
  // ---------------------------------------------------------------------------

  /** Frames over frame rate in whole milliseconds, rounded half up like `roundToInt`.
      Fails unless the byte length is a whole number of frames. */
  function Duration(data: PcmData, f: AudioFormat): (r: Result<nat>)
    ensures r.Ok? <==> Resolvable(f) && |data| % EffectiveFrameSize(f).value == 0
    ensures r.Ok? ==>
      var frames := |data| / EffectiveFrameSize(f).value;
      var rate := EffectiveFrameRate(f).value;
      2 * r.value * rate <= 2 * frames * 1000 + rate < 2 * (r.value + 1) * rate
  {
    var rate :- EffectiveFrameRate(f);
    var size :- EffectiveFrameSize(f);
    if size == 0 then Err("/ by zero")
    else if |data| % size != 0 then
      Err("The PCM sample is not a multiple of the provided frame size.")
    else
      var frames := |data| / size;
      var ms: nat := (2 * frames * 1000 + rate) / (2 * rate);
      Ok(ms)
  }

  /** `Duration` rounds to the nearest millisecond where `ByteCountToDuration` floors:
      the two differ by at most one millisecond. */
  lemma DurationIsRoundedByteCountToDuration(data: PcmData, f: AudioFormat)
    requires Duration(data, f).Ok?
    ensures var floor := ByteCountToDuration(f, |data|).value;
      Duration(data, f).value == floor || Duration(data, f).value == floor + 1
  {
    var rate := EffectiveFrameRate(f).value;
    var frames := |data| / EffectiveFrameSize(f).value;
    RoundingWithinOne(frames * 1000, rate, ByteCountToDuration(f, |data|).value, Duration(data, f).value);
  }

  /** Half-up rounding of n / rate is the floor of n / rate or one more. */
  lemma RoundingWithinOne(n: int, rate: pos, d: int, r: int)
    requires d * rate <= n < (d + 1) * rate
    requires 2 * r * rate <= 2 * n + rate < 2 * (r + 1) * rate
    ensures r == d || r == d + 1
  {
    assert (2 * d) * rate < (2 * r + 2) * rate;
    MulLtCancel(2 * d, 2 * r + 2, rate);
    assert (2 * r) * rate < (2 * d + 3) * rate;
    MulLtCancel(2 * r, 2 * d + 3, rate);
  }

  lemma DurationOfEmptyIsZero(f: AudioFormat)
    requires Resolvable(f)
    ensures Duration([], f) == Ok(0)
  {
  }

  /** 1300 bytes at 100 Hz, 16-bit stereo last 3250 ms. */
  lemma DurationExample(data: PcmData)
    requires |data| == 1300
    ensures Duration(data, TestFormat()) == Ok(3250)
  {
  }

  /** The bytes from `offset` for at most `length`, both converted with `DurationToByteCount`. */
  function TimeSlice(data: PcmData, f: AudioFormat, offsetMs: nat, lengthMs: nat): (r: Result<PcmData>)
    ensures r.Ok? <==> EffectiveFrameRate(f).Ok? && EffectiveFrameSize(f).Ok?
    ensures r.Ok? ==>
      var off := DurationToByteCount(f, offsetMs).value;
      var len := DurationToByteCount(f, lengthMs).value;
      && |r.value| == (if off < |data| then Min(len, |data| - off) else 0)
      && forall i :: 0 <= i < |r.value| ==> r.value[i] == data[off + i]
  {
    var off :- DurationToByteCount(f, offsetMs);
    var len := DurationToByteCount(f, lengthMs).value;
    Ok(Clip(data, off, off + len))
  }

  /** A slice at or past the end, or of zero length, is empty. */
  lemma TimeSliceEmpty(data: PcmData, f: AudioFormat, offsetMs: nat, lengthMs: nat)
    requires EffectiveFrameRate(f).Ok? && EffectiveFrameSize(f).Ok?
    requires DurationToByteCount(f, offsetMs).value >= |data| || DurationToByteCount(f, lengthMs).value == 0
    ensures TimeSlice(data, f, offsetMs, lengthMs) == Ok([])
  {
  }

  /** Byte offsets of the test format (400 bytes/s) used by the slice examples. */
  lemma TestByteCounts()
    ensures DurationToByteCount(TestFormat(), 0) == Ok(0)
    ensures DurationToByteCount(TestFormat(), 5) == Ok(0)
    ensures DurationToByteCount(TestFormat(), 1250) == Ok(500)
    ensures DurationToByteCount(TestFormat(), 1500) == Ok(600)
    ensures DurationToByteCount(TestFormat(), 9000) == Ok(3600)
    ensures DurationToByteCount(TestFormat(), 10000) == Ok(4000)
  {
  }

  /** Ten seconds at 400 bytes/s: 1500 ms + 1250 ms is bytes [600, 1100), and 9000 ms + 1250 ms clips at the end. */
  lemma TimeSliceExamples(data: PcmData)
    requires |data| == 4000
    ensures TimeSlice(data, TestFormat(), 0, 1250) == Ok(data[0..500])
    ensures TimeSlice(data, TestFormat(), 1500, 1250) == Ok(data[600..1100])
    ensures TimeSlice(data, TestFormat(), 9000, 1250) == Ok(data[3600..4000])
    ensures TimeSlice(data, TestFormat(), 10000, 1250) == Ok([])
    ensures TimeSlice(data, TestFormat(), 5, 0) == Ok([])
  {
    TestByteCounts();
    assert TimeSlice(data, TestFormat(), 0, 1250) == Ok(Clip(data, 0, 500));
    assert TimeSlice(data, TestFormat(), 1500, 1250) == Ok(Clip(data, 600, 1100));
    assert TimeSlice(data, TestFormat(), 9000, 1250) == Ok(Clip(data, 3600, 4100));
    assert TimeSlice(data, TestFormat(), 10000, 1250) == Ok(Clip(data, 4000, 4500));
    assert TimeSlice(data, TestFormat(), 5, 0) == Ok(Clip(data, 0, 0));
  }

  // ---------------------------------------------------------------------------
  // bytesToLong
  // ---------------------------------------------------------------------------

  const TWO_63: int := 0x8000_0000_0000_0000
  const TWO_64: int := 0x1_0000_0000_0000_0000

  function Pow256(n: nat): (r: int)
    ensures r > 0
  {
    if n == 0 then 1 else 256 * Pow256(n - 1)
  }

  lemma {:induction false} Pow256Monotone(m: nat, n: nat)
    requires m <= n
    ensures Pow256(m) <= Pow256(n)
    decreases n
  {
    if m < n {
      Pow256Monotone(m, n - 1);
    }
  }

  lemma Pow256Eight()
    ensures Pow256(8) == TWO_64
    ensures Pow256(7) * 128 == TWO_63
  {
  }

  /** The big-endian unsigned value of `s`. */
  function Unsigned(s: seq<byte>): nat {
    if |s| == 0 then 0 else s[0] * Pow256(|s| - 1) + Unsigned(s[1..])
  }

  /** One more leading digit `d` in base 256 above a lower part `rest < p`. */
  lemma DigitBounds(d: byte, p: int, rest: int)
    requires p > 0 && 0 <= rest < p
    ensures d * p + rest < 256 * p
    ensures d >= 128 <==> d * p + rest >= 128 * p
  {
    assert (255 - d) * p >= 0;
    assert d >= 128 ==> (d - 128) * p >= 0;
    assert d < 128 ==> (127 - d) * p >= 0;
  }

  lemma {:induction false} UnsignedBound(s: seq<byte>)
    ensures Unsigned(s) < Pow256(|s|)
    decreases |s|
  {
    if |s| > 0 {
      UnsignedBound(s[1..]);
      DigitBounds(s[0], Pow256(|s| - 1), Unsigned(s[1..]));
    }
  }

  /** The top byte of a big-endian number decides whether it reaches half its range. */
  lemma TopByteDecidesSign(s: seq<byte>)
    requires |s| > 0
    ensures s[0] >= 128 <==> Unsigned(s) >= 128 * Pow256(|s| - 1)
  {
    UnsignedBound(s[1..]);
    DigitBounds(s[0], Pow256(|s| - 1), Unsigned(s[1..]));
  }

  /** The big-endian two's-complement value of `s`, as `BigInteger(byte[])` reads it. */
  function Signed(s: seq<byte>): int
    requires |s| > 0
  {
    Unsigned(s) - (if s[0] >= 128 then Pow256(|s|) else 0)
  }

  /** `BigInteger.toLong`: the low 64 bits, read as a signed 64-bit integer. */
  function ToLong(v: int): (r: int)
    ensures -TWO_63 <= r < TWO_63
    ensures -TWO_63 <= v < TWO_63 ==> r == v
  {
    (v + TWO_63) % TWO_64 - TWO_63
  }

  function Reverse<T>(s: seq<T>): (r: seq<T>)
    ensures |r| == |s|
    ensures forall i :: 0 <= i < |s| ==> r[i] == s[|s| - 1 - i]
  {
    seq(|s|, i requires 0 <= i < |s| => s[|s| - 1 - i])
  }

  lemma ReverseReverse<T>(s: seq<T>)
    ensures Reverse(Reverse(s)) == s
  {
  }

  /** Decodes sample bytes in the given byte order. Unsigned values get a zero byte
      prepended so that they read as non-negative; an empty signed array is rejected
      as `BigInteger` rejects a zero-length magnitude. */
  function BytesToLong(bytes: seq<byte>, bigEndian: bool, signed: bool): (r: Result<int>)
    ensures r.Err? <==> signed && |bytes| == 0
    ensures r.Ok? ==> -TWO_63 <= r.value < TWO_63
  {
    var be := if bigEndian then bytes else Reverse(bytes);
    if signed && |be| == 0 then Err("Zero length BigInteger")
    else if signed then Ok(ToLong(Signed(be)))
    else Ok(ToLong(Unsigned(be)))
  }

  lemma LittleEndianIsReversedBigEndian(bytes: seq<byte>, signed: bool)
    ensures BytesToLong(bytes, false, signed) == BytesToLong(Reverse(bytes), true, signed)
  {
  }

  /** Unsigned decoding of 1 to 7 bytes lies in [0, 256^n). */
  lemma UnsignedRange(bytes: seq<byte>, bigEndian: bool)
    requires 1 <= |bytes| <= 7
    ensures 0 <= BytesToLong(bytes, bigEndian, false).value < Pow256(|bytes|)
  {
    var be := if bigEndian then bytes else Reverse(bytes);
    UnsignedBound(be);
    Pow256Monotone(|bytes|, 7);
    Pow256Eight();
  }

  /** Signed decoding of 1 to 8 bytes is the two's-complement value in [-2^(8n-1), 2^(8n-1)). */
  lemma SignedRange(bytes: seq<byte>, bigEndian: bool)
    requires 1 <= |bytes| <= 8
    ensures -(Pow256(|bytes|) / 2) <= BytesToLong(bytes, bigEndian, true).value < Pow256(|bytes|) / 2
  {
    var be := if bigEndian then bytes else Reverse(bytes);
    var n := |be|;
    UnsignedBound(be);
    TopByteDecidesSign(be);
    Pow256Monotone(n, 8);
    Pow256Eight();
    assert Pow256(n) == 2 * (128 * Pow256(n - 1));
    var v := Signed(be);
    assert -(Pow256(n) / 2) <= v < Pow256(n) / 2;
  }

  // ---------------------------------------------------------------------------
  // Two's-complement encoding, the inverse of bytesToLong
  // ---------------------------------------------------------------------------

  /** Quotient and remainder of `u` below `m` divisors: a digit below `m` and a rest below `p`. */
  lemma DivBelow(u: nat, p: int, m: nat)
    requires p > 0 && u < m * p
    ensures 0 <= u / p < m
    ensures 0 <= u % p < p
    ensures u == (u / p) * p + u % p
  {
    var q := u / p;
    var r := u % p;
    assert u == q * p + r;
    assert q >= m ==> (q - m) * p >= 0;
    assert q < 0 ==> q * p <= 0 - p;
  }

  /** The `n`-byte big-endian digits of `u`. */
  function EncodeBE(u: nat, n: nat): (r: seq<byte>)
    requires u < Pow256(n)
    ensures |r| == n
  {
    if n == 0 then []
    else
      var p := Pow256(n - 1);
      DivBelow(u, p, 256);
      [u / p] + EncodeBE(u % p, n - 1)
  }

  lemma {:induction false} UnsignedOfEncodeBE(u: nat, n: nat)
    requires u < Pow256(n)
    ensures Unsigned(EncodeBE(u, n)) == u
    decreases n
  {
    if n > 0 {
      var p := Pow256(n - 1);
      UnsignedOfEncodeBE(u % p, n - 1);
      var s := EncodeBE(u, n);
      assert s[1..] == EncodeBE(u % p, n - 1);
      assert Unsigned(s) == (u / p) * p + u % p;
    }
  }

  /** A value in [-p, p) taken modulo p, made explicit for the solver. */
  lemma ModOfSmall(v: int, p: int)
    requires p > 0
    requires -p <= v < p
    ensures v % p == if v >= 0 then v else v + p
  {
    var q := v / p;
    var r := v % p;
    assert v == q * p + r;
    assert q >= 1 ==> q * p >= p;
    assert q <= -2 ==> q * p <= -2 * p;
    assert q >= 0 ==> q * p >= 0;
    assert q <= -1 ==> q * p <= 0 - p;
  }

  /** `n`-byte two's complement of `v` (its residue modulo 256^n) in the given byte order. */
  function Encode(v: int, n: nat, bigEndian: bool): (r: seq<byte>)
    ensures |r| == n
  {
    var be := EncodeBE(v % Pow256(n), n);
    if bigEndian then be else Reverse(be)
  }

  /** The values an `n`-byte sample can hold under the given signedness and the 64-bit result. */
  predicate Representable(v: int, n: nat, signed: bool) {
    if signed then 1 <= n <= 8 && -(Pow256(n) / 2) <= v < Pow256(n) / 2
    else 1 <= n <= 7 && 0 <= v < Pow256(n)
  }

  /** A representable value fits the 64-bit result, so `toLong` leaves it alone. */
  lemma RepresentableFitsLong(v: int, n: nat, signed: bool)
    requires Representable(v, n, signed)
    ensures -TWO_63 <= v < TWO_63
  {
    Pow256Eight();
    if signed { Pow256Monotone(n, 8); } else { Pow256Monotone(n, 7); }
  }

  /** The `n`-byte residue of a signed value reads back as that value in two's complement. */
  lemma {:induction false} SignedOfEncodeBE(v: int, n: nat)
    requires 1 <= n && -(Pow256(n) / 2) <= v < Pow256(n) / 2
    ensures v % Pow256(n) < Pow256(n)
    ensures Signed(EncodeBE(v % Pow256(n), n)) == v
  {
    var p := Pow256(n);
    assert p == 2 * (128 * Pow256(n - 1));
    ModOfSmall(v, p);
    var u := v % p;
    var be := EncodeBE(u, n);
    UnsignedOfEncodeBE(u, n);
    TopByteDecidesSign(be);
  }

  /** Big-endian encoding then decoding returns the original value. */
  lemma DecodeEncodeBE(v: int, n: nat, signed: bool)
    requires Representable(v, n, signed)
    ensures v % Pow256(n) < Pow256(n)
    ensures BytesToLong(EncodeBE(v % Pow256(n), n), true, signed) == Ok(v)
  {
    RepresentableFitsLong(v, n, signed);
    if signed {
      SignedOfEncodeBE(v, n);
    } else {
      ModOfSmall(v, Pow256(n));
      UnsignedOfEncodeBE(v % Pow256(n), n);
    }
  }

  /** Encoding then decoding returns the original value, in either byte order. */
  lemma DecodeEncode(v: int, n: nat, bigEndian: bool, signed: bool)
    requires Representable(v, n, signed)
    ensures BytesToLong(Encode(v, n, bigEndian), bigEndian, signed) == Ok(v)
  {
    DecodeEncodeBE(v, n, signed);
    var be := EncodeBE(v % Pow256(n), n);
    if !bigEndian {
      ReverseReverse(be);
      assert Reverse(Encode(v, n, bigEndian)) == be;
    }
  }

  // ---------------------------------------------------------------------------
  // toDiscreteFrames
  // ---------------------------------------------------------------------------

  /** Bytes per sample as the source computes it: `sampleSizeInBits / 8`, where an
      unspecified size (-1) truncates to 0. */
  function SampleSize(f: AudioFormat): nat {
    match f.sampleSizeInBits
    case Some(bits) => bits / 8
    case None => 0
  }

  /** Samples per frame: `(1..channels)` is empty for an unspecified (-1) channel count. */
  function ChannelCount(f: AudioFormat): nat {
    f.channels.GetOr(0)
  }

  /** `size / frameSize` as a frame count; an unspecified frame size (-1) gives no frames. */
  function FrameCount(data: PcmData, f: AudioFormat): nat
    requires f.frameSize != Some(0)
  {
    match f.frameSize
    case Some(size) => |data| / size
    case None => 0
  }

  /** Sample `k` of frame `i` ends inside the `n * ch` samples the frames span. */
  lemma SampleInBounds(i: nat, k: nat, n: nat, ch: nat, sb: nat)
    requires i < n && k < ch
    ensures (i * ch + k) * sb + sb <= n * ch * sb
  {
    var j := i * ch + k;
    MulLe(i + 1, n, ch);
    assert (i + 1) * ch == i * ch + ch;
    MulLe(j + 1, n * ch, sb);
    assert (j + 1) * sb == j * sb + sb;
  }

  lemma MulLe(a: int, b: int, c: nat)
    requires a <= b
    ensures a * c <= b * c
  {
    assert (b - a) * c >= 0;
  }

  /** The `j`-th `sb`-byte sample of `data`, decoded. */
  function SampleAt(data: PcmData, j: nat, sb: nat, bigEndian: bool, signed: bool): int
    requires j * sb + sb <= |data|
    requires !signed || sb > 0
  {
    BytesToLong(data[j * sb..j * sb + sb], bigEndian, signed).value
  }

  /** `n` frames of `ch` samples of `sb` bytes each, read consecutively from the start of `data`. */
  function DecodeFrames(data: PcmData, n: nat, ch: nat, sb: nat, bigEndian: bool, signed: bool): (r: seq<seq<int>>)
    requires n * ch * sb <= |data|
    requires !signed || ch == 0 || sb > 0
    ensures |r| == n
    ensures forall i :: 0 <= i < n ==> |r[i]| == ch
  {
    seq(n, i requires 0 <= i < n =>
      seq(ch, k requires 0 <= k < ch =>
        SampleInBounds(i, k, n, ch, sb);
        SampleAt(data, i * ch + k, sb, bigEndian, signed)))
  }

  /** Sample `k` of frame `i` is decoded from bytes [(i * ch + k) * sb, (i * ch + k + 1) * sb). */
  lemma {:induction false} DecodeFramesAt(data: PcmData, n: nat, ch: nat, sb: nat, bigEndian: bool, signed: bool, i: nat, k: nat)
    requires n * ch * sb <= |data|
    requires !signed || ch == 0 || sb > 0
    requires i < n && k < ch
    ensures (i * ch + k) * sb + sb <= |data|
    ensures DecodeFrames(data, n, ch, sb, bigEndian, signed)[i][k] == SampleAt(data, i * ch + k, sb, bigEndian, signed)
  {
    SampleInBounds(i, k, n, ch, sb);
  }

  /** Splits `data` into frames of `channels` samples, read consecutively from the start.
      Rejects encodings other than signed and unsigned PCM once there is a frame to read,
      and fails when the samples requested run past the end of the data. */
  function ToDiscreteFrames(data: PcmData, f: AudioFormat): (r: Result<seq<seq<int>>>)
    ensures f.frameSize == Some(0) ==> r.Err?
    ensures r.Ok? <==>
      && f.frameSize != Some(0)
      && (FrameCount(data, f) > 0 ==>
            && (f.encoding == PcmSigned || f.encoding == PcmUnsigned)
            && FrameCount(data, f) * ChannelCount(f) * SampleSize(f) <= |data|
            && (f.encoding == PcmUnsigned || ChannelCount(f) == 0 || SampleSize(f) > 0))
    ensures r.Ok? ==> |r.value| == FrameCount(data, f)
    ensures r.Ok? && |r.value| > 0 ==>
      r.value == DecodeFrames(data, FrameCount(data, f), ChannelCount(f), SampleSize(f), f.bigEndian, f.encoding == PcmSigned)
  {
    if f.frameSize == Some(0) then Err("/ by zero")
    else
      var n := FrameCount(data, f);
      if n == 0 then Ok([])
      else if f.encoding != PcmSigned && f.encoding != PcmUnsigned then Err("Unsupported encoding.")
      else
        var signed := f.encoding == PcmSigned;
        var ch := ChannelCount(f);
        var sb := SampleSize(f);
        if signed && ch > 0 && sb == 0 then Err("Zero length BigInteger")
        else if n * ch * sb > |data| then Err("BufferUnderflowException")
        else Ok(DecodeFrames(data, n, ch, sb, f.bigEndian, signed))
  }

  // ---------------------------------------------------------------------------
  // Encoding whole frames, the inverse of toDiscreteFrames
  // ---------------------------------------------------------------------------

  /** The parts of `parts`, back to back. */
  function Flatten<T>(parts: seq<seq<T>>): seq<T> {
    if |parts| == 0 then [] else parts[0] + Flatten(parts[1..])
  }

  /** Every part holds exactly `ch` elements. */
  predicate Uniform<T>(parts: seq<seq<T>>, ch: nat) {
    forall i :: 0 <= i < |parts| ==> |parts[i]| == ch
  }

  lemma {:induction false} FlattenLength<T>(parts: seq<seq<T>>, ch: nat)
    requires Uniform(parts, ch)
    ensures |Flatten(parts)| == |parts| * ch
    decreases |parts|
  {
    if |parts| > 0 {
      FlattenLength(parts[1..], ch);
      assert |parts| * ch == ch + (|parts| - 1) * ch;
    }
  }

  lemma {:induction false} FlattenIndex<T>(parts: seq<seq<T>>, ch: nat, i: nat, k: nat)
    requires Uniform(parts, ch)
    requires i < |parts| && k < ch
    ensures i * ch + k < |Flatten(parts)|
    ensures Flatten(parts)[i * ch + k] == parts[i][k]
    decreases i
  {
    var rest := Flatten(parts[1..]);
    assert Flatten(parts) == parts[0] + rest;
    if i > 0 {
      FlattenIndex(parts[1..], ch, i - 1, k);
      assert i * ch + k == ch + ((i - 1) * ch + k);
    }
  }

  /** Every value as `n`-byte two's complement. */
  function Encoded(vs: seq<int>, n: nat, bigEndian: bool): (r: seq<seq<byte>>)
    ensures |r| == |vs| && Uniform(r, n)
  {
    seq(|vs|, i requires 0 <= i < |vs| => Encode(vs[i], n, bigEndian))
  }

  /** The values as `n`-byte two's complement, one after the other. */
  function EncodeAll(vs: seq<int>, n: nat, bigEndian: bool): (r: seq<byte>)
    ensures |r| == |vs| * n
  {
    FlattenLength(Encoded(vs, n, bigEndian), n);
    Flatten(Encoded(vs, n, bigEndian))
  }

  /** The bytes of a frame list: every sample as `n`-byte two's complement, frame after frame. */
  function EncodeFrames(frames: seq<seq<int>>, n: nat, bigEndian: bool): seq<byte> {
    EncodeAll(Flatten(frames), n, bigEndian)
  }

  /** Value `j` is encoded in bytes [j * n, j * n + n). */
  lemma {:induction false} EncodeAllSlice(vs: seq<int>, n: nat, bigEndian: bool, j: nat)
    requires j < |vs|
    ensures j * n + n <= |EncodeAll(vs, n, bigEndian)|
    ensures EncodeAll(vs, n, bigEndian)[j * n..j * n + n] == Encode(vs[j], n, bigEndian)
  {
    SliceOfEncoding(vs, n, bigEndian, j, EncodeAll(vs, n, bigEndian), Encode(vs[j], n, bigEndian));
  }

  /** `EncodeAllSlice` with the encodings named, so that the proof works on their bytes
      without unfolding how they are computed. */
  lemma {:induction false} SliceOfEncoding(vs: seq<int>, n: nat, bigEndian: bool, j: nat, all: seq<byte>, e: seq<byte>)
    requires j < |vs| && all == EncodeAll(vs, n, bigEndian) && e == Encode(vs[j], n, bigEndian)
    ensures j * n + n <= |all|
    ensures all[j * n..j * n + n] == e
  {
    EncodeAllWindow(|vs|, n, j);
    var lo := j * n;
    forall m | 0 <= m < n
      ensures all[lo + m] == e[m]
    {
      EncodeAllAt(vs, n, bigEndian, j, m);
    }
    assert all[lo..lo + n] == e;
  }

  /** Byte `m` of the window of value `j` is byte `m` of its encoding. */
  lemma {:induction false} EncodeAllAt(vs: seq<int>, n: nat, bigEndian: bool, j: nat, m: nat)
    requires j < |vs| && m < n
    ensures j * n + m < |EncodeAll(vs, n, bigEndian)|
    ensures EncodeAll(vs, n, bigEndian)[j * n + m] == Encode(vs[j], n, bigEndian)[m]
  {
    FlattenIndex(Encoded(vs, n, bigEndian), n, j, m);
  }

  /** The window of value `j` of `count` lies inside the `count * n` bytes. */
  lemma EncodeAllWindow(count: nat, n: nat, j: nat)
    requires j < count
    ensures j * n + n <= count * n
  {
    MulLe(j + 1, count, n);
    assert (j + 1) * n == j * n + n;
  }

  /** The audio format of `ch`-channel frames of `n`-byte samples. */
  function FrameFormat(ch: pos, n: pos, signed: bool, bigEndian: bool): (f: AudioFormat)
    ensures f.frameSize == Some(ch * n)
    ensures ChannelCount(f) == ch && SampleSize(f) == n
  {
    AudioFormat(if signed then PcmSigned else PcmUnsigned, Some(44000), Some(8 * n), Some(ch), Some(ch * n), Some(44000), bigEndian)
  }

  /** Every sample of the encoded frames decodes to the sample it came from. */
  lemma {:induction false} DecodeEncodeSample(frames: seq<seq<int>>, ch: pos, n: pos, signed: bool, bigEndian: bool, i: nat, k: nat)
    requires Uniform(frames, ch)
    requires forall i, k :: 0 <= i < |frames| && 0 <= k < |frames[i]| ==> Representable(frames[i][k], n, signed)
    requires |frames| * ch * n <= |EncodeFrames(frames, n, bigEndian)|
    requires i < |frames| && k < ch
    ensures DecodeFrames(EncodeFrames(frames, n, bigEndian), |frames|, ch, n, bigEndian, signed)[i][k] == frames[i][k]
  {
    DecodeEncodeSampleOf(frames, ch, n, signed, bigEndian, i, k, EncodeAll(Flatten(frames), n, bigEndian));
  }

  /** `DecodeEncodeSample` with the encoded bytes named, so that the proof works on
      them without unfolding how they are computed. */
  lemma {:induction false} DecodeEncodeSampleOf(frames: seq<seq<int>>, ch: pos, n: pos, signed: bool, bigEndian: bool,
                                                i: nat, k: nat, data: PcmData)
    requires Uniform(frames, ch)
    requires data == EncodeAll(Flatten(frames), n, bigEndian) && |frames| * ch * n <= |data|
    requires i < |frames| && k < ch && Representable(frames[i][k], n, signed)
    ensures DecodeFrames(data, |frames|, ch, n, bigEndian, signed)[i][k] == frames[i][k]
  {
    var flat := Flatten(frames);
    DecodeFramesAt(data, |frames|, ch, n, bigEndian, signed, i, k);
    FlattenIndex(frames, ch, i, k);
    MulLe(0, i, ch);
    var j: nat := i * ch + k;
    assert flat[j] == frames[i][k];
    SampleOfEncoded(flat, n, bigEndian, signed, j, data);
  }

  /** Sample `j` of the encoded values decodes to value `j`. */
  lemma {:induction false} SampleOfEncoded(vs: seq<int>, n: pos, bigEndian: bool, signed: bool, j: nat, data: PcmData)
    requires data == EncodeAll(vs, n, bigEndian)
    requires j < |vs| && j * n + n <= |data|
    requires Representable(vs[j], n, signed)
    ensures SampleAt(data, j, n, bigEndian, signed) == vs[j]
  {
    EncodeAllSlice(vs, n, bigEndian, j);
    DecodeEncode(vs[j], n, bigEndian, signed);
  }


  /** Frame count of the encoded frames: their byte length is a whole number of frames. */
  lemma EncodeFramesLength(frames: seq<seq<int>>, ch: pos, n: pos, signed: bool, bigEndian: bool)
    requires Uniform(frames, ch)
    ensures |EncodeFrames(frames, n, bigEndian)| == |frames| * ch * n
    ensures FrameCount(EncodeFrames(frames, n, bigEndian), FrameFormat(ch, n, signed, bigEndian)) == |frames|
  {
    FlattenLength(frames, ch);
    var count := |frames|;
    assert count * ch * n == count * (ch * n);
    DivMul(count, ch * n);
  }

  /** Encoding frames of representable samples and decoding them per frame returns them. */
  lemma DecodeEncodeFrames(frames: seq<seq<int>>, ch: pos, n: pos, signed: bool, bigEndian: bool)
    requires Uniform(frames, ch)
    requires forall i, k :: 0 <= i < |frames| && 0 <= k < |frames[i]| ==> Representable(frames[i][k], n, signed)
    ensures ToDiscreteFrames(EncodeFrames(frames, n, bigEndian), FrameFormat(ch, n, signed, bigEndian)) == Ok(frames)
  {
    var f := FrameFormat(ch, n, signed, bigEndian);
    var data := EncodeFrames(frames, n, bigEndian);
    var count := |frames|;
    EncodeFramesLength(frames, ch, n, signed, bigEndian);
    if count > 0 {
      var decoded := DecodeFrames(data, count, ch, n, bigEndian, signed);
      assert ToDiscreteFrames(data, f) == Ok(decoded);
      forall i | 0 <= i < count
        ensures decoded[i] == frames[i]
      {
        forall k | 0 <= k < ch
          ensures decoded[i][k] == frames[i][k]
        {
          DecodeEncodeSample(frames, ch, n, signed, bigEndian, i, k);
        }
      }
      assert decoded == frames;
    }
  }

  /** The unsigned 16-bit big-endian frames of the PCM test decode back to their values. */
  lemma DecodeEncodeFramesExample()
    ensures ToDiscreteFrames(EncodeFrames([[1331, 256], [0, 138]], 2, true), FrameFormat(2, 2, false, true))
      == Ok([[1331, 256], [0, 138]])
  {
    DecodeEncodeFrames([[1331, 256], [0, 138]], 2, 2, false, true);
  }
}

=== FILE: resettable_buffer.dfy ===
/** The resettable audio buffer (core/buffer/ResettableAudioBuffer.kt of the application
    module): a slot holding the current buffer, whose `reset` hands the current buffer out
    and installs a fresh one from the factory. Every other operation delegates to the
    current buffer; the lock is not modelled because operations run one at a time. */
module Resettable {
  import opened Wrappers
  import opened AudioFormats
  import opened Pcm
  import DiskSpilling
  import InMemoryBuffers

  /** The factory: a fresh disk-spilling buffer of a fixed format and cap. */
  datatype BufferFactory = BufferFactory(format: AudioFormat, maxInMemory: nat)

  function Make(factory: BufferFactory): (b: DiskSpilling.SpillingBuffer)
    ensures DiskSpilling.Contents(b.parts) == [] && !b.closed
    ensures b.format == factory.format && b.maxInMemory == factory.maxInMemory
  {
    DiskSpilling.New(factory.format, factory.maxInMemory)
  }

  datatype ResettableBuffer = ResettableBuffer(factory: BufferFactory, current: DiskSpilling.SpillingBuffer)

  function New(factory: BufferFactory): (rb: ResettableBuffer)
    ensures DiskSpilling.Contents(rb.current.parts) == [] && !rb.current.closed
  {
    ResettableBuffer(factory, Make(factory))
  }

  /** The buffer handed out by `reset` and the slot afterwards. */
  datatype ResetResult = ResetResult(previous: DiskSpilling.SpillingBuffer, buffer: ResettableBuffer)

  /** Returns the current buffer and installs a fresh one. */
  function Reset(rb: ResettableBuffer): (r: ResetResult)
    ensures r.previous == rb.current
    ensures r.buffer.factory == rb.factory
    ensures DiskSpilling.Contents(r.buffer.current.parts) == [] && !r.buffer.current.closed
  {
    ResetResult(rb.current, ResettableBuffer(rb.factory, Make(rb.factory)))
  }

  /** The operations below delegate to the current buffer. */
  function Format(rb: ResettableBuffer): AudioFormat
  {
    rb.current.format
  }

  /** Adds to the current buffer only. */
  function Add(rb: ResettableBuffer, data: PcmData): (r: Result<ResettableBuffer>)
    ensures r.Ok? <==> !rb.current.closed
    ensures r.Ok? ==> r.value.factory == rb.factory
    ensures r.Ok? ==> DiskSpilling.Contents(r.value.current.parts) == DiskSpilling.Contents(rb.current.parts) + data
  {
    var next :- DiskSpilling.Add(rb.current, data);
    Ok(rb.(current := next))
  }

  function Read(rb: ResettableBuffer): Result<PcmData>
  {
    DiskSpilling.Read(rb.current)
  }

  function GetRange(rb: ResettableBuffer, offsetMs: nat, lengthMs: Option<nat>): Result<PcmData>
  {
    DiskSpilling.GetRange(rb.current, offsetMs, lengthMs)
  }

  function Duration(rb: ResettableBuffer): Result<nat>
  {
    DiskSpilling.Duration(rb.current)
  }

  function Size(rb: ResettableBuffer): nat
  {
    DiskSpilling.Size(rb.current)
  }

  function BackingBuffer(rb: ResettableBuffer): DiskSpilling.SpillingBuffer
  {
    rb.current
  }

  /** Closes the current buffer only; buffers handed out earlier are untouched. */
  function Close(rb: ResettableBuffer): (r: ResettableBuffer)
    ensures r.current.closed && r.factory == rb.factory
    ensures r.current.parts == rb.current.parts
  {
    rb.(current := DiskSpilling.Close(rb.current))
  }

  // ---------------------------------------------------------------------------
  // Sequences of writes and resets
  // ---------------------------------------------------------------------------

  datatype Op = Write(data: PcmData) | ResetOp

  /** The slot after a run and the buffers handed out by its resets, oldest first. */
  datatype RunState = RunState(handedOut: seq<DiskSpilling.SpillingBuffer>, buffer: ResettableBuffer)

  /** One operation: a write adds to the current buffer, a reset hands it out. */
  function Apply(st: RunState, op: Op): (r: Result<RunState>)
    ensures op.ResetOp? ==> r == Ok(RunState(st.handedOut + [st.buffer.current], Reset(st.buffer).buffer))
    ensures op.Write? ==> (r.Ok? <==> !st.buffer.current.closed)
    ensures op.Write? && r.Ok? ==> r.value.handedOut == st.handedOut && r.value.buffer == Add(st.buffer, op.data).value
  {
    match op
    case Write(data) =>
      var next :- Add(st.buffer, data);
      Ok(RunState(st.handedOut, next))
    case ResetOp =>
      var r := Reset(st.buffer);
      Ok(RunState(st.handedOut + [r.previous], r.buffer))
  }

  /** Applies writes and resets in order; fails if a write fails. */
  function Run(rb: ResettableBuffer, ops: seq<Op>): Result<RunState> {
    if |ops| == 0 then Ok(RunState([], rb))
    else
      var prev :- Run(rb, ops[..|ops| - 1]);
      Apply(prev, ops[|ops| - 1])
  }

  /** Running one more operation applies it to the state reached so far. */
  lemma RunSnoc(rb: ResettableBuffer, ops: seq<Op>, op: Op)
    ensures Run(rb, ops + [op]) == if Run(rb, ops).Err? then Run(rb, ops) else Apply(Run(rb, ops).value, op)
  {
    assert (ops + [op])[..|ops|] == ops;
  }

  /** Every byte written, in order. */
  function Written(ops: seq<Op>): PcmData {
    if |ops| == 0 then []
    else Written(ops[..|ops| - 1]) + (match ops[|ops| - 1] case Write(d) => d case ResetOp => [])
  }

  /** The bytes written between consecutive resets: one segment per reset plus the open one. */
  function Segments(ops: seq<Op>): (r: seq<PcmData>)
    ensures |r| > 0
  {
    if |ops| == 0 then [[]]
    else
      var prev := Segments(ops[..|ops| - 1]);
      match ops[|ops| - 1]
      case Write(d) => prev[..|prev| - 1] + [prev[|prev| - 1] + d]
      case ResetOp => prev + [[]]
  }

  /** The segments together are exactly the bytes written, each once, in order. */
  lemma {:induction false} SegmentsPartitionWritten(ops: seq<Op>)
    ensures Concat(Segments(ops)) == Written(ops)
  {
    if |ops| > 0 {
      var init := ops[..|ops| - 1];
      SegmentsPartitionWritten(init);
      var prev := Segments(init);
      match ops[|ops| - 1]
      case Write(d) =>
        var segs := Segments(ops);
        assert segs[..|segs| - 1] == prev[..|prev| - 1];
        assert prev[..|prev| - 1] + [prev[|prev| - 1]] == prev;
        assert Concat(prev) == Concat(prev[..|prev| - 1]) + prev[|prev| - 1];
      case ResetOp =>
        var segs := Segments(ops);
        assert segs[..|segs| - 1] == prev;
    }
  }

  /** Each buffer handed out by a reset holds exactly the bytes written since the previous
      reset (or creation), later writes never reach it, and the current buffer holds the
      bytes written since the last reset. */
  lemma {:induction false} ResetsHandOutSegments(factory: BufferFactory, ops: seq<Op>)
    ensures Run(New(factory), ops).Ok?
    ensures var st := Run(New(factory), ops).value; var segs := Segments(ops);
      && |st.handedOut| + 1 == |segs|
      && (forall i :: 0 <= i < |st.handedOut| ==> DiskSpilling.Contents(st.handedOut[i].parts) == segs[i])
      && DiskSpilling.Contents(st.buffer.current.parts) == segs[|segs| - 1]
      && !st.buffer.current.closed
      && st.buffer.factory == factory
      && st.buffer.current.format == factory.format
      && st.buffer.current.maxInMemory == factory.maxInMemory
  {
    if |ops| > 0 {
      ResetsHandOutSegments(factory, ops[..|ops| - 1]);
    }
  }

  /** The handed-out buffers followed by the current one hold every written byte exactly once, in order. */
  lemma AllBytesAccountedFor(factory: BufferFactory, ops: seq<Op>)
    ensures Run(New(factory), ops).Ok?
    ensures var st := Run(New(factory), ops).value;
      Concat(Contents(st.handedOut) + [DiskSpilling.Contents(st.buffer.current.parts)]) == Written(ops)
  {
    ResetsHandOutSegments(factory, ops);
    SegmentsPartitionWritten(ops);
    var st := Run(New(factory), ops).value;
    assert Contents(st.handedOut) + [DiskSpilling.Contents(st.buffer.current.parts)] == Segments(ops);
  }

  /** Every read through the slot sees the bytes written since the last reset: `size()` and
      `duration()` answer as an in-memory buffer holding that segment would and the format
      is the factory's; `get()` yields a prefix of the segment and `get(offset, length)` a
      range of that prefix. When the current buffer drains, in particular when the last
      operation wrote a non-empty chunk, `get()` yields the whole segment and every range
      read answers as the in-memory buffer would. */
  lemma ReadsSeeBytesSinceLastReset(factory: BufferFactory, ops: seq<Op>, offsetMs: nat, lengthMs: Option<nat>)
    requires factory.maxInMemory > 0
    ensures Run(New(factory), ops).Ok?
    ensures var st := Run(New(factory), ops).value;
      var segs := Segments(ops);
      var m := InMemoryBuffers.InMemoryBuffer(factory.format, segs[|segs| - 1]);
      && Format(st.buffer) == factory.format
      && Size(st.buffer) == InMemoryBuffers.Size(m)
      && Duration(st.buffer) == InMemoryBuffers.Duration(m)
      && Read(st.buffer).Ok? && Read(st.buffer).value <= segs[|segs| - 1]
      && GetRange(st.buffer, offsetMs, lengthMs)
           == InMemoryBuffers.GetRange(InMemoryBuffers.InMemoryBuffer(factory.format, Read(st.buffer).value), offsetMs, lengthMs)
      && (|ops| > 0 && ops[|ops| - 1].Write? && |ops[|ops| - 1].data| > 0 ==> DiskSpilling.Drains(st.buffer.current.parts))
      && (DiskSpilling.Drains(st.buffer.current.parts) ==>
            Read(st.buffer) == Ok(segs[|segs| - 1])
            && GetRange(st.buffer, offsetMs, lengthMs) == InMemoryBuffers.GetRange(m, offsetMs, lengthMs))
  {
    ResetsHandOutSegments(factory, ops);
    var st := Run(New(factory), ops).value;
    DiskSpilling.GetRangeAgreesWithInMemory(st.buffer.current, offsetMs, lengthMs);
    if |ops| > 0 && ops[|ops| - 1].Write? {
      ResetsHandOutSegments(factory, ops[..|ops| - 1]);
    }
  }

  /** The contents of each buffer in a list. */
  function Contents(bs: seq<DiskSpilling.SpillingBuffer>): (r: seq<PcmData>)
    ensures |r| == |bs|
    ensures forall i :: 0 <= i < |bs| ==> r[i] == DiskSpilling.Contents(bs[i].parts)
  {
    seq(|bs|, i requires 0 <= i < |bs| => DiskSpilling.Contents(bs[i].parts))
  }
}

=== FILE: track_bounds.dfy ===
/** Track boundary detection (splitting/TrackBoundsDetector.kt of the core module).
    A chunk is abstracted to whether it is silent and how long it lasts: the RMS
    threshold test is floating point and not part of the model. */
module TrackBounds {
  import opened Wrappers

  datatype TrackState = TrackStarted | TrackEnded | Silence | Playing

  /** One chunk of captured audio: its silence verdict and its duration in milliseconds. */
  datatype Chunk = Chunk(isSilent: bool, durationMs: nat)

  datatype Detector = Detector(
    minSilenceBetweenTracks: nat,
    lastSoundTime: Option<nat>,
    currentTime: nat,
    isSoundPresent: bool)

  /** A detector that has seen nothing yet. */
  function New(minSilenceBetweenTracks: nat): (d: Detector)
    ensures Valid(d) && d.currentTime == 0 && !d.isSoundPresent
  {
    Detector(minSilenceBetweenTracks, None, 0, false)
  }

  /** What every reachable detector satisfies: sound presence implies a recorded sound time,
      and that time is not in the future. */
  predicate Valid(d: Detector) {
    && (d.isSoundPresent ==> d.lastSoundTime.Some?)
    && (d.lastSoundTime.Some? ==> d.lastSoundTime.value <= d.currentTime)
  }

  datatype Step = Step(detector: Detector, state: TrackState)

  /** Advances the clock by the chunk's duration and classifies the chunk. */
  function Process(d: Detector, c: Chunk): (r: Step)
    ensures r.detector.currentTime == d.currentTime + c.durationMs
    ensures r.detector.minSilenceBetweenTracks == d.minSilenceBetweenTracks
    ensures Valid(d) ==> Valid(r.detector)
    // a sound chunk starts a track unless one is playing, and records the sound time
    ensures !c.isSilent ==>
      && r.detector.isSoundPresent
      && r.detector.lastSoundTime == Some(r.detector.currentTime)
      && (r.state == TrackStarted <==> !d.isSoundPresent)
      && (r.state == Playing <==> d.isSoundPresent)
    // a silent chunk ends a track once the silence is long enough
    ensures c.isSilent ==>
      && r.detector.lastSoundTime == d.lastSoundTime
      && (r.state == TrackEnded <==>
            d.isSoundPresent && d.lastSoundTime.Some?
            && r.detector.currentTime - d.lastSoundTime.value >= d.minSilenceBetweenTracks)
      && (r.state == TrackEnded ==> !r.detector.isSoundPresent)
      && (r.state != TrackEnded ==> r.detector.isSoundPresent == d.isSoundPresent)
      && (r.state == Playing <==> r.detector.isSoundPresent)
      && (r.state == Silence <==> !d.isSoundPresent)
  {
    var now := d.currentTime + c.durationMs;
    var d1 := d.(currentTime := now);
    if c.isSilent then
      if d1.lastSoundTime.Some? && d1.isSoundPresent && now - d1.lastSoundTime.value >= d1.minSilenceBetweenTracks then
        Step(d1.(isSoundPresent := false), TrackEnded)
      else
        Step(d1, if d1.isSoundPresent then Playing else Silence)
    else
      var d2 := d1.(isSoundPresent := true, lastSoundTime := Some(now));
      // The source's final `if (isSoundPresent) PLAYING else SILENCE` always picks PLAYING here.
      if !d.isSoundPresent then Step(d2, TrackStarted)
      else Step(d2, Playing)
  }

  datatype Trace = Trace(detector: Detector, states: seq<TrackState>)

  /** Processes the chunks in order, collecting the state reported for each. */
  function Run(d: Detector, chunks: seq<Chunk>): (r: Trace)
    ensures |r.states| == |chunks|
  {
    if |chunks| == 0 then Trace(d, [])
    else
      var prev := Run(d, chunks[..|chunks| - 1]);
      var step := Process(prev.detector, chunks[|chunks| - 1]);
      Trace(step.detector, prev.states + [step.state])
  }

  function TotalDuration(chunks: seq<Chunk>): nat {
    if |chunks| == 0 then 0 else TotalDuration(chunks[..|chunks| - 1]) + chunks[|chunks| - 1].durationMs
  }

  /** The track boundaries among the reported states, in order. */
  function Boundaries(states: seq<TrackState>): (r: seq<TrackState>)
    ensures |r| <= |states|
  {
    if |states| == 0 then []
    else
      var prev := Boundaries(states[..|states| - 1]);
      var s := states[|states| - 1];
      if s == TrackStarted || s == TrackEnded then prev + [s] else prev
  }

  /** Starts and ends alternate, beginning with a start. */
  predicate Alternating(bounds: seq<TrackState>) {
    forall i :: 0 <= i < |bounds| ==> bounds[i] == if i % 2 == 0 then TrackStarted else TrackEnded
  }

  /** The clock is the sum of all chunk durations, so it never runs backwards; a fresh detector
      stays valid; starts and ends strictly alternate beginning with a start; and sound is
      present exactly when the last boundary was a start. */
  lemma {:induction false} RunInvariants(minSilence: nat, chunks: seq<Chunk>)
    ensures var t := Run(New(minSilence), chunks);
      && t.detector.currentTime == TotalDuration(chunks)
      && Valid(t.detector)
      && Alternating(Boundaries(t.states))
      && (t.detector.isSoundPresent <==> |Boundaries(t.states)| % 2 == 1)
  {
    if |chunks| > 0 {
      RunInvariants(minSilence, chunks[..|chunks| - 1]);
      var prev := Run(New(minSilence), chunks[..|chunks| - 1]);
      var t := Run(New(minSilence), chunks);
      assert t.states[..|t.states| - 1] == prev.states;
    }
  }

  /** The clock only moves forward. */
  lemma {:induction false} ClockMonotone(d: Detector, chunks: seq<Chunk>, k: nat)
    requires k <= |chunks|
    ensures Run(d, chunks[..k]).detector.currentTime <= Run(d, chunks).detector.currentTime
    decreases |chunks|
  {
    if k < |chunks| {
      ClockMonotone(d, chunks[..|chunks| - 1], k);
      assert chunks[..|chunks| - 1][..k] == chunks[..k];
    } else {
      assert chunks[..k] == chunks;
    }
  }

  /** Nothing but silence from a fresh detector reports only silence. */
  lemma {:induction false} AllSilenceIsSilence(minSilence: nat, chunks: seq<Chunk>)
    requires forall i :: 0 <= i < |chunks| ==> chunks[i].isSilent
    ensures var t := Run(New(minSilence), chunks);
      && !t.detector.isSoundPresent
      && forall i :: 0 <= i < |t.states| ==> t.states[i] == Silence
  {
    if |chunks| > 0 {
      AllSilenceIsSilence(minSilence, chunks[..|chunks| - 1]);
    }
  }

  /** Running one more chunk extends the trace by that chunk's step. */
  lemma RunExtend(d: Detector, prefix: seq<Chunk>, c: Chunk)
    ensures var prev := Run(d, prefix); var step := Process(prev.detector, c);
      Run(d, prefix + [c]) == Trace(step.detector, prev.states + [step.state])
  {
    assert (prefix + [c])[..|prefix|] == prefix;
  }

  /** The chunks of the detector test: 4000-byte chunks at 3000 frames per second of 4 bytes
      last 333 ms, the last, shorter one 83 ms. */
  const Quiet := Chunk(true, 333)
  const Tone := Chunk(false, 333)
  const Tail := Chunk(true, 83)

  /** The detector test, first second: two silent chunks, then the tone starts a track. */
  lemma TestScenarioStart()
    ensures Run(New(100), [Quiet, Quiet, Tone])
      == Trace(Detector(100, Some(999), 999, true), [Silence, Silence, TrackStarted])
  {
    var d := New(100);
    RunExtend(d, [], Quiet);
    assert [] + [Quiet] == [Quiet];
    RunExtend(d, [Quiet], Quiet);
    assert [Quiet] + [Quiet] == [Quiet, Quiet];
    RunExtend(d, [Quiet, Quiet], Tone);
    assert [Quiet, Quiet] + [Tone] == [Quiet, Quiet, Tone];
  }

  /** The detector test, second second: the tone plays on. */
  lemma TestScenarioTone()
    ensures Run(New(100), [Quiet, Quiet, Tone, Tone, Tone, Tone])
      == Trace(Detector(100, Some(1998), 1998, true), [Silence, Silence, TrackStarted, Playing, Playing, Playing])
  {
    var d := New(100);
    TestScenarioStart();
    RunExtend(d, [Quiet, Quiet, Tone], Tone);
    assert [Quiet, Quiet, Tone] + [Tone] == [Quiet, Quiet, Tone, Tone];
    RunExtend(d, [Quiet, Quiet, Tone, Tone], Tone);
    assert [Quiet, Quiet, Tone, Tone] + [Tone] == [Quiet, Quiet, Tone, Tone, Tone];
    RunExtend(d, [Quiet, Quiet, Tone, Tone, Tone], Tone);
    assert [Quiet, Quiet, Tone, Tone, Tone] + [Tone] == [Quiet, Quiet, Tone, Tone, Tone, Tone];
  }

  /** The detector test: 100 ms minimum silence, 750 ms silence, 1 s tone, 1 s silence. The
      first silent chunk after the tone ends the track; the rest is silence. */
  lemma TestScenario()
    ensures Run(New(100), [Quiet, Quiet, Tone, Tone, Tone, Tone, Quiet, Quiet, Tail]).states
      == [Silence, Silence, TrackStarted, Playing, Playing, Playing, TrackEnded, Silence, Silence]
  {
    var d := New(100);
    var six := [Quiet, Quiet, Tone, Tone, Tone, Tone];
    TestScenarioTone();
    RunExtend(d, six, Quiet);
    RunExtend(d, six + [Quiet], Quiet);
    RunExtend(d, six + [Quiet] + [Quiet], Tail);
    assert six + [Quiet] + [Quiet] + [Tail] == [Quiet, Quiet, Tone, Tone, Tone, Tone, Quiet, Quiet, Tail];
  }

}

=== FILE: track_data.dfy ===
/** Track metadata (model/TrackData.kt of the core module) and its right-biased merge. */
module Tracks {
  import opened Wrappers

  /** Every field is nullable; list fields hold nullable strings as in the source. */
  datatype TrackData = TrackData(
    title: Option<string>,
    artist: Option<string>,
    album: Option<string>,
    labels: Option<seq<Option<string>>>,
    genres: Option<seq<Option<string>>>,
    releaseYear: Option<string>,
    coverartImageUrl: Option<string>,
    backgroundImageUrl: Option<string>,
    lyrics: Option<seq<Option<string>>>,
    lengthMillis: Option<int>)

  /** `TrackData()`: every field null. */
  const Empty := TrackData(None, None, None, None, None, None, None, None, None, None)

  /** Names of the ten fields, to talk about which of them are set. */
  datatype Field =
    | Title | Artist | Album | Labels | Genres | ReleaseYear
    | CoverartImageUrl | BackgroundImageUrl | Lyrics | LengthMillis

  /** Whether field `f` of `t` is non-null. */
  predicate IsSet(t: TrackData, f: Field) {
    match f
    case Title => t.title.Some?
    case Artist => t.artist.Some?
    case Album => t.album.Some?
    case Labels => t.labels.Some?
    case Genres => t.genres.Some?
    case ReleaseYear => t.releaseYear.Some?
    case CoverartImageUrl => t.coverartImageUrl.Some?
    case BackgroundImageUrl => t.backgroundImageUrl.Some?
    case Lyrics => t.lyrics.Some?
    case LengthMillis => t.lengthMillis.Some?
  }

  /** The non-null fields of `t`. */
  function SetFields(t: TrackData): set<Field> {
    set f: Field | f in {Title, Artist, Album, Labels, Genres, ReleaseYear,
                         CoverartImageUrl, BackgroundImageUrl, Lyrics, LengthMillis} && IsSet(t, f)
  }

  /** The value of one field, whatever its type. */
  datatype FieldValue =
    | Text(text: Option<string>)
    | TextList(list: Option<seq<Option<string>>>)
    | Number(number: Option<int>)

  function Get(t: TrackData, f: Field): FieldValue {
    match f
    case Title => Text(t.title)
    case Artist => Text(t.artist)
    case Album => Text(t.album)
    case Labels => TextList(t.labels)
    case Genres => TextList(t.genres)
    case ReleaseYear => Text(t.releaseYear)
    case CoverartImageUrl => Text(t.coverartImageUrl)
    case BackgroundImageUrl => Text(t.backgroundImageUrl)
    case Lyrics => TextList(t.lyrics)
    case LengthMillis => Number(t.lengthMillis)
  }

  /** Two records with the same value in every field are equal. */
  lemma FieldwiseEqual(a: TrackData, b: TrackData)
    requires forall f: Field :: Get(a, f) == Get(b, f)
    ensures a == b
  {
    assert Get(a, Title) == Get(b, Title);
    assert Get(a, Artist) == Get(b, Artist);
    assert Get(a, Album) == Get(b, Album);
    assert Get(a, Labels) == Get(b, Labels);
    assert Get(a, Genres) == Get(b, Genres);
    assert Get(a, ReleaseYear) == Get(b, ReleaseYear);
    assert Get(a, CoverartImageUrl) == Get(b, CoverartImageUrl);
    assert Get(a, BackgroundImageUrl) == Get(b, BackgroundImageUrl);
    assert Get(a, Lyrics) == Get(b, Lyrics);
    assert Get(a, LengthMillis) == Get(b, LengthMillis);
  }

  /** Kotlin's `preferred ?: fallback`. */
  function Or<T>(preferred: Option<T>, fallback: Option<T>): Option<T> {
    if preferred.Some? then preferred else fallback
  }

  /** `t.merge(other)`: every field that `other` sets is taken from `other`, every other
      field from `t`. List fields are taken whole from one side, never concatenated. */
  function Merge(t: TrackData, other: TrackData): (r: TrackData)
    ensures forall f: Field :: Get(r, f) == if IsSet(other, f) then Get(other, f) else Get(t, f)
  {
    TrackData(
      Or(other.title, t.title),
      Or(other.artist, t.artist),
      Or(other.album, t.album),
      Or(other.labels, t.labels),
      Or(other.genres, t.genres),
      Or(other.releaseYear, t.releaseYear),
      Or(other.coverartImageUrl, t.coverartImageUrl),
      Or(other.backgroundImageUrl, t.backgroundImageUrl),
      Or(other.lyrics, t.lyrics),
      Or(other.lengthMillis, t.lengthMillis))
  }

  /** The all-null record is a left and right identity of merge. */
  lemma MergeIdentity(t: TrackData)
    ensures Merge(Empty, t) == t
    ensures Merge(t, Empty) == t
  {
  }

  lemma MergeIdempotent(t: TrackData)
    ensures Merge(t, t) == t
  {
  }

  lemma MergeAssociative(a: TrackData, b: TrackData, c: TrackData)
    ensures Merge(Merge(a, b), c) == Merge(a, Merge(b, c))
  {
  }

  /** A merge has exactly the fields set that either input has set. */
  lemma MergeSetFields(a: TrackData, b: TrackData)
    ensures SetFields(Merge(a, b)) == SetFields(a) + SetFields(b)
  {
    forall f: Field
      ensures IsSet(Merge(a, b), f) <==> IsSet(a, f) || IsSet(b, f)
    {
    }
  }

  /** A field set on the right is taken from the right, whole: a set list is never extended. */
  lemma MergeReplacesLists(a: TrackData, b: TrackData)
    requires b.labels.Some? && b.genres.Some? && b.lyrics.Some?
    ensures Merge(a, b).labels == b.labels
    ensures Merge(a, b).genres == b.genres
    ensures Merge(a, b).lyrics == b.lyrics
  {
  }

  /** Merging the right operand in again, on either side, adds nothing. */
  lemma MergeAbsorbs(a: TrackData, b: TrackData)
    ensures Merge(Merge(a, b), b) == Merge(a, b)
    ensures Merge(b, Merge(a, b)) == Merge(a, b)
  {
  }
}

=== FILE: track_recognizer.dfy ===
/** Retrying track recognition (core/recognition/TrackRecognizer.kt of the application
    module). Delays and futures are abstracted away: one call of `Recognize` follows the
    whole chain of rescheduled attempts to the value its future completes with. The live
    buffer is read anew on every attempt, so the audio provider is a function of the
    attempt number; the recognition service is a function of the sample, its format and
    the earlier samples. */
module Recognition {
  import opened Wrappers
  import opened AudioFormats
  import opened Pcm
  import opened Tracks
  import DiskSpilling

  /** What `recognizeTrackInternal` does on one attempt. */
  datatype Attempt = Found(track: TrackData) | NotFound | IOError

  /** How the future of `recognizeTrack` completes. */
  datatype Outcome =
    | Recognized(track: TrackData)    // completed with a track
    | GaveUp                          // completed with null
    | Failed(reason: string)          // completed exceptionally

  /** The outcome and the number of attempts that reached the recognition service. */
  datatype Run = Run(outcome: Outcome, attempts: nat)

  datatype Recognizer = Recognizer(
    sampleDurationMs: nat,
    maxRetriesForRecognition: int,
    postprocessors: seq<TrackData -> TrackData>,
    service: (PcmData, AudioFormat, seq<PcmData>) -> Attempt)

  /** The last `sampleDuration` of the buffer, or all of it when it is shorter. */
  function TakeSample(sampleDurationMs: nat, buffer: DiskSpilling.SpillingBuffer): (r: Result<PcmData>)
    ensures r.Ok? <==> DiskSpilling.Duration(buffer).Ok? && DiskSpilling.Read(buffer).Ok?
    ensures r.Ok? ==>
      var time := DiskSpilling.Duration(buffer).value;
      var start := if sampleDurationMs > time then 0 else time - sampleDurationMs;
      r == DiskSpilling.GetRange(buffer, start, Some(sampleDurationMs))
  {
    var time :- DiskSpilling.Duration(buffer);
    var start := if sampleDurationMs > time then 0 else time - sampleDurationMs;
    DiskSpilling.GetRange(buffer, start, Some(sampleDurationMs))
  }

  /** A buffer shorter than the sample duration is sampled from the start of what its stream
      yields, through every whole frame the buffer holds that the stream reaches; when the
      buffer drains that is every whole frame it holds. */
  lemma ShortBufferSampledWhole(sampleDurationMs: nat, buffer: DiskSpilling.SpillingBuffer)
    requires Resolvable(buffer.format) && DiskSpilling.Read(buffer).Ok?
    requires DiskSpilling.Duration(buffer).value < sampleDurationMs
    ensures var r := TakeSample(sampleDurationMs, buffer); var s := DiskSpilling.Read(buffer).value;
      var all := DiskSpilling.Contents(buffer.parts);
      var whole := |all| / EffectiveFrameSize(buffer.format).value * EffectiveFrameSize(buffer.format).value;
      && r.Ok? && r.value <= s
      && |r.value| >= Min(|s|, whole)
      && (DiskSpilling.Drains(buffer.parts) ==> r.value <= all && |r.value| >= whole)
  {
    var s := DiskSpilling.Read(buffer).value;
    var all := DiskSpilling.Contents(buffer.parts);
    var size := EffectiveFrameSize(buffer.format).value;
    assert DurationToByteCount(buffer.format, 0).value == 0;
    assert |all| / size * size <= DurationToByteCount(buffer.format, sampleDurationMs).value by {
      SampleCoversWholeFrames(sampleDurationMs, buffer);
    }
    var r := TakeSample(sampleDurationMs, buffer).value;
    assert r == s[..|r|];
  }

  /** The byte count of the sample duration reaches past every whole frame of a shorter buffer. */
  lemma SampleCoversWholeFrames(sampleDurationMs: nat, buffer: DiskSpilling.SpillingBuffer)
    requires Resolvable(buffer.format)
    requires DiskSpilling.Duration(buffer).value < sampleDurationMs
    ensures var size := EffectiveFrameSize(buffer.format).value;
      |DiskSpilling.Contents(buffer.parts)| / size * size <= DurationToByteCount(buffer.format, sampleDurationMs).value
  {
    var all := DiskSpilling.Contents(buffer.parts);
    var rate := EffectiveFrameRate(buffer.format).value;
    var size := EffectiveFrameSize(buffer.format).value;
    var frames := |all| / size;
    var n := DurationToFrameCount(buffer.format, sampleDurationMs).value;
    var d := DiskSpilling.Duration(buffer).value;
    assert frames * 1000 < (d + 1) * rate;
    assert (d + 1) * rate <= sampleDurationMs * rate by {
      MulLe(d + 1, sampleDurationMs, rate);
    }
    assert sampleDurationMs * rate < (n + 1) * 1000;
    assert frames < n + 1 by {
      MulLtCancel(frames, n + 1, 1000);
    }
    MulLe(frames, n, size);
  }

  /** Applies the postprocessors in list order, each to the previous one's output. */
  function Postprocess(ps: seq<TrackData -> TrackData>, track: TrackData): TrackData {
    if |ps| == 0 then track else ps[|ps| - 1](Postprocess(ps[..|ps| - 1], track))
  }

  /** What attempt `i` reads: the sample of the buffer the provider gives it. */
  function Samples(rec: Recognizer, provider: nat -> DiskSpilling.SpillingBuffer): nat -> Result<PcmData> {
    (i: nat) => TakeSample(rec.sampleDurationMs, provider(i))
  }

  /** The format of the buffer attempt `i` reads. */
  function Formats(provider: nat -> DiskSpilling.SpillingBuffer): nat -> AudioFormat {
    (i: nat) => provider(i).format
  }

  /** The chain of attempts over what each attempt reads: `samples(i)` is the sample attempt `i`
      takes (or the error taking it throws) and `formats(i)` the format of its buffer. */
  function Chain(rec: Recognizer, samples: nat -> Result<PcmData>, formats: nat -> AudioFormat, previous: seq<PcmData>): Run
    decreases rec.maxRetriesForRecognition - |previous|
  {
    if !(|previous| + 1 < rec.maxRetriesForRecognition) then Run(Failed("Maximum retries reached unexpectedly."), 0)
    else
      match samples(|previous|)
      case Err(msg) => Run(Failed(msg), 0)
      case Ok(sample) =>
        match rec.service(sample, formats(|previous|), previous)
        case IOError => Run(Failed("IOException"), 1)
        case Found(track) => Run(Recognized(Postprocess(rec.postprocessors, track)), 1)
        case NotFound =>
          var retries := |previous| + 1;
          if retries == rec.maxRetriesForRecognition then Run(GaveUp, 1)
          else
            var next := Chain(rec, samples, formats, previous + [sample]);
            Run(next.outcome, next.attempts + 1)
  }

  /** One attempt of `recognizeTrack(audioProvider, previousSamples)` and every attempt it reschedules. */
  function Recognize(rec: Recognizer, provider: nat -> DiskSpilling.SpillingBuffer, previous: seq<PcmData>): Run {
    Chain(rec, Samples(rec, provider), Formats(provider), previous)
  }

  /** `recognizeTrack(audioProvider)`: the chain starts with no earlier samples. */
  function RecognizeTrack(rec: Recognizer, provider: nat -> DiskSpilling.SpillingBuffer): Run {
    Recognize(rec, provider, [])
  }

  /** Every attempt can take its sample. */
  ghost predicate Available(samples: nat -> Result<PcmData>) {
    forall i: nat :: samples(i).Ok?
  }

  /** The recognition service never finds the track. */
  ghost predicate NeverFound(rec: Recognizer) {
    forall s: PcmData, f: AudioFormat, p: seq<PcmData> :: rec.service(s, f, p) == NotFound
  }

  /** The samples of attempts 0 .. k-1, in order. */
  function SamplesUpTo(samples: nat -> Result<PcmData>, k: nat): (r: seq<PcmData>)
    requires Available(samples)
    ensures |r| == k
    ensures forall i :: 0 <= i < k ==> Ok(r[i]) == samples(i)
  {
    if k == 0 then [] else SamplesUpTo(samples, k - 1) + [samples(k - 1).value]
  }

  /** Two sources that agree on every attempt give the same chain. */
  lemma {:induction false} ChainCongruent(rec: Recognizer, s1: nat -> Result<PcmData>, f1: nat -> AudioFormat,
                                          s2: nat -> Result<PcmData>, f2: nat -> AudioFormat, previous: seq<PcmData>)
    requires forall i: nat :: s1(i) == s2(i) && f1(i) == f2(i)
    ensures Chain(rec, s1, f1, previous) == Chain(rec, s2, f2, previous)
    decreases rec.maxRetriesForRecognition - |previous|
  {
    if |previous| + 1 < rec.maxRetriesForRecognition {
      var i := |previous|;
      assert s1(i) == s2(i) && f1(i) == f2(i);
      if s1(i).Ok? {
        ChainCongruent(rec, s1, f1, s2, f2, previous + [s1(i).value]);
      }
    }
  }

  // ---------------------------------------------------------------------------
  // Properties of the chain as written
  // ---------------------------------------------------------------------------

  /** With at most one retry allowed, the very first check fails before anything is read. */
  lemma SmallMaxFailsAtOnce(rec: Recognizer, samples: nat -> Result<PcmData>, formats: nat -> AudioFormat)
    requires rec.maxRetriesForRecognition <= 1
    ensures Chain(rec, samples, formats, []) == Run(Failed("Maximum retries reached unexpectedly."), 0)
  {
  }

  /** A sample that cannot be taken fails the recognition before the service is called. */
  lemma SampleErrorFailsAtOnce(rec: Recognizer, samples: nat -> Result<PcmData>, formats: nat -> AudioFormat)
    requires rec.maxRetriesForRecognition >= 2
    requires samples(0).Err?
    ensures Chain(rec, samples, formats, []) == Run(Failed(samples(0).msg), 0)
  {
  }

  /** An I/O error on the first attempt fails the recognition without a retry. */
  lemma IOErrorFailsWithoutRetry(rec: Recognizer, samples: nat -> Result<PcmData>, formats: nat -> AudioFormat)
    requires rec.maxRetriesForRecognition >= 2
    requires samples(0).Ok?
    requires rec.service(samples(0).value, formats(0), []) == IOError
    ensures Chain(rec, samples, formats, []) == Run(Failed("IOException"), 1)
  {
  }

  /** A found track is postprocessed once, by every postprocessor in list order, and delivered. */
  lemma FoundIsPostprocessed(rec: Recognizer, samples: nat -> Result<PcmData>, formats: nat -> AudioFormat, t: TrackData)
    requires rec.maxRetriesForRecognition >= 2
    requires samples(0).Ok?
    requires rec.service(samples(0).value, formats(0), []) == Found(t)
    ensures Chain(rec, samples, formats, []) == Run(Recognized(Postprocess(rec.postprocessors, t)), 1)
  {
  }

  /** The fold applies the first postprocessor first. */
  lemma {:induction false} PostprocessFirstFirst(p: TrackData -> TrackData, ps: seq<TrackData -> TrackData>, t: TrackData)
    ensures Postprocess([p] + ps, t) == Postprocess(ps, p(t))
    decreases |ps|
  {
    if |ps| > 0 {
      assert ([p] + ps)[..|ps|] == [p] + ps[..|ps| - 1];
      PostprocessFirstFirst(p, ps[..|ps| - 1], t);
    } else {
      assert ([p] + ps)[..0] == [];
    }
  }

  /** An attempt that finds nothing, below the last one, hands on to the next attempt with
      exactly its own sample appended to the earlier ones. */
  lemma {:induction false} NotFoundRetries(rec: Recognizer, samples: nat -> Result<PcmData>, formats: nat -> AudioFormat, previous: seq<PcmData>)
    requires |previous| + 2 < rec.maxRetriesForRecognition
    requires samples(|previous|).Ok?
    requires rec.service(samples(|previous|).value, formats(|previous|), previous) == NotFound
    ensures var next := Chain(rec, samples, formats, previous + [samples(|previous|).value]);
      Chain(rec, samples, formats, previous) == Run(next.outcome, next.attempts + 1)
  {
  }

  /** While the track is not found, attempt `k` is made with exactly the samples of attempts
      0 .. k-1, in order, as its earlier samples. */
  lemma {:induction false} AttemptSeesEarlierSamples(rec: Recognizer, samples: nat -> Result<PcmData>, formats: nat -> AudioFormat, k: nat)
    requires Available(samples) && NeverFound(rec)
    requires k + 1 < rec.maxRetriesForRecognition
    ensures var later := Chain(rec, samples, formats, SamplesUpTo(samples, k));
      Chain(rec, samples, formats, []) == Run(later.outcome, later.attempts + k)
  {
    assert SamplesUpTo(samples, 0) == [];
    ChainReaches(rec, samples, formats, 0, k);
  }

  /** From attempt `j` on, the chain runs on to attempt `k` (j <= k) and counts the attempts in between. */
  lemma {:induction false} ChainReaches(rec: Recognizer, samples: nat -> Result<PcmData>, formats: nat -> AudioFormat, j: nat, k: nat)
    requires Available(samples) && NeverFound(rec)
    requires j <= k && k + 1 < rec.maxRetriesForRecognition
    ensures var later := Chain(rec, samples, formats, SamplesUpTo(samples, k));
      Chain(rec, samples, formats, SamplesUpTo(samples, j)) == Run(later.outcome, later.attempts + k - j)
    decreases k - j
  {
    if j < k {
      var prev := SamplesUpTo(samples, j);
      assert samples(j).Ok?;
      assert rec.service(samples(j).value, formats(j), prev) == NotFound;
      NotFoundRetries(rec, samples, formats, prev);
      assert SamplesUpTo(samples, j + 1) == prev + [samples(j).value];
      ChainReaches(rec, samples, formats, j + 1, k);
    }
  }

  /** The give-up branch can never be taken: whenever the check passes, `retries` is below the
      maximum, so `retries == maxRetriesForRecognition` never holds. */
  lemma {:induction false} NeverGivesUp(rec: Recognizer, samples: nat -> Result<PcmData>, formats: nat -> AudioFormat, previous: seq<PcmData>)
    ensures Chain(rec, samples, formats, previous).outcome != GaveUp
    decreases rec.maxRetriesForRecognition - |previous|
  {
    if |previous| + 1 < rec.maxRetriesForRecognition && samples(|previous|).Ok? {
      NeverGivesUp(rec, samples, formats, previous + [samples(|previous|).value]);
    }
  }

  /** When the track is never found, the chain makes max - 1 attempts and then fails the check
      instead of completing with null. */
  lemma {:induction false} ExhaustionFailsTheCheck(rec: Recognizer, samples: nat -> Result<PcmData>, formats: nat -> AudioFormat, previous: seq<PcmData>)
    requires Available(samples) && NeverFound(rec)
    requires |previous| < rec.maxRetriesForRecognition
    ensures Chain(rec, samples, formats, previous)
      == Run(Failed("Maximum retries reached unexpectedly."), rec.maxRetriesForRecognition - 1 - |previous|)
    decreases rec.maxRetriesForRecognition - |previous|
  {
    if |previous| + 1 < rec.maxRetriesForRecognition {
      var i := |previous|;
      assert samples(i).Ok?;
      assert rec.service(samples(i).value, formats(i), previous) == NotFound;
      ExhaustionFailsTheCheck(rec, samples, formats, previous + [samples(i).value]);
    }
  }

  /** Concretely, on the live buffers: three retries allowed, every sample available, nothing
      ever found: two attempts, then a failure. */
  lemma ExhaustionExample(rec: Recognizer, provider: nat -> DiskSpilling.SpillingBuffer)
    requires Available(Samples(rec, provider)) && NeverFound(rec)
    requires rec.maxRetriesForRecognition == 3
    ensures RecognizeTrack(rec, provider) == Run(Failed("Maximum retries reached unexpectedly."), 2)
  {
    ExhaustionFailsTheCheck(rec, Samples(rec, provider), Formats(provider), []);
  }

  // ---------------------------------------------------------------------------
  // The chain with the evidently intended check
  // ---------------------------------------------------------------------------

  /** As `Chain`, with the check `previousSamples.size < maxRetriesForRecognition`: up to
      `maxRetriesForRecognition` attempts, then completion with null. */
  function ChainFixed(rec: Recognizer, samples: nat -> Result<PcmData>, formats: nat -> AudioFormat, previous: seq<PcmData>): Run
    decreases rec.maxRetriesForRecognition - |previous|
  {
    if !(|previous| < rec.maxRetriesForRecognition) then Run(Failed("Maximum retries reached unexpectedly."), 0)
    else
      match samples(|previous|)
      case Err(msg) => Run(Failed(msg), 0)
      case Ok(sample) =>
        match rec.service(sample, formats(|previous|), previous)
        case IOError => Run(Failed("IOException"), 1)
        case Found(track) => Run(Recognized(Postprocess(rec.postprocessors, track)), 1)
        case NotFound =>
          var retries := |previous| + 1;
          if retries == rec.maxRetriesForRecognition then Run(GaveUp, 1)
          else
            var next := ChainFixed(rec, samples, formats, previous + [sample]);
            Run(next.outcome, next.attempts + 1)
  }

  function RecognizeTrackFixed(rec: Recognizer, provider: nat -> DiskSpilling.SpillingBuffer): Run {
    ChainFixed(rec, Samples(rec, provider), Formats(provider), [])
  }

  /** With the intended check, a track that is never found is given up on, with null, after
      exactly the remaining number of attempts; the check itself never fails on the way. */
  lemma {:induction false} FixedExhaustionGivesUp(rec: Recognizer, samples: nat -> Result<PcmData>, formats: nat -> AudioFormat, previous: seq<PcmData>)
    requires Available(samples) && NeverFound(rec)
    requires |previous| < rec.maxRetriesForRecognition
    ensures ChainFixed(rec, samples, formats, previous) == Run(GaveUp, rec.maxRetriesForRecognition - |previous|)
    decreases rec.maxRetriesForRecognition - |previous|
  {
    var i := |previous|;
    assert samples(i).Ok?;
    assert rec.service(samples(i).value, formats(i), previous) == NotFound;
    if |previous| + 1 < rec.maxRetriesForRecognition {
      FixedExhaustionGivesUp(rec, samples, formats, previous + [samples(i).value]);
    }
  }

  /** From the start, on the live buffers, with a positive maximum as the settings demand:
      `maxRetriesForRecognition` attempts, then null. */
  lemma FixedMakesMaxAttempts(rec: Recognizer, provider: nat -> DiskSpilling.SpillingBuffer)
    requires Available(Samples(rec, provider)) && NeverFound(rec)
    requires rec.maxRetriesForRecognition > 0
    ensures RecognizeTrackFixed(rec, provider) == Run(GaveUp, rec.maxRetriesForRecognition)
  {
    FixedExhaustionGivesUp(rec, Samples(rec, provider), Formats(provider), []);
  }

  /** The fix changes nothing but the last attempt: while fewer than max - 1 attempts have
      been made, both chains take the same step. */
  lemma FixedAgreesBeforeTheLastAttempt(rec: Recognizer, samples: nat -> Result<PcmData>, formats: nat -> AudioFormat, previous: seq<PcmData>)
    requires |previous| + 2 < rec.maxRetriesForRecognition
    requires samples(|previous|).Ok?
    requires rec.service(samples(|previous|).value, formats(|previous|), previous) != NotFound
    ensures ChainFixed(rec, samples, formats, previous) == Chain(rec, samples, formats, previous)
  {
  }


  /** What the capture receives from a completed chain: the track, or null on give-up.
      A failed future never runs the capture's callback. */
  function Delivered(o: Outcome): (r: Option<Option<TrackData>>)
    ensures r.Some? <==> !o.Failed?
    ensures r == Some(None) <==> o == GaveUp
  {
    match o
    case Recognized(t) => Some(Some(t))
    case GaveUp => Some(None)
    case Failed(_) => None
  }
}

=== FILE: track_recognizer_legacy.dfy ===
/** The older retrying track recognition (recognition/TrackRecognizer.kt of the core module):
    the same chain of attempts as the current revision, over the core module's buffer
    interface, with no postprocessors: a found track is delivered as the service returned it. */
module LegacyRecognition {
  import opened Wrappers
  import opened AudioFormats
  import Pcm
  import opened Tracks
  import opened LegacyAudioBuffers
  import Recognition
  import DiskSpilling
  import LegacyDiskSpilling

  datatype Recognizer = Recognizer(
    sampleDurationMs: nat,
    maxRetriesForRecognition: int,
    service: (Pcm.PcmData, AudioFormat, seq<Pcm.PcmData>) -> Recognition.Attempt)

  /** The window starting at max(0, duration - sampleDuration), `sampleDuration` long. */
  function TakeSample(sampleDurationMs: nat, buffer: AudioBuffer): (r: Result<Pcm.PcmData>)
    ensures r.Ok? <==> Duration(buffer).Ok? && Read(buffer).Ok?
    ensures r.Ok? ==>
      var time := Duration(buffer).value;
      var start := if sampleDurationMs > time then 0 else time - sampleDurationMs;
      r == GetRange(buffer, start, Some(sampleDurationMs))
  {
    var time :- Duration(buffer);
    var start := if sampleDurationMs > time then 0 else time - sampleDurationMs;
    GetRange(buffer, start, Some(sampleDurationMs))
  }

  /** What attempt `i` reads: the window of the buffer the provider gives it. */
  function Samples(rec: Recognizer, provider: nat -> AudioBuffer): nat -> Result<Pcm.PcmData> {
    (i: nat) => TakeSample(rec.sampleDurationMs, provider(i))
  }

  /** The format of the buffer attempt `i` reads. */
  function Formats(provider: nat -> AudioBuffer): nat -> AudioFormat {
    (i: nat) => Format(provider(i))
  }

  /** The chain of attempts over what each attempt reads; a found track is delivered as is. */
  function Chain(rec: Recognizer, samples: nat -> Result<Pcm.PcmData>, formats: nat -> AudioFormat,
                 previous: seq<Pcm.PcmData>): Recognition.Run
    decreases rec.maxRetriesForRecognition - |previous|
  {
    if !(|previous| + 1 < rec.maxRetriesForRecognition) then
      Recognition.Run(Recognition.Failed("Maximum retries reached unexpectedly."), 0)
    else
      match samples(|previous|)
      case Err(msg) => Recognition.Run(Recognition.Failed(msg), 0)
      case Ok(sample) =>
        match rec.service(sample, formats(|previous|), previous)
        case IOError => Recognition.Run(Recognition.Failed("IOException"), 1)
        case Found(track) => Recognition.Run(Recognition.Recognized(track), 1)
        case NotFound =>
          var retries := |previous| + 1;
          if retries == rec.maxRetriesForRecognition then Recognition.Run(Recognition.GaveUp, 1)
          else
            var next := Chain(rec, samples, formats, previous + [sample]);
            Recognition.Run(next.outcome, next.attempts + 1)
  }

  /** One attempt of `recognizeTrack(audioProvider, previousSamples)` and every attempt it reschedules. */
  function Recognize(rec: Recognizer, provider: nat -> AudioBuffer, previous: seq<Pcm.PcmData>): Recognition.Run {
    Chain(rec, Samples(rec, provider), Formats(provider), previous)
  }

  function RecognizeTrack(rec: Recognizer, provider: nat -> AudioBuffer): Recognition.Run {
    Recognize(rec, provider, [])
  }

  ghost predicate NeverFound(rec: Recognizer) {
    forall s: Pcm.PcmData, f: AudioFormat, p: seq<Pcm.PcmData> :: rec.service(s, f, p) == Recognition.NotFound
  }

  /** The window of an in-memory buffer is always available when its format resolves. */
  lemma MemorySampleAvailable(sampleDurationMs: nat, b: InMemoryBuffers.InMemoryBuffer)
    requires Resolvable(b.format)
    ensures TakeSample(sampleDurationMs, Memory(b)).Ok?
  {
  }

  /** At most one retry allowed: the first check fails before anything is read. */
  lemma SmallMaxFailsAtOnce(rec: Recognizer, samples: nat -> Result<Pcm.PcmData>, formats: nat -> AudioFormat)
    requires rec.maxRetriesForRecognition <= 1
    ensures Chain(rec, samples, formats, []) == Recognition.Run(Recognition.Failed("Maximum retries reached unexpectedly."), 0)
  {
  }

  /** An I/O error on the first attempt fails the recognition without a retry. */
  lemma IOErrorFailsWithoutRetry(rec: Recognizer, samples: nat -> Result<Pcm.PcmData>, formats: nat -> AudioFormat)
    requires rec.maxRetriesForRecognition >= 2
    requires samples(0).Ok?
    requires rec.service(samples(0).value, formats(0), []) == Recognition.IOError
    ensures Chain(rec, samples, formats, []) == Recognition.Run(Recognition.Failed("IOException"), 1)
  {
  }

  /** A found track is delivered exactly as the service returned it. */
  lemma FoundIsDeliveredUnchanged(rec: Recognizer, samples: nat -> Result<Pcm.PcmData>, formats: nat -> AudioFormat, t: TrackData)
    requires rec.maxRetriesForRecognition >= 2
    requires samples(0).Ok?
    requires rec.service(samples(0).value, formats(0), []) == Recognition.Found(t)
    ensures Chain(rec, samples, formats, []) == Recognition.Run(Recognition.Recognized(t), 1)
  {
  }

  /** A retry passes exactly the samples taken so far, extended by the one just taken. */
  lemma {:induction false} RetryExtendsSamples(rec: Recognizer, samples: nat -> Result<Pcm.PcmData>, formats: nat -> AudioFormat,
                                               previous: seq<Pcm.PcmData>)
    requires |previous| + 2 < rec.maxRetriesForRecognition
    requires samples(|previous|).Ok?
    requires rec.service(samples(|previous|).value, formats(|previous|), previous) == Recognition.NotFound
    ensures var next := Chain(rec, samples, formats, previous + [samples(|previous|).value]);
      Chain(rec, samples, formats, previous) == Recognition.Run(next.outcome, next.attempts + 1)
  {
  }

  /** The give-up branch is unreachable here too. */
  lemma {:induction false} NeverGivesUp(rec: Recognizer, samples: nat -> Result<Pcm.PcmData>, formats: nat -> AudioFormat,
                                        previous: seq<Pcm.PcmData>)
    ensures Chain(rec, samples, formats, previous).outcome != Recognition.GaveUp
    decreases rec.maxRetriesForRecognition - |previous|
  {
    if |previous| + 1 < rec.maxRetriesForRecognition && samples(|previous|).Ok? {
      NeverGivesUp(rec, samples, formats, previous + [samples(|previous|).value]);
    }
  }

  /** A track that is never found ends in the failed check after max - 1 attempts. */
  lemma {:induction false} ExhaustionFailsTheCheck(rec: Recognizer, samples: nat -> Result<Pcm.PcmData>, formats: nat -> AudioFormat,
                                                   previous: seq<Pcm.PcmData>)
    requires Recognition.Available(samples) && NeverFound(rec)
    requires |previous| < rec.maxRetriesForRecognition
    ensures Chain(rec, samples, formats, previous)
      == Recognition.Run(Recognition.Failed("Maximum retries reached unexpectedly."), rec.maxRetriesForRecognition - 1 - |previous|)
    decreases rec.maxRetriesForRecognition - |previous|
  {
    if |previous| + 1 < rec.maxRetriesForRecognition {
      var i := |previous|;
      assert samples(i).Ok?;
      assert rec.service(samples(i).value, formats(i), previous) == Recognition.NotFound;
      ExhaustionFailsTheCheck(rec, samples, formats, previous + [samples(i).value]);
    }
  }

  /** As `Chain`, with the check `previousSamples.size < maxRetriesForRecognition`. */
  function ChainFixed(rec: Recognizer, samples: nat -> Result<Pcm.PcmData>, formats: nat -> AudioFormat,
                      previous: seq<Pcm.PcmData>): Recognition.Run
    decreases rec.maxRetriesForRecognition - |previous|
  {
    if !(|previous| < rec.maxRetriesForRecognition) then
      Recognition.Run(Recognition.Failed("Maximum retries reached unexpectedly."), 0)
    else
      match samples(|previous|)
      case Err(msg) => Recognition.Run(Recognition.Failed(msg), 0)
      case Ok(sample) =>
        match rec.service(sample, formats(|previous|), previous)
        case IOError => Recognition.Run(Recognition.Failed("IOException"), 1)
        case Found(track) => Recognition.Run(Recognition.Recognized(track), 1)
        case NotFound =>
          var retries := |previous| + 1;
          if retries == rec.maxRetriesForRecognition then Recognition.Run(Recognition.GaveUp, 1)
          else
            var next := ChainFixed(rec, samples, formats, previous + [sample]);
            Recognition.Run(next.outcome, next.attempts + 1)
  }

  /** With the intended check, a track never found is given up on, with null, after the remaining attempts. */
  lemma {:induction false} FixedExhaustionGivesUp(rec: Recognizer, samples: nat -> Result<Pcm.PcmData>, formats: nat -> AudioFormat,
                                                  previous: seq<Pcm.PcmData>)
    requires Recognition.Available(samples) && NeverFound(rec)
    requires |previous| < rec.maxRetriesForRecognition
    ensures ChainFixed(rec, samples, formats, previous) == Recognition.Run(Recognition.GaveUp, rec.maxRetriesForRecognition - |previous|)
    decreases rec.maxRetriesForRecognition - |previous|
  {
    var i := |previous|;
    assert samples(i).Ok?;
    assert rec.service(samples(i).value, formats(i), previous) == Recognition.NotFound;
    if |previous| + 1 < rec.maxRetriesForRecognition {
      FixedExhaustionGivesUp(rec, samples, formats, previous + [samples(i).value]);
    }
  }

  /** The current recognizer with the same settings and service and no postprocessors. */
  function Current(rec: Recognizer): Recognition.Recognizer {
    Recognition.Recognizer(rec.sampleDurationMs, rec.maxRetriesForRecognition, [], rec.service)
  }

  /** Over the same samples, the older chain is the current one with no postprocessors. */
  lemma {:induction false} ChainAgreesWithCurrentRevision(rec: Recognizer, samples: nat -> Result<Pcm.PcmData>,
                                                          formats: nat -> AudioFormat, previous: seq<Pcm.PcmData>)
    ensures Chain(rec, samples, formats, previous) == Recognition.Chain(Current(rec), samples, formats, previous)
    decreases rec.maxRetriesForRecognition - |previous|
  {
    if |previous| + 1 < rec.maxRetriesForRecognition && samples(|previous|).Ok? {
      ChainAgreesWithCurrentRevision(rec, samples, formats, previous + [samples(|previous|).value]);
    }
  }

  /** A spilling buffer of this revision as the current revision sees it, not yet closed. */
  function AsCurrent(b: LegacyDiskSpilling.LegacyBuffer): DiskSpilling.SpillingBuffer {
    DiskSpilling.SpillingBuffer(b.format, b.maxInMemory, b.parts, false)
  }

  /** Both revisions take the same sample of the same spilling buffer. */
  lemma SampleAgreesWithCurrentRevision(sampleDurationMs: nat, b: LegacyDiskSpilling.LegacyBuffer)
    ensures TakeSample(sampleDurationMs, Spilling(b)) == Recognition.TakeSample(sampleDurationMs, AsCurrent(b))
  {
    LegacyDiskSpilling.AgreesWithCurrentRevision(b, [], 0, None);
    forall offsetMs: nat, lengthMs: Option<nat>
      ensures GetRange(Spilling(b), offsetMs, lengthMs) == DiskSpilling.GetRange(AsCurrent(b), offsetMs, lengthMs)
    {
      LegacyDiskSpilling.AgreesWithCurrentRevision(b, [], offsetMs, lengthMs);
    }
  }

  /** Over spilling buffers, the older recognition is the current one with no postprocessors. */
  lemma AgreesWithCurrentRevision(rec: Recognizer, provider: nat -> AudioBuffer,
                                  spilling: nat -> DiskSpilling.SpillingBuffer, previous: seq<Pcm.PcmData>)
    requires forall i: nat :: provider(i).Spilling? && spilling(i) == AsCurrent(provider(i).spilling)
    ensures Recognize(rec, provider, previous) == Recognition.Recognize(Current(rec), spilling, previous)
  {
    var legacy := Samples(rec, provider);
    var current := Recognition.Samples(Current(rec), spilling);
    forall i: nat
      ensures legacy(i) == current(i) && Formats(provider)(i) == Recognition.Formats(spilling)(i)
    {
      SampleAgreesWithCurrentRevision(rec.sampleDurationMs, provider(i).spilling);
    }
    ChainAgreesWithCurrentRevision(rec, legacy, Formats(provider), previous);
    Recognition.ChainCongruent(Current(rec), legacy, Formats(provider), current, Recognition.Formats(spilling), previous);
  }
}

=== FILE: wrappers.dfy ===
/** Failure-compatible wrappers shared by every module of the model.
    `Option` stands for Kotlin's nullable types; `Result` stands for a call that
    either returns a value or throws, the message naming the exception. */
module Wrappers {

  datatype Option<+T> = None | Some(value: T) {

    /** Kotlin's `?:`: the wrapped value, or `default` when null. */
    function GetOr(default: T): T {
      match this
      case Some(v) => v
      case None => default
    }
  }

  datatype Result<+T> = Ok(value: T) | Err(msg: string) {

    predicate IsFailure() {
      Err?
    }

    function PropagateFailure<U>(): Result<U>
      requires Err?
    {
      Err(msg)
    }

    function Extract(): T
      requires Ok?
    {
      value
    }
  }

  function Min(a: int, b: int): int {
    if a <= b then a else b
  }
}
